=== FILE: README.md ===
# Movie storyboard bookkeeping, in Dafny

This project models the deterministic bookkeeping of the movie-storyboard tool: a
Flask back end plus a Vue front end that turns a script into storyboard shots and
has AI services draw and animate them. The AI calls are not modelled. What is
modelled is the logic around them:

- **Media naming** (`Media`). The media manager picks the next
  `{id}_v{N}{ext}` name from a directory listing. It also builds web and absolute
  paths, chooses default extensions and builds `data:` URIs.
- **POSIX paths** (`Paths`). `os.path.join`, `str.split('/')`, `normpath` and
  `abspath` as they behave on Linux, with the current directory as a parameter.
- **Background tasks** (`TaskQueue`). The task table runs each task
  pending → processing → success | failed. Its listing is sorted by `created_at`
  in reverse. That stamp is `time.strftime('%H:%M:%S')`, a time of day, so the
  order is latest time of day first and wraps at midnight. The table broadcasts
  over a socket that may be absent or may fail.
- **The context runner** (`Bridge`). It runs a view function as a background job,
  decides whether the save callback runs, and decides which message it raises.
- **The client task store** (`TaskStore`). It counts running tasks and notices a
  task that has just finished between two snapshots.
- **The JSON record stores** (`Records`). These hold series, projects, storyboard
  shots, characters and fusion tasks. They cover dataclass filtering, create, merge
  update, delete, insert-at-index, reorder and the previous-shot lookup.
- **Provider settings** (`Settings`). This covers lookup, the Aliyun key choice,
  key masking in the listing, the upsert that keeps a masked key, and deletion.
- **Request shaping** (`Generation`). `generate_image` and `generate_video` add a
  frame-prompt suffix, fall back to a mock, join the endpoint and resolve
  `static/` frame paths with `abspath`.

Supporting modules:

- `Wrappers`: `Option` and `Result`.
- `Strings`: Python `str` order, `int()`/`str()`, strip and slicing.
- `Json`: decoded JSON values, Python truthiness, `dict.get` and `{**a, **b}`.
- `Sorting`: a stable insertion sort standing for `sorted(key=…)`.

Python exceptions become `Failure` values. Calls into the clock, `uuid4`,
`os.listdir`, `os.getcwd`, the socket, the file system, `mimetypes` and the view
function's outcome are all parameters. Where the source reads the clock more than
once, each reading is a parameter of its own.

## Model

| member | source | states |
|---|---|---|
| Media.MediaDir | media_manager.py:18-24 | The five known media types map to their folders and every other type to `static/temp`. The result is always a relative folder without backslashes. |
| Paths.PathJoin | media_manager.py:82 | `os.path.join` for POSIX: an absolute second part replaces the first; otherwise the result starts with the first part, ends with the second, and adds at most one separator. |
| Paths.JoinSplit | media_manager.py:82 | Joining the pieces of `split('/')` with `/` gives the string back. |
| Paths.SplitJoin | media_manager.py:82 | Splitting the join of slash-free pieces gives the pieces back. |
| Paths.NormPath | media_manager.py:82 | `normpath` never gives an empty string. A rooted path keeps its leading slashes (two only when exactly two) and becomes the normalised components joined by `/`. |
| Paths.AbsPath | media_manager.py:82 | `abspath` is never empty and is rooted whenever the path or the current directory is. |
| Paths.NormNoParent | media_manager.py:82 | Without `..` components, normalising only drops the empty and `.` ones. |
| Paths.RootedNoParent | media_manager.py:82 | At the root, normalising never keeps a `..`. |
| Paths.ParentThenName | media_manager.py:82 | At the root, `..` then a name replaces the last kept component by the name. |
| Media.Directory | media_manager.py:33-34 | A media type's directory lies under the static folder and ends with that type's folder. |
| Media.WebPath | media_manager.py:36-40 | The web path starts with `/` and holds no backslash. When the file name has no backslash it is exactly `/` + folder + `/` + name. |
| Media.AbsolutePath | media_manager.py:77-82 | Empty input gives None and any other input a path. That path is the `abspath` of the static folder joined with the input minus its leading slashes, so it is rooted when the folder or the current directory is. |
| Media.AbsolutePathInsideFolder | media_manager.py:77-82 | Under an absolute static folder, an input without `..` resolves to the folder's normalised components followed by the input's own, minus empty and `.` ones. |
| Media.AbsolutePathParentEscapes | media_manager.py:77-82 | `../name` resolves to the folder's sibling `name`, outside the static folder. |
| Media.Sanitize | media_manager.py:53 | Only `[A-Za-z0-9_-]` survives, the result is never longer, and a string that is already safe is returned unchanged. |
| Media.SanitizeIdempotent | media_manager.py:53 | Sanitising twice is the same as sanitising once. |
| Media.SanitizeConcat | media_manager.py:53 | Sanitising works character by character: it distributes over concatenation. |
| Media.MatchVersion | media_manager.py:60-68 | Only a name starting with `{safe_id}_v` can match the version pattern. |
| Media.VersionedNameMatches | media_manager.py:60-75 | The name built for version v reads back through the pattern as exactly v, so building and matching are inverse. |
| Media.MaxVersionIsUpperBound | media_manager.py:62-72 | No matching entry of the listing has a version above the computed maximum. |
| Media.MaxVersionAttained | media_manager.py:62-72 | The maximum is 0 or the version of some matching entry. |
| Media.GenerateVersionedFilename | media_manager.py:42-75 | An id that is empty or sanitises to nothing gives the random id plus the extension. Any other id gives exactly `{safe_id}_v{M+1}{ext}`, where M is the highest listed version (pinned by MaxVersionIsUpperBound and MaxVersionAttained), so the name is not in the listing. |
| Media.NextNameIsFresh | media_manager.py:62-75 | The name one past the highest listed version is never in the listing. |
| Media.VersionedFilenameIsNewest | media_manager.py:62-75 | The new version is strictly greater than every matching version in the listing. |
| Media.GeneratedNameShape | media_manager.py:49-75 | Every generated name ends with the extension, and a versioned name is fresh. |
| Media.Matching | media_manager.py:64-66 | Only entries that match the pattern are kept. |
| Media.MaxVersionOfMatching | media_manager.py:62-72 | The maximum over the matching entries equals the maximum over the whole listing. |
| Media.MatchingAppend | media_manager.py:64-66 | Filtering matches distributes over concatenation of listings. |
| Media.OnlyMatchesMatter | media_manager.py:57-60 | Two listings with the same matching entries yield the same name. |
| Media.NonMatchingIgnored | media_manager.py:57-60 | Inserting files of another id or extension anywhere in the listing leaves the name unchanged. |
| Media.NextWriteIncrements | media_manager.py:62-75 | After the generated file is written, the next maximum is the old maximum plus one. |
| Media.WriteMany | media_manager.py:62-75 | n successive writes raise the maximum version by exactly n, so writes into an empty directory are numbered 1, 2, … |
| Media.SplitExt | media_manager.py:90 | The extension is empty or a dot-led suffix of the path with no later dot or slash. It is empty only when the last component's text before its last dot is all dots. |
| Media.UploadExtension | media_manager.py:90-92 | The result is the lower-cased extension of the name when it has one. Without one it is `.png` for images and `.mp4` for every other type, audio included. |
| Media.DownloadExtension | media_manager.py:110-116 | An extension of 1 to 5 characters is kept, lower-cased. Otherwise images get `.png`, videos `.mp4` and audio `.mp3`, and other types keep the lower-cased extension they had. |
| Media.BinaryExtension | media_manager.py:141-144 | A truthy extension is kept. Without one, images get `.png`, videos `.mp4` and audio `.mp3`, and other types keep the `None` or empty value. |
| Media.DefaultsAgree | media_manager.py:90-144 | `save_binary` and `download_from_url` share their defaults for the three media types. `save_uploaded_file` agrees with them except for audio, which it gives `.mp4`. |
| Media.Store | media_manager.py:94-96 | The file name is exactly the versioned name `_generate_versioned_filename` gives for the listing, and the web path is the type's web path for it. The name ends with the extension and is fresh for a non-empty safe id. |
| Media.StoredIsNewest | media_manager.py:42-75 | For a non-empty safe id the served path names version M+1, where M is the highest listed version, and every listed version is at most M. |
| Media.SaveUploadedFile | media_manager.py:84-104 | No file name gives "No file provided" and a failing save gives its message. Success happens exactly otherwise, and then the answer is what `Store` writes under the upload's extension, so the web path is the versioned name's. |
| Media.UploadIsNewest | media_manager.py:84-101 | A successful upload with a usable entity id answers with the web path of version M+1 under the upload's extension. |
| Media.DownloadFromUrl | media_manager.py:106-135 | A file is stored exactly when the response status is 200, and then the answer is what `Store` writes under the download extension. |
| Media.DownloadIsNewest | media_manager.py:106-129 | After a 200 with a usable entity id, the answer is the web path of version M+1 under the download extension. |
| Media.SaveBinary | media_manager.py:137-156 | Empty data gives None. An extension still `None` for a non-empty safe id raises TypeError in the filename pattern. A file is stored exactly when the data is non-empty, the write succeeds and that error does not occur, and then the answer is what `Store` writes under the extension text, which is `None` for a missing one and an empty safe id. |
| Media.BinaryIsNewest | media_manager.py:137-152 | A successful save with a usable entity id and a settled extension answers with the web path of version M+1 under that extension. |
| Media.FileToBase64 | media_manager.py:158-181 | Empty input, an `http` input, a missing file or a failed read gives None. Any result is a `data:` URI whose MIME type defaults to `application/octet-stream`. |
| Media.DataUriRoundTrip | media_manager.py:173-179 | The built URI parses back into exactly the MIME type and payload it was built from (section 3 of RFC 2397). |
| TaskQueue.EmitUpdate | task_queue.py:50-67 | No socket means no broadcast. A working socket is sent the sorted listing, and a failing one is swallowed with its message. |
| TaskQueue.Put | task_queue.py:25-30 | Storing a record adds its key, sets it, and leaves every other record alone. |
| TaskQueue.PutFresh | task_queue.py:25-30 | Storing a consistent record under a fresh id keeps the table invariant, adds exactly one record, and appends it to the insertion order. |
| TaskQueue.Submit | task_queue.py:23-33 | `submit` adds one pending record with progress 0 under the new id, with `desc` from the keyword arguments or the default. Other records are unchanged, and `desc` is removed from what the job receives. The record carries the given `created_at` and no error, and the broadcast is `_emit_update` of the new table. |
| TaskQueue.SubmitBroadcastShowsTask | task_queue.py:24-31 | Over a working socket the submission broadcast lists the new pending task and every earlier record. |
| TaskQueue.PendingTask | task_queue.py:25-30 | The record `submit` builds carries its id and satisfies the lifecycle invariant. |
| TaskQueue.SubmitPreservesValid | task_queue.py:23-33 | Submitting under a fresh id keeps the table valid and appends exactly the new record to the listing order. |
| TaskQueue.SubmitIgnoresSocket | task_queue.py:31 | Whether the broadcast happens or fails never changes the table or the job. |
| TaskQueue.Runner | task_queue.py:35-48 | The record is `processing` when the callable runs. A return gives success with progress 100. A raise gives failed, with the message and progress unchanged. Every other record is untouched. |
| TaskQueue.RunBroadcastsShowTask | task_queue.py:36-48 | Over a working socket the first broadcast of a run shows the task processing and the second shows it succeeded or failed as the job did. |
| TaskQueue.RunnerBroadcasts | task_queue.py:37-48 | A run broadcasts twice: nothing without a socket; over a working socket the sorted listing at the call and then at the end; over a failing socket the swallowed error both times. |
| TaskQueue.RunnerLifecycle | task_queue.py:39-46 | A pending task reaches exactly one terminal status: success iff the callable returned, failed iff it raised. The table stays valid. |
| TaskQueue.SubmitThenRun | task_queue.py:23-48 | Submit followed by run leaves a valid table. The new task ends as the job did and every earlier record is as before. |
| TaskQueue.GetListSpec | task_queue.py:69-70 | `get_list` returns every record exactly once and nothing else, ordered non-increasingly by `created_at`, with equal timestamps in insertion order. |
| TaskQueue.InListing | task_queue.py:69-70 | A stored record is listed and is the only listed record with its id. |
| Bridge.ContextRunner | async_bridge.py:4-33 | The callback receives the answer exactly when the answer is a non-empty dictionary with a truthy `success` and a callback exists. Exceptions from the view or the callback are re-raised, and an unsuccessful answer raises. |
| Bridge.FailureMessages | async_bridge.py:27-29 | An unsuccessful answer raises with its `error_msg`, or with "Unknown Error" when it has none. An empty answer raises with "No result". |
| Bridge.RaisesUnlessSaved | async_bridge.py:23-33 | The runner completes without raising iff the answer is a success and either there is no callback or the callback does not raise. |
| Bridge.ExceptionText | async_bridge.py:28-33 | `str(e)` is the string itself for a string argument and the text of any other scalar; a list or dictionary gives its given representation. |
| Bridge.AsJobOutcome | async_bridge.py:31-33 | The job returns iff the runner raised nothing, and otherwise raises with `str()` of the runner's exception. |
| Bridge.BridgeTaskOutcome | async_bridge.py:17-33 | As a queued job, the task fails exactly when the runner raised. Its error is `str()` of the raised value: the view's message, the callback's, the answer's `error_msg`, "Unknown Error" or "No result". |
| TaskStore.CountExtremes | web/movie-storyboard/src/stores/taskStore.js:14 | The counter is 0 iff no task is pending or processing, and equals the list length iff every task is. |
| TaskStore.CountAppend | web/movie-storyboard/src/stores/taskStore.js:14 | The counter of a concatenation is the sum of the counters. |
| TaskStore.CountPermutation | web/movie-storyboard/src/stores/taskStore.js:14 | The counter does not depend on the order of the list. |
| TaskStore.SubmitRaisesCount | web/movie-storyboard/src/stores/taskStore.js:14 | After a server-side submit, the client's counter over the listing is one higher. |
| TaskStore.Find | web/movie-storyboard/src/stores/taskStore.js:48 | `find` returns a task with the id from the list, or none iff no task has it. |
| TaskStore.FindFirst | web/movie-storyboard/src/stores/taskStore.js:48 | `find` returns the task at the first index with the id. |
| TaskStore.HandleTaskUpdate | web/movie-storyboard/src/stores/taskStore.js:43-66 | The list is replaced wholesale and nothing else changes. The notification fires iff some new task finished now. |
| TaskStore.JustFinishedIff | web/movie-storyboard/src/stores/taskStore.js:47-50 | `justFinished` holds iff some new task has a same-id old task, the first such was not a success, and the new one is. Tasks absent before never count. |
| TaskStore.NoticedBetween | web/movie-storyboard/src/stores/taskStore.js:47-50 | A running task that is a success in the next snapshot is noticed. |
| TaskStore.ServerSuccessIsNoticed | web/movie-storyboard/src/stores/taskStore.js:43-66 | When the server runs a pending job to success, the client notices it between the broadcasts before and after. |
| TaskStore.InitSocket | web/movie-storyboard/src/stores/taskStore.js:17-32 | An existing socket leaves the state as it is. Otherwise the socket opens and the fetched list is loaded. |
| TaskStore.InitSocketIdempotent | web/movie-storyboard/src/stores/taskStore.js:18 | Calling `initSocket` a second time changes nothing. |
| Records.FromDict | data_manager.py:31-32 | `from_dict(...).to_dict()` fails iff a required field is missing. Otherwise the keys are exactly the dataclass fields, every field present in the data keeps its value, and every other field takes its default. |
| Records.FromDictRoundTrip | data_manager.py:31-32 | Rebuilding a rebuilt record, with any uuid or clock readings, returns it unchanged. |
| Records.DefaultAt | data_manager.py:20-28 | A missing field takes the default of its first declaration. A time stamp takes the clock reading of its own factory. |
| Records.SeriesFields | data_manager.py:17-28 | A series is missing a required field iff it lacks `id` or `name`. |
| Records.ShotRequired | data_manager.py:54-58 | A shot is missing a required field iff it lacks one of `movie_id`, `scene`, `shot_number`, `visual_description`. |
| Records.ShotIdDefault | data_manager.py:63 | A shot without `id` gets the fresh uuid. |
| Records.FusionFields | data_manager.py:85-105 | A fusion task needs `id`, `scene` and `shot_number`, and has both time stamps among its fields. |
| Records.GetById | data_manager.py:144-146 | The result exists iff some record has the id, and is then the first such record. |
| Records.FindById | data_manager.py:158-159 | The loop stops at the first record with the id, or finds none iff no record has it. |
| Records.SortByKeySpec | data_manager.py:141 | A successful sort returns the same records, ordered by the key in the requested direction, with records of equal key in their original order. |
| Records.SortByKey | data_manager.py:141 | The sort fails iff there are at least two records and some key is not a string. This approximates Python's comparison error. |
| Records.GetSeriesById | data_manager.py:144-146 | Fails iff `get_all_series`' sort fails. Otherwise a series is found iff the stored list holds one with the id, and the one found is the first with the id in `updated_time`-descending order. |
| Records.CreatedSeriesIsFound | data_manager.py:144-154 | A series created under an id no stored series has is what `get_series_by_id` returns for that id, wherever the sort puts it. |
| Records.CreateSeries | data_manager.py:148-154 | The result fails iff `name` is missing. Otherwise the new series has the fresh uuid as id and exactly the series fields, and goes to the front. Every other series field of the data reaches the record unchanged, and a field missing from the data takes its default, each stamp its own clock reading. |
| Records.SeriesStampDefaults | data_manager.py:27-28 | `created_time` and `updated_time` of a series default to the readings of their own factories. |
| Records.TouchMerge | data_manager.py:160 | The merge keeps every key of both records. The patch wins, other keys keep their old values, and `updated_time` is the clock. |
| Records.UpdateSeries | data_manager.py:156-164 | None, with the list untouched, iff no series has the id. Otherwise only the first match is replaced, by the merge stamped with the clock. |
| Records.DeleteById | data_manager.py:166-170 | No record with the id survives, and every other record does. |
| Records.ProviderConfig | data_manager.py:179-183 | The result is total: the first provider with the id, with no earlier provider carrying it, else `{'type': 'mock'}`. |
| Records.ProjectsBySeriesSpec | data_manager.py:196-201 | The result holds every project of the series exactly as often as stored and nothing else, oldest first. |
| Records.InSeries | data_manager.py:199 | The filter keeps only projects of the series, with no project added. |
| Records.InSeriesCount | data_manager.py:199 | The filter keeps every copy of every project of the series. |
| Records.UpdateProject | data_manager.py:220-226 | An empty stored project gives None. Otherwise the result is the merge with `id` forced to the project id and `updated_time` set to the clock. |
| Records.InsertPosition | data_manager.py:263-267 | An int `insert_index` (a bool counts) within `[0, len]` is used as is, and anything else appends. |
| Records.InsertAt | data_manager.py:265 | Insertion grows the list by one, puts the record at the position, and keeps the records before and after it in order. |
| Records.InsertAtRemove | data_manager.py:264 | Taking the inserted record back out returns the original list. |
| Records.CreateShot | data_manager.py:259-270 | The result fails iff `scene`, `shot_number` or `visual_description` is missing. The shot carries the project id and the given or fresh id, every other shot field of the data unchanged, the defaults for the rest, and is inserted at the insert position. |
| Records.CreatedShotIsFound | data_manager.py:246-270 | A shot created under an id no stored shot has is what `get_shot` returns for that id, wherever it was inserted. |
| Records.PatchWithId | data_manager.py:278 | The patch wins over the stored record. `id` is forced to the given id and `updated_time` is the clock. |
| Records.UpdateRebuilt | data_manager.py:272-286 | Shared by shots and fusions. The result fails iff the patched first match misses a required field. It is None with the list unchanged iff no record has the id. Otherwise only the first match is replaced, by the record whose fields are the data's where given, else the stored record's, else the default, with the id kept and the merge's stamp. |
| Records.UpdatedIsFound | data_manager.py:246-286 | After an update, looking the id up again finds exactly the record the update returned, or nothing when it found none. |
| Records.UpdateShot | data_manager.py:272-286 | The failure iff, the None iff, and the first match replaced by the field-by-field rebuild of `{**shot, **data}`: data fields win, unnamed stored fields keep their values, others take the shot defaults. |
| Records.UpdatedShotIsFound | data_manager.py:246-286 | `get_shot` after `update_shot` returns the shot the update returned. |
| Records.UpdateFusion | data_manager.py:371-385 | The same as `UpdateShot` for the fusion schema. |
| Records.UpdatedFusionIsFound | data_manager.py:371-389 | `get_fusion` after `update_fusion` returns the fusion the update returned. |
| Records.RemoveIds | data_manager.py:295-299 | Exactly the records whose id is not listed survive. |
| Records.RemoveIdsAppend | data_manager.py:295-299 | Removal works record by record, so survivors keep their order. |
| Records.RemoveIdsCounts | data_manager.py:295-299 | Removed and kept records together are the original records. |
| Records.RemoveIdsShrinks | data_manager.py:295-299 | Removal shortens the list iff some record has a listed id. |
| Records.ShotNumbered | data_manager.py:253-256 | A found shot is in the list and has the target number. |
| Records.GetPreviousShot | data_manager.py:250-257 | A found shot is numbered one less than the current number. A current number that does not parse gives None. |
| Records.ShotNumberedSpec | data_manager.py:253-256 | The search returns the first shot with the number. When every number parses, it finds none iff no shot has it. |
| Records.UnreadableNumberStops | data_manager.py:253-257 | An unparsable number met before any match makes the lookup give None. |
| Records.PreviousOfNext | data_manager.py:250-257 | Asking for the shot before `str(n + 1)` returns the first shot numbered n. |
| Records.ShotMap | data_manager.py:304 | Each id maps to a shot of the list with that id, and every shot's id is mapped. |
| Records.ShotMapLastWins | data_manager.py:304 | The dictionary comprehension keeps the last shot with each id. |
| Records.NamedPicked | data_manager.py:305 | Every named shot is the map's shot for some requested id. |
| Records.ReorderShots | data_manager.py:301-309 | The result holds only input shots. It ends with exactly the shots whose id is not requested, in their stored order. Before them come shots with requested ids, in the order of the requested ids when those have no repeats. |
| Records.NamedInOrder | data_manager.py:305 | The named shots carry requested ids and, without repeats in the request, come in the request's order. |
| Records.PresentInOrder | data_manager.py:305 | Filtering a request without repeats keeps its order. |
| Records.ReorderLayout | data_manager.py:305-308 | Listed shots come first, each named in the order, followed by the unlisted ones. |
| Records.ReorderKeepsEveryId | data_manager.py:301-309 | Reordering never loses a shot's id. |
| Records.ReorderPermutes | data_manager.py:301-309 | With distinct shot ids and a duplicate-free order, the result is a permutation of the shots. |
| Records.NamedAreKept | data_manager.py:304-305 | With distinct ids, the named shots are exactly the shots whose id is listed. |
| Records.CreateCharacter | data_manager.py:315-327 | The new character has exactly the five keys, the fresh id, the clock, the given name and description and an `image_url` defaulting to "", and is appended. |
| Records.UpdateCharacter | data_manager.py:329-340 | None, with the list untouched, iff no character has the id. Otherwise only the first match is replaced by the plain merge. |
| Records.CreatedCharacterUpdatable | data_manager.py:315-340 | A character created under an id no stored character has is the record a later update of that id merges into, at the end of the list, with nothing else changed. |
| Records.CreateFusion | data_manager.py:352-369 | The result fails iff `scene` or `shot_number` is missing. The fusion gets the fresh id and its two stamps from two separate clock readings, every other fusion field of the data unchanged and the defaults for the rest, and is inserted at the insert position. |
| Records.CreatedFusionIsFound | data_manager.py:352-389 | A fusion created under an id no stored fusion has is what `get_fusion` returns for that id, wherever it was inserted. |
| Settings.FindProvider | main.py:61-67 | The result is a provider with the id that no earlier provider carries, or None iff no provider has it. |
| Settings.ProviderConfigAgrees | data_manager.py:179-183 | The data manager's lookup is the same search, with the mock record for None. |
| Settings.FirstEnabledAliyun | main.py:76-79 | The result is an enabled Aliyun provider with no enabled Aliyun provider before it, or None iff there is none. |
| Settings.AliyunKey | main.py:69-80 | A truthy id naming a non-empty provider gives that provider's key. Otherwise the first enabled Aliyun provider's key is used, else None. |
| Settings.NamedProviderWins | main.py:71-73 | A provider named by a non-empty id that exists always supplies the key. |
| Settings.MaskKey | main.py:153-154 | A falsy key is shown as it is. A string key becomes its first six characters plus the mask. A truthy non-string raises. |
| Settings.MaskedKeyHasMarker | main.py:154 | A masked key always contains the mask marker. |
| Settings.DefaultModelTypes | main.py:159-161 | The loop over a list of models types each entry in order, and fails iff some entry cannot be typed. |
| Settings.TypedModel | main.py:159-161 | After the step the entry contains `type`, and an entry that already did is unchanged. A dictionary gains `type: 'image'` when it lacks the key. A string or list without `'type'` raises, and so does a scalar. |
| Settings.TypedModels | main.py:159-161 | A list of models is typed entry by entry. A dictionary is iterated by its keys and a string by its characters, each going through the same test, so they pass unchanged or raise. Any other value is not iterable. |
| Settings.TypedModelsIdempotent | main.py:159-161 | Typing the models of a listing again changes nothing. |
| Settings.ListedProvider | main.py:151-163 | A listed provider has its own keys plus `models`, its key masked, and every other field unchanged. `models` is the typed stored value, or `[]` when missing. The entry fails iff masking the key or typing the models fails. |
| Settings.ListProviders | main.py:145-165 | The listing shows every provider in order and fails iff one of them cannot be listed. |
| Settings.IsMasked | main.py:191 | For a string key the test is a substring test for the mask. |
| Settings.NewProvider | main.py:176-183 | The new provider has exactly six keys, the request's id or the fresh uuid, and the request's values where given. |
| Settings.IndexOfId | main.py:189-190 | The scan finds the first provider with the id, finds none iff none has it, and fails only when a provider lacks `id`. |
| Settings.IndexOfIdFirst | main.py:189-190 | The scan stops at the first provider with the id when every provider before it has an id. |
| Settings.SaveProvider | main.py:167-207 | A truthy id that some provider carries is replaced in place, and the length is kept iff that is the case. A missing or falsy id, or one the scan does not find, appends. The save fails iff the id is truthy and either the scan meets a provider without an id, or the id is found and the key sent cannot be tested for the mask. The answer is the new provider's id. |
| Settings.SaveUnknownAppends | main.py:187-201 | When every stored provider has an id, a truthy id none of them carries appends one entry with the request's fields and key, keeping the stored list in front. |
| Settings.MaskedKeyRoundTrip | main.py:153-154 | Sending back the listed, masked key keeps the stored key. |
| Settings.PlainKeyReplaces | main.py:191-196 | A key sent without the mask replaces the stored key. |
| Settings.DeleteProvider | main.py:209-218 | Every provider with the id goes and the others stay. The status is 404 iff the list did not shrink. A provider without `id` raises. |
| Generation.FramePrompt | main.py:461-464 | The prompt is kept as a prefix. The end suffix follows for `frame_type == 'end'`, and the start suffix otherwise. |
| Generation.FramePromptInjective | main.py:461-464 | The prompt can be read back from the shaped prompt. |
| Generation.SafePrompt | main.py:472 | A non-empty prompt gives its first 20 characters, with every space turned into `+`. An empty one gives "Scene". |
| Generation.MockImageUrl | main.py:472-474 | The mock URL is the placeholder host, then the frame label, `:+` and the safe prompt, then a backslash and `n(Mock)`. |
| Generation.MockImageShowsFrame | main.py:472-474 | The label in the URL starts with `E` iff the frame is the end frame, and every non-space character among the prompt's first 20 appears at its place. |
| Generation.MockNeverScene | main.py:472 | A shaped prompt is never empty, so the "Scene" fallback is never used for a mock image. |
| Generation.JoinUrlOneSlash | main.py:486-493 | The join is the base without its trailing slash, one `/`, and the path without its leading slash. |
| Generation.FindModel | main.py:483 | The search finds the first model with the name: every model before it was passed over. None means every model was passed over, and a failure means a model without `name` was reached first. |
| Generation.ModelConfig | main.py:482-483 | For a list of models the result is the search. A `models` that is an empty string or dictionary gives None, and any other non-list raises. |
| Generation.FullEndpoint | main.py:485-493 | Without a truthy model path the endpoint is the base URL. With string base and path it is their join with one slash. The result fails iff the search fails or the path and base cannot be joined. |
| Generation.EndpointOfFirstNamedModel | main.py:483-493 | The endpoint is joined from the base URL and the path of the first model with the name. |
| Generation.StaticPath | main.py:549-555 | Only `/static/…` and `static/…` frames resolve, and they resolve as the media manager's absolute path under `STATIC_FOLDER`. Other values give None, and a truthy non-string raises. |
| Generation.FrameUnderWorkingDir | main.py:549-555 | From an absolute working directory, a frame without `..` resolves to the directory's normalised components followed by the frame's own. |
| Generation.GenerateImage | main.py:451-507 | A missing or mock provider gives the mock URL for the shaped prompt. Otherwise the request fails iff the endpoint cannot be built. An Aliyun provider is called with the shaped prompt, the key, the model (default `qwen-image-plus`) and the endpoint. Any other type is unsupported. |
| Generation.ImageCallUsesModelPath | main.py:477-500 | An Aliyun provider is called with the endpoint joined from its base URL and the path of the first model with the requested name. |
| Generation.GenerateVideo | main.py:509-578 | A missing or mock provider gives the mock video. Otherwise the request fails iff the endpoint cannot be built or, for Aliyun, a frame is a truthy non-string. An Aliyun provider is called with the raw prompt, the key, the model (default `wanx2.1-kf2v-plus`), the endpoint and the resolved frame paths. Any other type is unsupported. |
| Json.Merge | data_manager.py:160 | `{**a, **b}` has both key sets, and the right-hand value wins. |
| Json.PyIntOfPyStr | data_manager.py:254-255 | `int(str(i))` gives back `i`. |
| Strings.IntToStringRoundTrip | data_manager.py:253 | `int()` reads `str(i)` back, with any surrounding whitespace. |
| Strings.NatToStringRoundTrip | media_manager.py:68 | The digits of `str(n)` read back as n. |
| Sorting.SortSpec | task_queue.py:70 | The stable sort is a permutation, is ordered by the key in the requested direction, and keeps records of equal key in their original order. |

## Left out

- **I/O and nondeterminism.** File reads and writes, directory creation, HTTP
  requests, `time.sleep` and logging are outside the model. The directory listing,
  the uuid, the clock, the MIME guess, the base64 text, the save/write/download
  outcomes, the socket and the view function's outcome are parameters.
- `os.path.abspath`: symbolic links play no part, as in the source. The current
  directory is a parameter.
- **Concurrency.** The thread pool, Socket.IO delivery and any race between the
  version scan and a write are left out. The task table is a sequential state
  machine.
- **Unicode.** `str.lower` only folds ASCII. `\d` in the version pattern matches
  only ASCII digits. `int()` accepts ASCII whitespace and digits but not
  underscores.
- **Floating point.** JSON numbers are integers. The float-keyed shot sort in
  `main.py` is left out.
- `init_socketio`: not modelled as an operation; the socket it installs is a
  parameter of `TaskQueue.EmitUpdate`.
- **Other files.** `ai_service.py`, `jianying_exporter.py`, `gui.py` and the
  remaining front-end stores and wiring files are not part of this model.
- **Unmodelled routes.** `create_project`, `delete_project`, the script, text and
  analysis routes, and the plain getters (`get_shots`, `get_characters`,
  `get_fusions`, `get_project`) are left out. They read or write files and have no
  logic beyond that.
- Media.DownloadExtension: an extension longer than five characters is kept for a
  type other than image, video or audio. This is stated as written.
- Media.FileToBase64: the `:` and `;base64,` layout is stated in
  `Media.DataUriRoundTrip`, which assumes the MIME type contains no `;`.
- Generation.GenerateImage: requires that `str()` of the prompt is covered, so the
  prompt must be a scalar. `str()` of a list or dictionary is not modelled.
- Generation.FullEndpoint: every exception of the model search is one failure.
  The model does not tell Python's TypeError from its KeyError.
- Settings.ListedProvider: the same holds for the exceptions of the typing loop.
  The in-place mutation of the stored models' `type` is not modelled, since the
  settings are read fresh on each request.
- Settings.IsMasked: for a list or dictionary key the test is not stated in the
  contract beyond its result type.
- Records.FindById: requires every record to have `id`. The source would raise
  KeyError on a record without one; `Settings.DeleteProvider` models that raise.
- Records.GetById, Records.UpdateSeries, Records.DeleteById, Records.RemoveIds,
  Records.GetSeriesById, Records.CreateSeries, Records.CreateShot,
  Records.UpdateRebuilt, Records.UpdateShot, Records.UpdateFusion,
  Records.ShotMap, Records.ReorderShots, Records.CreateCharacter,
  Records.UpdateCharacter, Records.CreateFusion: these require every stored record
  to carry an `id`, which every create operation guarantees.
- Records.SortByKey: a non-string key is treated as a failure as soon as the list
  has two records. Python raises only when it actually compares mismatched types,
  so a list whose keys are all integers, for example, would sort in the source.
- Records.ReorderPermutes: requires distinct ids and a duplicate-free order. An
  unhashable id in `set(ordered_ids)` is not modelled.
- Bridge.ContextRunner: a request body that is not a JSON object is not modelled.
- Bridge.ExceptionText: `str()` of a list or dictionary `error_msg` is Python's
  `repr`, which the model takes as a parameter instead of computing it.
- TaskQueue.GetListSpec: `created_at` is a time of day, so the order wraps at
  midnight. A task stamped 23:59 is listed before one stamped 00:01 the next day.
  This is stated as written.
- Settings.FindProvider, Settings.IndexOfId, Records.ProviderConfig, Records.InSeries,
  Records.RemoveIds, Records.ShotMap, Generation.FindModel:
  ids and names are compared as JSON values. Python's `==` and hashing also equate
  `1` with `True` and `0` with `False`, so such values would match in the source but
  not here. `Records.HasId` compares with a string, where the two agree.

=== FILE: bridge.dfy ===
/** `context_runner` of `async_bridge.py`: runs a view function inside a synthetic
    request, reads the JSON it answered, and either hands a successful result to the
    save callback or raises. Flask's request context is outside the model; the view's
    answer and the callback's behaviour are parameters. */
module Bridge {
  import opened Wrappers
  import opened Json
  import opened Strings
  import TaskQueue

  /** How the view function ended: it raised with the given `str(e)`, or it answered
      with a response whose `get_json()` is `body`. A view that answers with a
      `(response, status)` tuple, as the error answers of `main.py` do, is
      `ViewRaised("'tuple' object has no attribute 'get_json'")`: calling `get_json()`
      on the tuple raises inside the same `try`. */
  datatype ViewOutcome = ViewRaised(message: string) | ViewAnswered(body: Json)

  /** What the run did: the record handed to the save callback, if it was called, and
      the argument of the exception that left the runner, if one did. */
  datatype RunResult = RunResult(saved: Option<Record>, raised: Option<Json>)

  /** The message of the `AttributeError` raised by `result.get` on a truthy value that
      is not a dictionary. */
  function NoGetMessage(v: Json): string
  {
    var name := match v
      case JBool(_) => "bool"
      case JInt(_) => "int"
      case JStr(_) => "str"
      case _ => "list";
    "'" + name + "' object has no attribute 'get'"
  }

  /** The argument of the exception raised for an unsuccessful answer. */
  function FailureArg(result: Json): Json
  {
    if !Truthy(result) then JStr("No result")
    else match result
      case JObj(f) => GetOr(f, "error_msg", JStr("Unknown Error"))
      case _ => JStr(NoGetMessage(result))
  }

  /** Whether the answer counts as success: a non-empty dictionary whose `success` is
      truthy. */
  predicate Succeeded(result: Json)
  {
    result.JObj? && |result.fields| > 0 && Truthy(Get(result.fields, "success"))
  }

  /** `context_runner(app, target, data, save_callback)`. `hasCallback` says whether a
      callback was given and `callbackError` what it raises, if anything. */
  function ContextRunner(view: ViewOutcome, hasCallback: bool, callbackError: Option<string>): (r: RunResult)
    ensures r.saved.Some? <==> view.ViewAnswered? && Succeeded(view.body) && hasCallback
    ensures r.saved.Some? ==> r.saved == Some(view.body.fields)
    ensures view.ViewRaised? ==> r.raised == Some(JStr(view.message))
    ensures view.ViewAnswered? && Succeeded(view.body) && !hasCallback ==> r.raised.None?
    ensures view.ViewAnswered? && Succeeded(view.body) && hasCallback ==>
      r.raised == (if callbackError.Some? then Some(JStr(callbackError.value)) else None)
    ensures view.ViewAnswered? && !Succeeded(view.body) ==> r.raised == Some(FailureArg(view.body))
  {
    match view
    case ViewRaised(msg) => RunResult(None, Some(JStr(msg)))
    case ViewAnswered(result) =>
      if Truthy(result) && !result.JObj? then
        RunResult(None, Some(JStr(NoGetMessage(result))))
      else if Succeeded(result) then
        if hasCallback then
          RunResult(Some(result.fields), if callbackError.Some? then Some(JStr(callbackError.value)) else None)
        else RunResult(None, None)
      else RunResult(None, Some(FailureArg(result)))
  }

  /** An unsuccessful dictionary answer raises with its `error_msg`, or with
      `'Unknown Error'` when it has none; an empty or null answer raises with
      `'No result'`. */
  lemma FailureMessages(fields: Record, result: Json)
    ensures |fields| > 0 && !Truthy(Get(fields, "success")) ==>
      ContextRunner(ViewAnswered(JObj(fields)), true, None).raised
        == Some(if "error_msg" in fields then fields["error_msg"] else JStr("Unknown Error"))
    ensures !Truthy(result) ==> ContextRunner(ViewAnswered(result), true, None).raised == Some(JStr("No result"))
  {
  }

  /** The runner raises exactly when the answer is not a success or something it called
      raised; a success with no callback completes quietly. */
  lemma RaisesUnlessSaved(view: ViewOutcome, hasCallback: bool, callbackError: Option<string>)
    ensures var r := ContextRunner(view, hasCallback, callbackError);
      r.raised.None? <==> view.ViewAnswered? && Succeeded(view.body) && (!hasCallback || callbackError.None?)
  {
  }

  /** `str(e)` for the exception raised with `arg`: the text of a scalar, and for a
      list or dictionary `repr`, its Python representation, which is a parameter. */
  function ExceptionText(arg: Json, repr: string): (r: string)
    ensures arg.JStr? ==> r == arg.s
    ensures arg.JArr? || arg.JObj? ==> r == repr
    ensures PyStr(arg).Some? ==> r == PyStr(arg).value
  {
    match PyStr(arg)
    case Some(msg) => msg
    case None => repr
  }

  /** How the task queue sees a runner used as the submitted job: it returned, or it
      raised with `str(e)`. */
  function AsJobOutcome(r: RunResult, repr: string): (o: TaskQueue.Outcome)
    ensures o.Returned? <==> r.raised.None?
    ensures r.raised.Some? ==> o == TaskQueue.Raised(ExceptionText(r.raised.value, repr))
  {
    match r.raised
    case None => TaskQueue.Returned
    case Some(arg) => TaskQueue.Raised(ExceptionText(arg, repr))
  }

  /** Run as a queued job, the runner's failure becomes the task's: the task fails with
      the runner's message exactly when the runner raised, and succeeds otherwise.
      The message is the view's, the callback's, the answer's `error_msg`,
      `'Unknown Error'` or `'No result'`. */
  lemma BridgeTaskOutcome(q: TaskQueue.Queue, taskId: string, view: ViewOutcome, hasCallback: bool,
                          callbackError: Option<string>, repr: string)
    requires taskId in q.tasks
    ensures var r := ContextRunner(view, hasCallback, callbackError);
      var t := TaskQueue.Runner(q, taskId, AsJobOutcome(r, repr)).final.tasks[taskId];
      && (t.status == TaskQueue.Failed <==> r.raised.Some?)
      && (t.status == TaskQueue.Succeeded <==> r.raised.None?)
      && (r.raised.Some? ==> t.error == Some(ExceptionText(r.raised.value, repr)))
      && (view.ViewRaised? ==> t.error == Some(view.message))
      && (view.ViewAnswered? && !Truthy(view.body) ==> t.error == Some("No result"))
      && (view.ViewAnswered? && Succeeded(view.body) && hasCallback && callbackError.Some? ==>
            t.error == Some(callbackError.value))
      && (view.ViewAnswered? && view.body.JObj? && |view.body.fields| > 0 && !Succeeded(view.body) ==>
            t.error == Some(ExceptionText(GetOr(view.body.fields, "error_msg", JStr("Unknown Error")), repr)))
  {
  }
}

=== FILE: generation.dfy ===
/** How `generate_image` and `generate_video` of `main.py` shape a request before
    handing it to the AI service: the prompt suffix for the frame, the mock answer
    when no real provider is configured, the endpoint built from the provider's base
    URL and the model's path, and the local paths of `/static/` frames. The calls to
    the service itself and the `sleep` before a mock answer are outside the model;
    the current directory `abspath` starts from is a parameter. */
module Generation {
  import opened Wrappers
  import opened Json
  import opened Strings
  import Settings
  import Paths
  import Media

  /* ---------- the prompt ---------- */

  const EndSuffix := ", end frame of the shot, showing the result of the action, consistent style"
  const StartSuffix := ", start frame of the shot, cinematic composition"

  /** `frame_type == 'end'`. */
  predicate IsEndFrame(frameType: Json)
  {
    frameType == JStr("end")
  }

  /** The prompt sent for a frame: the end-frame suffix for `'end'`, the start-frame
      suffix for anything else (a missing `frame_type` counts as `'start'`). */
  function FramePrompt(prompt: string, frameType: Json): (r: string)
    ensures StartsWith(r, prompt)
    ensures IsEndFrame(frameType) ==> r[|prompt|..] == EndSuffix
    ensures !IsEndFrame(frameType) ==> r[|prompt|..] == StartSuffix
  {
    prompt + (if IsEndFrame(frameType) then EndSuffix else StartSuffix)
  }

  /** The suffix is all that is added: the prompt can be read back from the result. */
  lemma FramePromptInjective(p1: string, p2: string, frameType: Json)
    requires FramePrompt(p1, frameType) == FramePrompt(p2, frameType)
    ensures p1 == p2
  {
    var r := FramePrompt(p1, frameType);
    var suffix := if IsEndFrame(frameType) then EndSuffix else StartSuffix;
    assert |p1| == |r| - |suffix| == |p2|;
    assert p1 == r[..|p1|] == p2;
  }

  /* ---------- the mock answers ---------- */

  /** `not config or config.get('type') == 'mock'`. */
  predicate UseMock(config: Option<Record>)
  {
    config.None? || |config.value| == 0 || Get(config.value, "type") == JStr("mock")
  }

  /** `prompt[:20].replace(" ", "+") if prompt else "Scene"`: the first 20 characters,
      each space turned into `+`. */
  function SafePrompt(prompt: string): (r: string)
    ensures |prompt| > 0 ==> |r| == (if |prompt| < 20 then |prompt| else 20)
    ensures |prompt| > 0 ==> forall i :: 0 <= i < |r| ==> r[i] == if prompt[i] == ' ' then '+' else prompt[i]
    ensures |prompt| == 0 ==> r == "Scene"
  {
    if |prompt| > 0 then ReplaceChar(Take(prompt, 20), ' ', '+') else "Scene"
  }

  const MockImagePrefix := "https://placehold.co/600x400/2c3e50/ffffff?text="
  /** The f-string's `\\n` is a backslash and an `n`, not a line break. */
  const MockImageSuffix := "\\n(Mock)"
  const MockVideoUrl := "https://www.w3schools.com/html/mov_bbb.mp4"

  /** `"EndFrame" if frame_type == 'end' else "StartFrame"`. */
  function FrameLabel(frameType: Json): string
  {
    if IsEndFrame(frameType) then "EndFrame" else "StartFrame"
  }

  /** The placeholder image URL for a frame: the host, the frame's label, `:+`, the
      safe prompt and the `\\n(Mock)` tail. */
  function MockImageUrl(prompt: string, frameType: Json): (r: string)
    ensures StartsWith(r, MockImagePrefix) && EndsWith(r, MockImageSuffix)
    ensures |r| >= |MockImagePrefix| + |MockImageSuffix|
      && r[|MockImagePrefix|..|r| - |MockImageSuffix|] == FrameLabel(frameType) + ":+" + SafePrompt(prompt)
  {
    var caption := FrameLabel(frameType) + ":+" + SafePrompt(prompt);
    var r := MockImagePrefix + caption + MockImageSuffix;
    assert r[..|MockImagePrefix|] == MockImagePrefix;
    assert r[|r| - |MockImageSuffix|..] == MockImageSuffix;
    assert r[|MockImagePrefix|..|r| - |MockImageSuffix|] == caption;
    r
  }

  /** The placeholder tells the two frames apart: its text starts with `E` exactly
      for an end frame, and shows each of the first 20 characters of the prompt that
      is not a space. */
  lemma MockImageShowsFrame(prompt: string, frameType: Json)
    ensures var r := MockImageUrl(prompt, frameType);
      r[|MockImagePrefix|] == 'E' <==> IsEndFrame(frameType)
    ensures var r := MockImageUrl(prompt, frameType);
      var at := |MockImagePrefix| + |FrameLabel(frameType)| + 2;
      forall i :: 0 <= i < |prompt| && i < 20 && prompt[i] != ' ' ==> at + i < |r| && r[at + i] == prompt[i]
  {
    var r := MockImageUrl(prompt, frameType);
    var caption := FrameLabel(frameType) + ":+" + SafePrompt(prompt);
    var at := |MockImagePrefix| + |FrameLabel(frameType)| + 2;
    assert r[|MockImagePrefix|..|r| - |MockImageSuffix|] == caption;
    assert r[|MockImagePrefix|] == caption[0] == FrameLabel(frameType)[0];
    forall i | 0 <= i < |prompt| && i < 20 && prompt[i] != ' '
      ensures at + i < |r| && r[at + i] == prompt[i]
    {
      assert caption[|FrameLabel(frameType)| + 2 + i] == SafePrompt(prompt)[i];
    }
  }

  /** The prompt a mock image is labelled with already carries its suffix, so it is
      never empty and the `"Scene"` fallback is never used: the label shows the
      first 20 characters of the prompt as sent. */
  lemma MockNeverScene(prompt: string, frameType: Json)
    ensures SafePrompt(FramePrompt(prompt, frameType)) == ReplaceChar(Take(FramePrompt(prompt, frameType), 20), ' ', '+')
  {
    var p := FramePrompt(prompt, frameType);
    assert |p| >= |StartSuffix| || |p| >= |EndSuffix|;
  }

  /* ---------- the endpoint ---------- */

  /** The junction of base URL and path, with exactly one `/` between them. */
  function JoinUrl(base: string, path: string): (r: string)
  {
    if EndsWith(base, "/") && StartsWith(path, "/") then base + path[1..]
    else if !EndsWith(base, "/") && !StartsWith(path, "/") then base + "/" + path
    else base + path
  }

  /** The joined URL is the base without its trailing `/`, one `/`, and the path
      without its leading `/`. */
  lemma JoinUrlOneSlash(base: string, path: string)
    ensures var b := if EndsWith(base, "/") then base[..|base| - 1] else base;
      var p := if StartsWith(path, "/") then path[1..] else path;
      JoinUrl(base, path) == b + "/" + p
  {
    if EndsWith(base, "/") {
      assert base == base[..|base| - 1] + "/";
    }
    if StartsWith(path, "/") {
      assert path == "/" + path[1..];
    }
  }

  /** A model the search passes over: a dictionary whose `name` is another one. */
  predicate PassedOver(m: Json, modelName: Json)
  {
    m.JObj? && "name" in m.fields && m.fields["name"] != modelName
  }

  /** Every model before index `k` is passed over. */
  predicate PassedUpTo(models: seq<Json>, modelName: Json, k: int)
  {
    forall j :: 0 <= j < k && j < |models| ==> PassedOver(models[j], modelName)
  }

  /** A model whose `name` can be read. */
  predicate Named(m: Json)
  {
    m.JObj? && "name" in m.fields
  }

  /** `next((m for m in models if m['name'] == model_name), None)`: the first model
      with the name. A model without a `name` raises KeyError, and a list element
      that is not a dictionary raises TypeError, once the search reaches it. */
  function FindModel(models: seq<Json>, modelName: Json): (r: Result<Option<Record>, string>)
    ensures r.Success? && r.value.Some? ==> "name" in r.value.value && r.value.value["name"] == modelName
    ensures r.Success? && r.value.Some? ==> exists k :: 0 <= k < |models| && models[k] == JObj(r.value.value) && PassedUpTo(models, modelName, k)
    ensures r.Success? && r.value.None? ==> PassedUpTo(models, modelName, |models|)
    ensures r.Failure? ==> exists k :: 0 <= k < |models| && !Named(models[k]) && PassedUpTo(models, modelName, k)
  {
    if |models| == 0 then Success(None)
    else if !models[0].JObj? then Failure("TypeError: model is not a dictionary")
    else if "name" !in models[0].fields then Failure("KeyError: 'name'")
    else if models[0].fields["name"] == modelName then Success(Some(models[0].fields))
    else
      var rest := FindModel(models[1..], modelName);
      FindModelStep(models, modelName, rest);
      rest
  }

  /** What the search over `models[1..]` says carries over to `models` when the
      first model is passed over. */
  lemma FindModelStep(models: seq<Json>, modelName: Json, rest: Result<Option<Record>, string>)
    requires |models| > 0 && PassedOver(models[0], modelName)
    requires rest.Success? && rest.value.Some? ==>
      exists k :: 0 <= k < |models| - 1 && models[1..][k] == JObj(rest.value.value) && PassedUpTo(models[1..], modelName, k)
    requires rest.Success? && rest.value.None? ==> PassedUpTo(models[1..], modelName, |models| - 1)
    requires rest.Failure? ==>
      exists k :: 0 <= k < |models| - 1 && !Named(models[1..][k]) && PassedUpTo(models[1..], modelName, k)
    ensures rest.Success? && rest.value.Some? ==>
      exists k :: 0 <= k < |models| && models[k] == JObj(rest.value.value) && PassedUpTo(models, modelName, k)
    ensures rest.Success? && rest.value.None? ==> PassedUpTo(models, modelName, |models|)
    ensures rest.Failure? ==> exists k :: 0 <= k < |models| && !Named(models[k]) && PassedUpTo(models, modelName, k)
  {
    var tail := models[1..];
    assert forall k :: 1 <= k < |models| ==> models[k] == tail[k - 1];
    if rest.Success? && rest.value.Some? {
      var k :| 0 <= k < |tail| && tail[k] == JObj(rest.value.value) && PassedUpTo(tail, modelName, k);
      assert models[k + 1] == tail[k];
    } else if rest.Failure? {
      var k :| 0 <= k < |tail| && !Named(tail[k]) && PassedUpTo(tail, modelName, k);
      assert models[k + 1] == tail[k];
    }
  }

  /** The model entry for `model_name` in `config.get('models', [])`. Iterating a
      string or a dictionary yields strings, which cannot be indexed by `'name'`, so
      only an empty one gets through; any other non-list value is not iterable. */
  function ModelConfig(config: Record, modelName: Json): (r: Result<Option<Record>, string>)
    ensures GetOr(config, "models", JArr([])).JArr? ==> r == FindModel(GetOr(config, "models", JArr([])).items, modelName)
    ensures !GetOr(config, "models", JArr([])).JArr? ==>
      (r.Success? <==> GetOr(config, "models", JArr([])) in {JStr(""), JObj(map[])}) && (r.Success? ==> r.value.None?)
  {
    match GetOr(config, "models", JArr([]))
    case JArr(items) => FindModel(items, modelName)
    case JStr(chars) => if |chars| == 0 then Success(None) else Failure("TypeError: string indices must be integers")
    case JObj(keys) => if |keys| == 0 then Success(None) else Failure("TypeError: string indices must be integers")
    case _ => Failure("TypeError: models is not iterable")
  }

  /** `model_config and model_config.get('path')`. */
  predicate HasPath(found: Option<Record>)
  {
    found.Some? && Truthy(Get(found.value, "path"))
  }

  /** `full_endpoint`: the base URL alone, unless the model found for the name has a
      truthy `path`, in which case the two are joined with one `/`. A path or base
      URL that is not a string has no `startswith`/`endswith` and raises. */
  function FullEndpoint(config: Record, modelName: Json): (r: Result<Json, string>)
    ensures var base := GetOr(config, "base_url", JStr("")); var found := ModelConfig(config, modelName);
      && (found.Success? && !HasPath(found.value) ==> r == Success(base))
      && (found.Success? && HasPath(found.value) && base.JStr? && found.value.value["path"].JStr? ==>
            r == Success(JStr(JoinUrl(base.s, found.value.value["path"].s))))
      && (r.Failure? <==> found.Failure? || (HasPath(found.value) && !(base.JStr? && found.value.value["path"].JStr?)))
  {
    var base := GetOr(config, "base_url", JStr(""));
    match ModelConfig(config, modelName)
    case Failure(e) => Failure(e)
    case Success(found) =>
      if !HasPath(found) then Success(base)
      else if !found.value["path"].JStr? || !base.JStr? then Failure("AttributeError: not a string")
      else Success(JStr(JoinUrl(base.s, found.value["path"].s)))
  }

  /** When the models list names the model at index `k` for the first time and that
      model has a string `path`, the endpoint is the base URL joined with that path;
      when no model has the name, the endpoint is the base URL. */
  lemma EndpointOfFirstNamedModel(config: Record, modelName: Json, items: seq<Json>, k: nat, base: string)
    requires GetOr(config, "models", JArr([])) == JArr(items) && GetOr(config, "base_url", JStr("")) == JStr(base)
    requires k < |items| && items[k].JObj? && "name" in items[k].fields && items[k].fields["name"] == modelName
    requires PassedUpTo(items, modelName, k)
    requires Get(items[k].fields, "path").JStr? && Get(items[k].fields, "path") != JStr("")
    ensures FullEndpoint(config, modelName) == Success(JStr(JoinUrl(base, Get(items[k].fields, "path").s)))
  {
    FirstNamedFound(items, modelName, k);
  }

  /** The search stops at the first model with the name. */
  lemma {:induction false} FirstNamedFound(items: seq<Json>, modelName: Json, k: nat)
    requires k < |items| && items[k].JObj? && "name" in items[k].fields && items[k].fields["name"] == modelName
    requires PassedUpTo(items, modelName, k)
    ensures FindModel(items, modelName) == Success(Some(items[k].fields))
  {
    if k > 0 {
      assert PassedUpTo(items[1..], modelName, k - 1) by {
        assert forall j :: 0 <= j < k - 1 ==> items[1..][j] == items[j + 1];
      }
      FirstNamedFound(items[1..], modelName, k - 1);
    }
  }

  /* ---------- frame paths ---------- */

  /** `STATIC_FOLDER`: the current directory. */
  const StaticFolder := "."

  /** A frame URL under `static/`, with or without its leading slash. */
  predicate UnderStatic(u: string)
  {
    StartsWith(u, "/static/") || StartsWith(u, "static/")
  }

  /** A start or end frame is read from disk only when its URL is under `static/`;
      it is then resolved the way the media manager resolves a web path, with
      `abspath` from `cwd`. A truthy frame that is not a string has no
      `startswith` and raises. */
  function StaticPath(frame: Json, cwd: string): (r: Result<Option<string>, string>)
    ensures r.Success? && r.value.Some? ==>
      frame.JStr? && UnderStatic(frame.s) && Media.AbsolutePath(StaticFolder, cwd, frame.s) == Some(r.value.value)
    ensures frame.JStr? && UnderStatic(frame.s) ==> r.Success? && r.value.Some?
    ensures r.Success? && r.value.None? ==> !Truthy(frame) || (frame.JStr? && !UnderStatic(frame.s))
    ensures r.Failure? <==> Truthy(frame) && !frame.JStr?
  {
    if !Truthy(frame) then Success(None)
    else if !frame.JStr? then Failure("AttributeError: 'startswith'")
    else if UnderStatic(frame.s) then
      Success(Some(Paths.AbsPath(cwd, Paths.PathJoin(StaticFolder, LStrip(frame.s, '/')))))
    else Success(None)
  }

  /** From an absolute working directory, a frame under `static/` without `..`
      components resolves to the directory's normalised components followed by the
      frame's own, minus empty and `.` ones. */
  lemma FrameUnderWorkingDir(u: string, cwd: string)
    requires StartsWith(cwd, "/") && UnderStatic(u)
    requires Paths.NoParent(Paths.SplitSlash(LStrip(u, '/')))
    ensures var dir := Paths.Norm([], Paths.SplitSlash(cwd), true);
      StaticPath(JStr(u), cwd)
        == Success(Some(Paths.Lead(cwd) + Paths.JoinSlash(dir + Paths.Kept(Paths.SplitSlash(LStrip(u, '/'))))))
  {
    var clean := LStrip(u, '/');
    var dir := Paths.Norm([], Paths.SplitSlash(cwd), true);
    var joined := FrameJoined(u);
    assert StaticPath(JStr(u), cwd) == Success(Some(Paths.AbsPath(cwd, joined)));
    AbsUnderDir(cwd, joined);
    DotThen(dir, clean);
    Paths.NormNoParent(dir, Paths.SplitSlash(clean), true);
  }

  /** `abspath` of a relative path from an absolute directory normalises the
      directory's components, then the path's. */
  lemma AbsUnderDir(cwd: string, joined: string)
    requires StartsWith(cwd, "/") && |joined| > 0 && joined[0] != '/'
    ensures Paths.AbsPath(cwd, joined)
      == Paths.Lead(cwd) + Paths.JoinSlash(Paths.Norm(Paths.Norm([], Paths.SplitSlash(cwd), true), Paths.SplitSlash(joined), true))
  {
    var full := Paths.PathJoin(cwd, joined);
    Media.UnderFolder(cwd, joined);
    assert !StartsWith(joined, "/");
    assert Paths.AbsPath(cwd, joined) == Paths.NormPath(full);
  }

  /** A frame under `static/` is joined to the static folder as `./` and its path
      without leading slashes. */
  lemma FrameJoined(u: string) returns (joined: string)
    requires UnderStatic(u)
    ensures joined == Paths.PathJoin(StaticFolder, LStrip(u, '/'))
    ensures joined == "." + "/" + LStrip(u, '/') && joined[0] == '.'
  {
    var clean := LStrip(u, '/');
    if StartsWith(u, "/static/") {
      assert u[..8] == "/static/";
      assert u[1] == 's';
    } else {
      assert u[..7] == "static/";
      assert u[0] == 's';
    }
    assert !StartsWith(clean, "/");
    assert !EndsWith(StaticFolder, "/");
    joined := Paths.PathJoin(StaticFolder, clean);
  }

  /** A leading `./` adds nothing to the normalised components. */
  lemma DotThen(stack: seq<string>, clean: string)
    ensures Paths.Norm(stack, Paths.SplitSlash("." + "/" + clean), true) == Paths.Norm(stack, Paths.SplitSlash(clean), true)
  {
    Paths.SplitAround(".", clean);
    Paths.NoSlashSplit(".");
    var comps := Paths.SplitSlash(clean);
    assert (["."] + comps)[1..] == comps;
  }

  /* ---------- the two routes ---------- */

  /** What a generation request comes to: a mock URL, a call to the Aliyun service
      with the shaped arguments, or the 400 for another provider type. */
  datatype Action =
    | MockAnswer(url: string)
    | CallImage(prompt: string, apiKey: Json, model: Json, endpoint: Json)
    | CallVideo(rawPrompt: Json, apiKey: Json, model: Json, endpoint: Json,
                startPath: Option<string>, endPath: Option<string>)
    | Unsupported

  /** `data.get(k, default)` read as a string with `str()`. */
  function TextOf(data: Record, k: string, default: string): Option<string>
  {
    PyStr(GetOr(data, k, JStr(default)))
  }

  /** `generate_image` up to the service call. `providers` is the settings' list. */
  function GenerateImage(data: Record, providers: seq<Record>): (r: Result<Action, string>)
    requires TextOf(data, "prompt", "").Some?
    ensures var prompt := FramePrompt(TextOf(data, "prompt", "").value, GetOr(data, "frame_type", JStr("start")));
      var config := Settings.FindProvider(providers, Get(data, "provider_id"));
      && (UseMock(config) ==> r == Success(MockAnswer(MockImageUrl(prompt, GetOr(data, "frame_type", JStr("start"))))))
      && (r.Success? && r.value.CallImage? ==>
            !UseMock(config) && Get(config.value, "type") == JStr("aliyun") && r.value.prompt == prompt
            && r.value.apiKey == Get(config.value, "api_key")
            && r.value.model == GetOr(data, "model_name", JStr("qwen-image-plus"))
            && FullEndpoint(config.value, r.value.model) == Success(r.value.endpoint))
      && (r.Success? && r.value.Unsupported? ==> !UseMock(config) && Get(config.value, "type") != JStr("aliyun"))
      && !(r.Success? && r.value.CallVideo?)
    ensures var config := Settings.FindProvider(providers, Get(data, "provider_id"));
      var endpoint := if UseMock(config) then Failure("") else FullEndpoint(config.value, GetOr(data, "model_name", JStr("qwen-image-plus")));
      && (r.Failure? <==> !UseMock(config) && endpoint.Failure?)
      && (!UseMock(config) && endpoint.Success? && Get(config.value, "type") == JStr("aliyun") ==> r.Success? && r.value.CallImage?)
      && (!UseMock(config) && endpoint.Success? && Get(config.value, "type") != JStr("aliyun") ==> r == Success(Unsupported))
  {
    var frameType := GetOr(data, "frame_type", JStr("start"));
    var prompt := FramePrompt(TextOf(data, "prompt", "").value, frameType);
    var config := Settings.FindProvider(providers, Get(data, "provider_id"));
    if UseMock(config) then Success(MockAnswer(MockImageUrl(prompt, frameType)))
    else
      var modelName := GetOr(data, "model_name", JStr("qwen-image-plus"));
      match FullEndpoint(config.value, modelName)
      case Failure(e) => Failure(e)
      case Success(endpoint) =>
        if Get(config.value, "type") == JStr("aliyun") then
          Success(CallImage(prompt, Get(config.value, "api_key"), modelName, endpoint))
        else Success(Unsupported)
  }

  /** An Aliyun provider is called with the shaped prompt, its key, the requested
      model and the endpoint joined from its base URL and the path of the first
      model with that name. */
  lemma ImageCallUsesModelPath(data: Record, providers: seq<Record>, items: seq<Json>, k: nat, base: string)
    requires TextOf(data, "prompt", "").Some?
    requires var config := Settings.FindProvider(providers, Get(data, "provider_id"));
      && !UseMock(config) && Get(config.value, "type") == JStr("aliyun")
      && GetOr(config.value, "models", JArr([])) == JArr(items) && GetOr(config.value, "base_url", JStr("")) == JStr(base)
    requires var modelName := GetOr(data, "model_name", JStr("qwen-image-plus"));
      && k < |items| && items[k].JObj? && "name" in items[k].fields && items[k].fields["name"] == modelName
      && PassedUpTo(items, modelName, k) && Get(items[k].fields, "path").JStr? && Get(items[k].fields, "path") != JStr("")
    ensures var config := Settings.FindProvider(providers, Get(data, "provider_id"));
      var frameType := GetOr(data, "frame_type", JStr("start"));
      GenerateImage(data, providers) == Success(CallImage(FramePrompt(TextOf(data, "prompt", "").value, frameType),
        Get(config.value, "api_key"), GetOr(data, "model_name", JStr("qwen-image-plus")),
        JStr(JoinUrl(base, Get(items[k].fields, "path").s))))
  {
    var config := Settings.FindProvider(providers, Get(data, "provider_id"));
    EndpointOfFirstNamedModel(config.value, GetOr(data, "model_name", JStr("qwen-image-plus")), items, k, base);
  }

  /** `generate_video` up to the service call: the prompt goes as it is, and frames
      under `static/` are passed as local paths. */
  function GenerateVideo(data: Record, providers: seq<Record>, cwd: string): (r: Result<Action, string>)
    ensures var config := Settings.FindProvider(providers, Get(data, "provider_id"));
      && (UseMock(config) ==> r == Success(MockAnswer(MockVideoUrl)))
      && (r.Success? && r.value.CallVideo? ==>
            !UseMock(config) && Get(config.value, "type") == JStr("aliyun")
            && r.value.rawPrompt == GetOr(data, "prompt", JStr(""))
            && r.value.apiKey == Get(config.value, "api_key")
            && r.value.model == GetOr(data, "model_name", JStr("wanx2.1-kf2v-plus"))
            && FullEndpoint(config.value, r.value.model) == Success(r.value.endpoint)
            && StaticPath(GetOr(data, "start_frame", JStr("")), cwd) == Success(r.value.startPath)
            && StaticPath(GetOr(data, "end_frame", JStr("")), cwd) == Success(r.value.endPath))
      && (r.Success? && r.value.Unsupported? ==> !UseMock(config) && Get(config.value, "type") != JStr("aliyun"))
      && !(r.Success? && r.value.CallImage?)
    ensures var config := Settings.FindProvider(providers, Get(data, "provider_id"));
      var endpoint := if UseMock(config) then Failure("") else FullEndpoint(config.value, GetOr(data, "model_name", JStr("wanx2.1-kf2v-plus")));
      var aliyun := !UseMock(config) && Get(config.value, "type") == JStr("aliyun");
      var framesRead := StaticPath(GetOr(data, "start_frame", JStr("")), cwd).Success? && StaticPath(GetOr(data, "end_frame", JStr("")), cwd).Success?;
      && (r.Failure? <==> !UseMock(config) && (endpoint.Failure? || (aliyun && !framesRead)))
      && (aliyun && endpoint.Success? && framesRead ==> r.Success? && r.value.CallVideo?)
      && (!UseMock(config) && !aliyun && endpoint.Success? ==> r == Success(Unsupported))
  {
    var config := Settings.FindProvider(providers, Get(data, "provider_id"));
    if UseMock(config) then Success(MockAnswer(MockVideoUrl))
    else
      var modelName := GetOr(data, "model_name", JStr("wanx2.1-kf2v-plus"));
      match FullEndpoint(config.value, modelName)
      case Failure(e) => Failure(e)
      case Success(endpoint) =>
        if Get(config.value, "type") != JStr("aliyun") then Success(Unsupported)
        else
          match StaticPath(GetOr(data, "start_frame", JStr("")), cwd)
          case Failure(e) => Failure(e)
          case Success(startPath) =>
            match StaticPath(GetOr(data, "end_frame", JStr("")), cwd)
            case Failure(e) => Failure(e)
            case Success(endPath) =>
              Success(CallVideo(GetOr(data, "prompt", JStr("")), Get(config.value, "api_key"), modelName,
                                endpoint, startPath, endPath))
  }
}

=== FILE: json.dfy ===
/** JSON values as the Python side sees them after `json.load`: the records of the
    stores, request bodies and provider settings are dictionaries of these. */
module Json {
  import opened Wrappers
  import opened Strings

  /** A decoded JSON value. Numbers are integers only. */
  datatype Json =
    | JNull
    | JBool(b: bool)
    | JInt(i: int)
    | JStr(s: string)
    | JArr(items: seq<Json>)
    | JObj(fields: map<string, Json>)

  /** A JSON object, i.e. a Python `dict` with string keys. */
  type Record = map<string, Json>

  /** Python truthiness: `None`, `False`, `0`, `""`, `[]` and `{}` are false. */
  predicate Truthy(v: Json)
  {
    match v
    case JNull => false
    case JBool(b) => b
    case JInt(i) => i != 0
    case JStr(s) => |s| > 0
    case JArr(items) => |items| > 0
    case JObj(fields) => |fields| > 0
  }

  /** `d.get(k)`: the value under `k`, or `None`. */
  function Get(d: Record, k: string): Json
  {
    if k in d then d[k] else JNull
  }

  /** `d.get(k, default)`. */
  function GetOr(d: Record, k: string, default: Json): Json
  {
    if k in d then d[k] else default
  }

  /** `{**a, **b}`: every key of both, the right-hand value winning. */
  function Merge(a: Record, b: Record): (r: Record)
    ensures r.Keys == a.Keys + b.Keys
    ensures forall k :: k in b ==> r[k] == b[k]
    ensures forall k :: k in a && k !in b ==> r[k] == a[k]
  {
    a + b
  }

  /** Python's `isinstance(v, int)`, which `bool` also satisfies (`True` is 1). */
  function AsPyInt(v: Json): Option<int>
  {
    match v
    case JInt(i) => Some(i)
    case JBool(b) => Some(if b then 1 else 0)
    case _ => None
  }

  /** Python's `int(v)`: ints as they are, booleans as 0 or 1, strings parsed;
      `None`, lists and dictionaries raise TypeError (None here). */
  function PyInt(v: Json): Option<int>
  {
    match v
    case JInt(i) => Some(i)
    case JBool(b) => Some(if b then 1 else 0)
    case JStr(s) => ParseInt(s)
    case _ => None
  }

  /** Python's `str(v)` of a scalar; lists and dictionaries are not covered. */
  function PyStr(v: Json): Option<string>
  {
    match v
    case JNull => Some("None")
    case JBool(b) => Some(if b then "True" else "False")
    case JInt(i) => Some(IntToString(i))
    case JStr(s) => Some(s)
    case _ => None
  }

  /** `int(str(i))` gives back the int `i`. */
  lemma PyIntOfPyStr(v: Json)
    requires v.JInt?
    ensures PyStr(v).Some? && PyInt(JStr(PyStr(v).value)) == Some(v.i)
  {
    IntToStringRoundTrip(v.i, "", "");
    assert "" + IntToString(v.i) + "" == IntToString(v.i);
  }
}

=== FILE: media.dfy ===
/** The media manager: where produced media are stored, how each new file is named
    (`{id}_v{N}{ext}`, one past the highest version already in the directory), which
    extension a file gets, and the conversion of a stored file to a `data:` URI.

    The directory listing, the random UUID, the HTTP download, the file system and the
    MIME-type guess are inputs of the functions below rather than calls. */
module Media {
  import opened Wrappers
  import opened Strings
  import opened Paths

  /* ---------- directories and web paths ---------- */

  /** `self.dirs.get(media_type, 'static/temp')`. */
  function MediaDir(mediaType: string): (dir: string)
    ensures dir in {"static/imgs", "static/videos", "static/audio", "exports", "static/temp"}
    ensures |dir| > 0 && dir[0] != '/' && forall i :: 0 <= i < |dir| ==> dir[i] != '\\'
    ensures mediaType !in {"image", "video", "audio", "export", "temp"} ==> dir == "static/temp"
  {
    match mediaType
    case "image" => "static/imgs"
    case "video" => "static/videos"
    case "audio" => "static/audio"
    case "export" => "exports"
    case _ => "static/temp"
  }

  /** `_get_directory`: the media type's folder under the static folder. */
  function Directory(staticFolder: string, mediaType: string): (r: string)
    ensures StartsWith(r, staticFolder) && EndsWith(r, MediaDir(mediaType))
  {
    var dir := MediaDir(mediaType);
    assert dir[..1] != "/";
    PathJoin(staticFolder, dir)
  }

  /** `_get_web_path`: `/{dir}/{filename}` with every backslash turned into `/`. */
  function WebPath(mediaType: string, filename: string): (r: string)
    ensures |r| > 0 && r[0] == '/'
    ensures forall i :: 0 <= i < |r| ==> r[i] != '\\'
    ensures |r| == |MediaDir(mediaType)| + |filename| + 2
    ensures (forall i :: 0 <= i < |filename| ==> filename[i] != '\\') ==>
      r == "/" + MediaDir(mediaType) + "/" + filename
  {
    var raw := "/" + MediaDir(mediaType) + "/" + filename;
    var r := ReplaceChar(raw, '\\', '/');
    assert forall i :: 0 <= i < |raw| - |filename| ==> raw[i] != '\\';
    assert (forall i :: 0 <= i < |filename| ==> filename[i] != '\\') ==> r == raw by {
      if forall i :: 0 <= i < |filename| ==> filename[i] != '\\' {
        forall i | 0 <= i < |raw|
          ensures raw[i] != '\\'
        {
          if i >= |raw| - |filename| {
            assert raw[i] == filename[i - (|raw| - |filename|)];
          }
        }
      }
    }
    r
  }

  /** `get_absolute_path`: empty input gives None; otherwise the path loses its
      leading slashes, is joined under the static folder and goes through
      `os.path.abspath`, with `cwd` for the current directory. */
  function AbsolutePath(staticFolder: string, cwd: string, relativePath: string): (r: Option<string>)
    ensures r.None? <==> |relativePath| == 0
    ensures r.Some? ==> |r.value| > 0 && (StartsWith(staticFolder, "/") || StartsWith(cwd, "/") ==> r.value[0] == '/')
  {
    if |relativePath| == 0 then None
    else
      var joined := PathJoin(staticFolder, LStrip(relativePath, '/'));
      assert StartsWith(staticFolder, "/") ==> StartsWith(joined, "/");
      Some(AbsPath(cwd, joined))
  }

  /** Under an absolute static folder, a path without `..` components stays inside
      the folder: the components of the answer are the folder's normalised
      components followed by the path's own, minus empty and `.` ones. */
  lemma AbsolutePathInsideFolder(staticFolder: string, cwd: string, relativePath: string)
    requires StartsWith(staticFolder, "/") && |relativePath| > 0
    requires NoParent(SplitSlash(LStrip(relativePath, '/')))
    ensures var dir := Norm([], SplitSlash(staticFolder), true);
      && NormPath(staticFolder) == Lead(staticFolder) + JoinSlash(dir)
      && AbsolutePath(staticFolder, cwd, relativePath)
         == Some(Lead(staticFolder) + JoinSlash(dir + Kept(SplitSlash(LStrip(relativePath, '/')))))
  {
    var clean := LStrip(relativePath, '/');
    var dir := Norm([], SplitSlash(staticFolder), true);
    UnderFolder(staticFolder, clean);
    NormNoParent(dir, SplitSlash(clean), true);
  }

  /** A `..` component leaves the folder: `get_absolute_path("../name")` is the
      sibling `name` of the static folder, not a file inside it. */
  lemma AbsolutePathParentEscapes(staticFolder: string, cwd: string, name: string)
    requires StartsWith(staticFolder, "/")
    requires |name| > 0 && '/' !in name && name != "." && name != ".."
    requires |Norm([], SplitSlash(staticFolder), true)| > 0
    ensures var dir := Norm([], SplitSlash(staticFolder), true);
      AbsolutePath(staticFolder, cwd, "../" + name)
        == Some(Lead(staticFolder) + JoinSlash(dir[..|dir| - 1] + [name]))
  {
    var clean := "../" + name;
    assert clean[0] == '.';
    assert LStrip(clean, '/') == clean;
    var dir := Norm([], SplitSlash(staticFolder), true);
    UnderFolder(staticFolder, clean);
    SplitParentName(name);
    RootedNoParent([], SplitSlash(staticFolder));
    ParentThenName(dir, name);
  }

  /** The static folder joined with a path that has no leading slash keeps the
      folder's leading slashes, and normalises as the folder followed by the path. */
  lemma UnderFolder(staticFolder: string, clean: string)
    requires StartsWith(staticFolder, "/") && (|clean| == 0 || clean[0] != '/')
    ensures var joined := PathJoin(staticFolder, clean);
      && StartsWith(joined, "/") && Lead(joined) == Lead(staticFolder)
      && Norm([], SplitSlash(joined), true)
         == Norm(Norm([], SplitSlash(staticFolder), true), SplitSlash(clean), true)
  {
    assert !StartsWith(clean, "/");
    if EndsWith(staticFolder, "/") {
      UnderSlashFolder(staticFolder, clean);
    } else {
      UnderPlainFolder(staticFolder, clean);
    }
  }

  /** `UnderFolder` for a folder written without a trailing slash. */
  lemma UnderPlainFolder(folder: string, clean: string)
    requires StartsWith(folder, "/") && !EndsWith(folder, "/") && (|clean| == 0 || clean[0] != '/')
    ensures PathJoin(folder, clean) == folder + "/" + clean
    ensures StartsWith(folder + "/" + clean, "/") && Lead(folder + "/" + clean) == Lead(folder)
    ensures Norm([], SplitSlash(folder + "/" + clean), true)
         == Norm(Norm([], SplitSlash(folder), true), SplitSlash(clean), true)
  {
    assert !StartsWith(clean, "/");
    LeadExtends(folder, "/" + clean);
    assert folder + "/" + clean == folder + ("/" + clean);
    NormAround(folder, clean, true);
  }

  /** `UnderFolder` for a folder written with a trailing slash. */
  lemma UnderSlashFolder(folder: string, clean: string)
    requires StartsWith(folder, "/") && EndsWith(folder, "/") && (|clean| == 0 || clean[0] != '/')
    ensures PathJoin(folder, clean) == folder + clean
    ensures StartsWith(folder + clean, "/") && Lead(folder + clean) == Lead(folder)
    ensures Norm([], SplitSlash(folder + clean), true)
         == Norm(Norm([], SplitSlash(folder), true), SplitSlash(clean), true)
  {
    assert !StartsWith(clean, "/");
    LeadExtends(folder, clean);
    NormTrailingSlash(folder, clean, true);
    NormDropsTrailingSlash(folder, true);
  }

  /** Extending a rooted path keeps its leading slashes when the extension cannot
      add to them. */
  lemma LeadExtends(p: string, q: string)
    requires StartsWith(p, "/")
    requires |p| >= 3 || (|p| == 2 && p[1] != '/') || |q| == 0 || q[0] != '/'
    ensures StartsWith(p + q, "/") && Lead(p + q) == Lead(p)
  {
    var s := p + q;
    assert s[..1] == p[..1];
    if |p| >= 3 {
      assert s[..2] == p[..2] && s[..3] == p[..3];
    } else if |p| == 2 {
      assert s[..2] == p[..2];
    }
  }

  /* ---------- the sanitised entity id ---------- */

  /** The character class `[a-zA-Z0-9_-]`. */
  predicate IsSafeChar(c: char)
  {
    'a' <= c <= 'z' || 'A' <= c <= 'Z' || '0' <= c <= '9' || c == '_' || c == '-'
  }

  predicate AllSafe(s: string)
  {
    forall i :: 0 <= i < |s| ==> IsSafeChar(s[i])
  }

  /** `re.sub(r'[^a-zA-Z0-9_-]', '', s)`. */
  function Sanitize(s: string): (r: string)
    ensures AllSafe(r)
    ensures |r| <= |s|
    ensures AllSafe(s) ==> r == s
  {
    if |s| == 0 then []
    else (if IsSafeChar(s[0]) then [s[0]] else []) + Sanitize(s[1..])
  }

  /** Sanitising twice is sanitising once. */
  lemma SanitizeIdempotent(s: string)
    ensures Sanitize(Sanitize(s)) == Sanitize(s)
  {
  }

  /** Sanitising works character by character: it keeps exactly the safe characters,
      in order. */
  lemma {:induction false} SanitizeConcat(a: string, b: string)
    ensures Sanitize(a + b) == Sanitize(a) + Sanitize(b)
  {
    if |a| == 0 {
      assert a + b == b;
    } else {
      var c := if IsSafeChar(a[0]) then [a[0]] else [];
      assert (a + b)[0] == a[0] && (a + b)[1..] == a[1..] + b;
      assert Sanitize(a + b) == c + Sanitize(a[1..] + b);
      SanitizeConcat(a[1..], b);
      assert c + (Sanitize(a[1..]) + Sanitize(b)) == (c + Sanitize(a[1..])) + Sanitize(b);
    }
  }

  /* ---------- versions in the directory listing ---------- */

  /** The name of version `v` of `safeId` with extension `ext`. */
  function VersionedName(safeId: string, v: nat, ext: string): string
  {
    safeId + "_v" + NatToString(v) + ext
  }

  /** A match of `^{safeId}_v(\d+){ext}` that ends exactly at the end of `name`. */
  function MatchWhole(name: string, safeId: string, ext: string): Option<nat>
  {
    var p := safeId + "_v";
    if |p| + |ext| < |name| && StartsWith(name, p) && EndsWith(name, ext)
       && AllDigits(name[|p|..|name| - |ext|])
    then Some(DigitsValue(name[|p|..|name| - |ext|]))
    else None
  }

  /** The version a full match of `^{safeId}_v(\d+){ext}$` yields, if `name` matches.
      Python's `$` also matches just before a final newline; the greedy `\d+` makes the
      match that runs to the very end win when both exist. */
  function MatchVersion(name: string, safeId: string, ext: string): (r: Option<nat>)
    ensures r.Some? ==> StartsWith(name, safeId + "_v")
  {
    match MatchWhole(name, safeId, ext)
    case Some(v) => Some(v)
    case None =>
      if |name| > 0 && name[|name| - 1] == '\n' then MatchWhole(name[..|name| - 1], safeId, ext)
      else None
  }

  /** The largest version among the listing's matching entries, 0 when none matches
      (the loop of `_generate_versioned_filename`). */
  function MaxVersion(listing: seq<string>, safeId: string, ext: string): nat
  {
    if |listing| == 0 then 0
    else
      var before := MaxVersion(listing[..|listing| - 1], safeId, ext);
      match MatchVersion(listing[|listing| - 1], safeId, ext)
      case Some(v) => if v > before then v else before
      case None => before
  }

  /** No listed version exceeds the maximum. */
  lemma {:induction false} MaxVersionIsUpperBound(listing: seq<string>, safeId: string, ext: string)
    ensures forall i :: 0 <= i < |listing| && MatchVersion(listing[i], safeId, ext).Some? ==>
      MatchVersion(listing[i], safeId, ext).value <= MaxVersion(listing, safeId, ext)
  {
    if |listing| > 0 {
      var init := listing[..|listing| - 1];
      MaxVersionIsUpperBound(init, safeId, ext);
      forall i | 0 <= i < |listing| - 1
        ensures listing[i] == init[i]
      {
      }
    }
  }

  /** The maximum is one of the listed versions, unless nothing matches. */
  lemma {:induction false} MaxVersionAttained(listing: seq<string>, safeId: string, ext: string)
    ensures var m := MaxVersion(listing, safeId, ext);
      m == 0 || exists i :: 0 <= i < |listing| && MatchVersion(listing[i], safeId, ext) == Some(m)
  {
    if |listing| > 0 {
      var init := listing[..|listing| - 1];
      MaxVersionAttained(init, safeId, ext);
      var m := MaxVersion(init, safeId, ext);
      if MaxVersion(listing, safeId, ext) == m && m != 0 {
        var i :| 0 <= i < |init| && MatchVersion(init[i], safeId, ext) == Some(m);
        assert listing[i] == init[i];
      }
    }
  }

  /** `_generate_versioned_filename`: a random name when the id is empty or sanitises to
      nothing, otherwise the sanitised id at one past the highest listed version. */
  function GenerateVersionedFilename(listing: seq<string>, entityId: string, ext: string,
                                     randomId: string): (r: string)
    ensures |Sanitize(entityId)| == 0 ==> r == randomId + ext
    ensures |Sanitize(entityId)| > 0 ==> r !in listing
    ensures |Sanitize(entityId)| > 0 ==>
      r == VersionedName(Sanitize(entityId), MaxVersion(listing, Sanitize(entityId), ext) + 1, ext)
  {
    if |entityId| == 0 then randomId + ext
    else
      var safeId := Sanitize(entityId);
      if |safeId| == 0 then randomId + ext
      else
        NextNameIsFresh(listing, safeId, ext);
        VersionedName(safeId, MaxVersion(listing, safeId, ext) + 1, ext)
  }

  /** A versioned name reads back as its own version. */
  lemma VersionedNameMatches(safeId: string, v: nat, ext: string)
    ensures MatchVersion(VersionedName(safeId, v, ext), safeId, ext) == Some(v)
  {
    var p := safeId + "_v";
    var name := VersionedName(safeId, v, ext);
    var digits := NatToString(v);
    assert name == p + digits + ext;
    assert name[|p|..|name| - |ext|] == digits;
    assert StartsWith(name, p) && EndsWith(name, ext);
    NatToStringRoundTrip(v);
  }

  /** The name one past the highest listed version is not in the listing. */
  lemma NextNameIsFresh(listing: seq<string>, safeId: string, ext: string)
    ensures VersionedName(safeId, MaxVersion(listing, safeId, ext) + 1, ext) !in listing
  {
    var v := MaxVersion(listing, safeId, ext) + 1;
    var r := VersionedName(safeId, v, ext);
    MaxVersionIsUpperBound(listing, safeId, ext);
    VersionedNameMatches(safeId, v, ext);
  }

  /** The returned name carries a version strictly above every version already in the
      directory for this id and extension: exactly one past the highest. */
  lemma VersionedFilenameIsNewest(listing: seq<string>, entityId: string, ext: string, randomId: string)
    requires |Sanitize(entityId)| > 0
    ensures var r := GenerateVersionedFilename(listing, entityId, ext, randomId);
      && MatchVersion(r, Sanitize(entityId), ext) == Some(MaxVersion(listing, Sanitize(entityId), ext) + 1)
      && forall i :: 0 <= i < |listing| && MatchVersion(listing[i], Sanitize(entityId), ext).Some? ==>
           MatchVersion(listing[i], Sanitize(entityId), ext).value < MatchVersion(r, Sanitize(entityId), ext).value
  {
    var safeId := Sanitize(entityId);
    MaxVersionIsUpperBound(listing, safeId, ext);
    VersionedNameMatches(safeId, MaxVersion(listing, safeId, ext) + 1, ext);
  }

  /** The entries of the listing that match, in order. */
  function Matching(listing: seq<string>, safeId: string, ext: string): (r: seq<string>)
    ensures forall i :: 0 <= i < |r| ==> MatchVersion(r[i], safeId, ext).Some?
  {
    if |listing| == 0 then []
    else
      var last := listing[|listing| - 1];
      Matching(listing[..|listing| - 1], safeId, ext) + (if MatchVersion(last, safeId, ext).Some? then [last] else [])
  }

  lemma {:induction false} MaxVersionOfMatching(listing: seq<string>, safeId: string, ext: string)
    ensures MaxVersion(Matching(listing, safeId, ext), safeId, ext) == MaxVersion(listing, safeId, ext)
  {
    if |listing| > 0 {
      var init := listing[..|listing| - 1];
      var last := listing[|listing| - 1];
      MaxVersionOfMatching(init, safeId, ext);
      var m := Matching(init, safeId, ext);
      if MatchVersion(last, safeId, ext).Some? {
        assert Matching(listing, safeId, ext) == m + [last];
        assert (m + [last])[..|m|] == m && (m + [last])[|m|] == last;
      } else {
        assert Matching(listing, safeId, ext) == m + [];
        assert m + [] == m;
      }
    }
  }

  lemma {:induction false} MatchingAppend(a: seq<string>, b: seq<string>, safeId: string, ext: string)
    ensures Matching(a + b, safeId, ext) == Matching(a, safeId, ext) + Matching(b, safeId, ext)
    decreases |b|
  {
    if |b| == 0 {
      assert a + b == a;
    } else {
      assert (a + b)[..|a + b| - 1] == a + b[..|b| - 1];
      MatchingAppend(a, b[..|b| - 1], safeId, ext);
    }
  }

  /** Files of another id or another extension never change the name: the result
      depends only on the listing's matching entries, wherever they sit. */
  lemma OnlyMatchesMatter(l1: seq<string>, l2: seq<string>, entityId: string, ext: string, randomId: string)
    requires Matching(l1, Sanitize(entityId), ext) == Matching(l2, Sanitize(entityId), ext)
    ensures GenerateVersionedFilename(l1, entityId, ext, randomId)
         == GenerateVersionedFilename(l2, entityId, ext, randomId)
  {
    var s := Sanitize(entityId);
    MaxVersionOfMatching(l1, s, ext);
    MaxVersionOfMatching(l2, s, ext);
    assert MaxVersion(l1, s, ext) == MaxVersion(l2, s, ext);
  }

  lemma {:induction false} MatchingNone(others: seq<string>, safeId: string, ext: string)
    requires forall i :: 0 <= i < |others| ==> MatchVersion(others[i], safeId, ext).None?
    ensures Matching(others, safeId, ext) == []
  {
    if |others| > 0 {
      MatchingNone(others[..|others| - 1], safeId, ext);
    }
  }

  /** Adding entries that do not match leaves the name unchanged. */
  lemma NonMatchingIgnored(a: seq<string>, others: seq<string>, b: seq<string>,
                           entityId: string, ext: string, randomId: string)
    requires forall i :: 0 <= i < |others| ==> MatchVersion(others[i], Sanitize(entityId), ext).None?
    ensures GenerateVersionedFilename(a + others + b, entityId, ext, randomId)
         == GenerateVersionedFilename(a + b, entityId, ext, randomId)
  {
    var s := Sanitize(entityId);
    MatchingNone(others, s, ext);
    MatchingAppend(a + others, b, s, ext);
    MatchingAppend(a, others, s, ext);
    MatchingAppend(a, b, s, ext);
    assert Matching(a + others + b, s, ext) == Matching(a + b, s, ext);
    OnlyMatchesMatter(a + others + b, a + b, entityId, ext, randomId);
  }

  /** Writing the generated file raises the next version by exactly one. */
  lemma NextWriteIncrements(listing: seq<string>, entityId: string, ext: string, randomId: string)
    requires |Sanitize(entityId)| > 0
    ensures var s := Sanitize(entityId);
      MaxVersion(listing + [GenerateVersionedFilename(listing, entityId, ext, randomId)], s, ext)
        == MaxVersion(listing, s, ext) + 1
  {
    var s := Sanitize(entityId);
    var r := GenerateVersionedFilename(listing, entityId, ext, randomId);
    VersionedFilenameIsNewest(listing, entityId, ext, randomId);
    assert (listing + [r])[..|listing|] == listing && (listing + [r])[|listing|] == r;
  }

  /** The listing after `n` successive writes for one id and extension. Successive
      writes number their files consecutively: from an empty directory the k-th write
      is version k. */
  function WriteMany(listing: seq<string>, entityId: string, ext: string, randomId: string, n: nat): (r: seq<string>)
    ensures |Sanitize(entityId)| > 0 ==>
      MaxVersion(r, Sanitize(entityId), ext) == MaxVersion(listing, Sanitize(entityId), ext) + n
  {
    if n == 0 then listing
    else
      var before := WriteMany(listing, entityId, ext, randomId, n - 1);
      var name := GenerateVersionedFilename(before, entityId, ext, randomId);
      if |Sanitize(entityId)| > 0 then
        NextWriteIncrements(before, entityId, ext, randomId);
        before + [name]
      else before + [name]
  }

  /* ---------- extensions ---------- */

  /** `os.path.splitext(p)[1]` for POSIX paths: from the last dot of the last path
      component, unless everything before that dot in the component is dots. */
  function SplitExt(p: string): (ext: string)
    ensures ext == [] || (ext[0] == '.' && EndsWith(p, ext))
    ensures forall i :: 0 < i < |ext| ==> ext[i] != '.' && ext[i] != '/'
    ensures ext == [] && RFind(p, '.') > RFind(p, '/') ==>
      forall k :: RFind(p, '/') < k < RFind(p, '.') ==> p[k] == '.'
  {
    var sep := RFind(p, '/');
    var dot := RFind(p, '.');
    if dot > sep && exists k :: sep + 1 <= k < dot && p[k] != '.' then p[dot..] else []
  }

  /** The extension a type gets when none usable is known; other types keep `ext`. */
  function DefaultExtension(mediaType: string, ext: string): string
  {
    if mediaType == "image" then ".png"
    else if mediaType == "video" then ".mp4"
    else if mediaType == "audio" then ".mp3"
    else ext
  }

  /** The extension `save_uploaded_file` stores an upload under: the file name's
      extension in lower case, or `.png` for images and `.mp4` for every other type
      when the name has none. */
  function UploadExtension(filename: string, mediaType: string): (ext: string)
    ensures |ext| > 0
    ensures SplitExt(filename) == [] ==> ext == (if mediaType == "image" then ".png" else ".mp4")
    ensures SplitExt(filename) != [] ==> ext == LowerAscii(SplitExt(filename))
  {
    var ext := LowerAscii(SplitExt(filename));
    if |ext| == 0 then (if mediaType == "image" then ".png" else ".mp4") else ext
  }

  /** The extension `download_from_url` stores a download under, from the URL's path:
      a lower-cased extension of one to five characters is kept; otherwise images,
      videos and audio get their default and other types keep what they had. */
  function DownloadExtension(urlPath: string, mediaType: string): (ext: string)
    ensures 0 < |SplitExt(urlPath)| <= 5 ==> ext == LowerAscii(SplitExt(urlPath))
    ensures (|SplitExt(urlPath)| == 0 || |SplitExt(urlPath)| > 5) && mediaType == "image" ==> ext == ".png"
    ensures (|SplitExt(urlPath)| == 0 || |SplitExt(urlPath)| > 5) && mediaType == "video" ==> ext == ".mp4"
    ensures (|SplitExt(urlPath)| == 0 || |SplitExt(urlPath)| > 5) && mediaType == "audio" ==> ext == ".mp3"
    ensures (|SplitExt(urlPath)| == 0 || |SplitExt(urlPath)| > 5) && mediaType !in {"image", "video", "audio"} ==>
      ext == LowerAscii(SplitExt(urlPath))
  {
    var ext := LowerAscii(SplitExt(urlPath));
    if |ext| == 0 || |ext| > 5 then DefaultExtension(mediaType, ext) else ext
  }

  /** The extension `save_binary` stores bytes under. None stands for Python's
      `None`: with no extension given, images, videos and audio get their default
      and other types keep what was passed, `None` or `""`. */
  function BinaryExtension(extension: Option<string>, mediaType: string): (ext: Option<string>)
    ensures extension.Some? && |extension.value| > 0 ==> ext == extension
    ensures (extension.None? || extension == Some("")) && mediaType == "image" ==> ext == Some(".png")
    ensures (extension.None? || extension == Some("")) && mediaType == "video" ==> ext == Some(".mp4")
    ensures (extension.None? || extension == Some("")) && mediaType == "audio" ==> ext == Some(".mp3")
    ensures (extension.None? || extension == Some("")) && mediaType !in {"image", "video", "audio"} ==> ext == extension
  {
    if extension.Some? && |extension.value| > 0 then extension
    else if mediaType in {"image", "video", "audio"} then Some(DefaultExtension(mediaType, ""))
    else extension
  }

  /** The three write paths give images, videos and audio the same default
      extension, except that an upload of audio without an extension is stored as
      `.mp4` where a download or binary save of audio gets `.mp3`. */
  lemma DefaultsAgree(mediaType: string)
    requires mediaType in {"image", "video", "audio"}
    ensures BinaryExtension(None, mediaType) == Some(DownloadExtension("", mediaType))
    ensures UploadExtension("", mediaType) == DownloadExtension("", mediaType) <==> mediaType != "audio"
  {
    assert SplitExt("") == [];
  }

  /* ---------- the three write paths ---------- */

  /** Every generated name ends with the extension, and a versioned one is fresh. */
  lemma GeneratedNameShape(listing: seq<string>, entityId: string, ext: string, randomId: string)
    ensures EndsWith(GenerateVersionedFilename(listing, entityId, ext, randomId), ext)
    ensures |Sanitize(entityId)| > 0 ==> GenerateVersionedFilename(listing, entityId, ext, randomId) !in listing
  {
    var file := GenerateVersionedFilename(listing, entityId, ext, randomId);
    if |Sanitize(entityId)| > 0 {
      var safeId := Sanitize(entityId);
      var v := MaxVersion(listing, safeId, ext) + 1;
      assert file == safeId + "_v" + NatToString(v) + ext;
    } else {
      assert file == randomId + ext;
    }
  }

  /** A file written into the media directory, and the web path returned for it. */
  datatype Stored = Stored(file: string, webPath: string)

  /** The name chosen for a new file and where it is served from. */
  function Store(listing: seq<string>, mediaType: string, entityId: string, ext: string,
                 randomId: string): (s: Stored)
    ensures s.file == GenerateVersionedFilename(listing, entityId, ext, randomId)
    ensures s.webPath == WebPath(mediaType, s.file)
    ensures EndsWith(s.file, ext)
    ensures |Sanitize(entityId)| > 0 ==> s.file !in listing
  {
    var file := GenerateVersionedFilename(listing, entityId, ext, randomId);
    GeneratedNameShape(listing, entityId, ext, randomId);
    Stored(file, WebPath(mediaType, file))
  }

  /** With a usable entity id, the path served for a new file names the version one
      past the highest in the directory, and no other listed file has that version. */
  lemma StoredIsNewest(listing: seq<string>, mediaType: string, entityId: string, ext: string, randomId: string)
    requires |Sanitize(entityId)| > 0
    ensures var s := Store(listing, mediaType, entityId, ext, randomId);
      var safeId := Sanitize(entityId);
      && s.webPath == WebPath(mediaType, VersionedName(safeId, MaxVersion(listing, safeId, ext) + 1, ext))
      && MatchVersion(s.file, safeId, ext) == Some(MaxVersion(listing, safeId, ext) + 1)
      && forall i :: 0 <= i < |listing| && MatchVersion(listing[i], safeId, ext).Some? ==>
           MatchVersion(listing[i], safeId, ext).value < MatchVersion(s.file, safeId, ext).value
  {
    var safeId := Sanitize(entityId);
    var m := MaxVersion(listing, safeId, ext);
    StoredFileIsNext(listing, mediaType, entityId, ext, randomId);
    MaxVersionIsUpperBound(listing, safeId, ext);
  }

  /** The stored file is the versioned name one past the listing's maximum. */
  lemma StoredFileIsNext(listing: seq<string>, mediaType: string, entityId: string, ext: string, randomId: string)
    requires |Sanitize(entityId)| > 0
    ensures var s := Store(listing, mediaType, entityId, ext, randomId);
      var safeId := Sanitize(entityId);
      && s.file == VersionedName(safeId, MaxVersion(listing, safeId, ext) + 1, ext)
      && MatchVersion(s.file, safeId, ext) == Some(MaxVersion(listing, safeId, ext) + 1)
  {
    var file := GenerateVersionedFilename(listing, entityId, ext, randomId);
    assert Store(listing, mediaType, entityId, ext, randomId).file == file;
    VersionedFilenameIsNewest(listing, entityId, ext, randomId);
  }

  /** The web path `save_uploaded_file` answers with is the newest version's, under
      the upload's extension. */
  lemma UploadIsNewest(filename: string, mediaType: string, entityId: string, listing: seq<string>, randomId: string)
    requires |filename| > 0 && |Sanitize(entityId)| > 0
    ensures var ext := UploadExtension(filename, mediaType);
      var safeId := Sanitize(entityId);
      SaveUploadedFile(filename, mediaType, entityId, listing, randomId, None).Success?
      && SaveUploadedFile(filename, mediaType, entityId, listing, randomId, None).value.webPath
        == WebPath(mediaType, VersionedName(safeId, MaxVersion(listing, safeId, ext) + 1, ext))
  {
    StoredIsNewest(listing, mediaType, entityId, UploadExtension(filename, mediaType), randomId);
  }

  /** `save_uploaded_file`: no file (or an empty file name) is refused; a failing save
      reports the exception's message. */
  function SaveUploadedFile(filename: string, mediaType: string, entityId: string, listing: seq<string>,
                            randomId: string, saveError: Option<string>): (r: Result<Stored, string>)
    ensures |filename| == 0 ==> r == Failure("No file provided")
    ensures |filename| > 0 && saveError.Some? ==> r == Failure(saveError.value)
    ensures r.Success? <==> |filename| > 0 && saveError.None?
    ensures r.Success? ==> EndsWith(r.value.file, UploadExtension(filename, mediaType))
    ensures r.Success? && |Sanitize(entityId)| > 0 ==> r.value.file !in listing
    ensures r.Success? ==> r.value == Store(listing, mediaType, entityId, UploadExtension(filename, mediaType), randomId)
  {
    if |filename| == 0 then Failure("No file provided")
    else
      var stored := Store(listing, mediaType, entityId, UploadExtension(filename, mediaType), randomId);
      if saveError.Some? then Failure(saveError.value) else Success(stored)
  }

  /** `download_from_url`: the name is chosen first, and the file is written only when
      the response status is 200; any other status or a raised exception gives None. */
  function DownloadFromUrl(urlPath: string, mediaType: string, entityId: string, listing: seq<string>,
                           randomId: string, status: Option<int>): (r: Option<Stored>)
    ensures r.Some? <==> status == Some(200)
    ensures r.Some? ==> EndsWith(r.value.file, DownloadExtension(urlPath, mediaType))
    ensures r.Some? && |Sanitize(entityId)| > 0 ==> r.value.file !in listing
    ensures r.Some? ==> r.value == Store(listing, mediaType, entityId, DownloadExtension(urlPath, mediaType), randomId)
  {
    var stored := Store(listing, mediaType, entityId, DownloadExtension(urlPath, mediaType), randomId);
    if status == Some(200) then Some(stored) else None
  }

  /** The web path `download_from_url` answers with after a 200 is the newest
      version's, under the download's extension. */
  lemma DownloadIsNewest(urlPath: string, mediaType: string, entityId: string, listing: seq<string>, randomId: string)
    requires |Sanitize(entityId)| > 0
    ensures var ext := DownloadExtension(urlPath, mediaType);
      var safeId := Sanitize(entityId);
      DownloadFromUrl(urlPath, mediaType, entityId, listing, randomId, Some(200)).Some?
      && DownloadFromUrl(urlPath, mediaType, entityId, listing, randomId, Some(200)).value.webPath
        == WebPath(mediaType, VersionedName(safeId, MaxVersion(listing, safeId, ext) + 1, ext))
  {
    StoredIsNewest(listing, mediaType, entityId, DownloadExtension(urlPath, mediaType), randomId);
  }

  /** How an f-string writes an extension: `None` becomes the text `None`. */
  function ExtText(ext: Option<string>): string
  {
    if ext.Some? then ext.value else "None"
  }

  /** `save_binary`: empty data is refused and a failing write gives None. When the
      extension stays `None`, the random name ends in the text `None`, and a
      non-empty safe id makes `re.escape(None)` raise TypeError; that call is outside
      the `try`, so the error leaves `save_binary`. */
  function SaveBinary(data: seq<bv8>, mediaType: string, entityId: string, extension: Option<string>,
                      listing: seq<string>, randomId: string, writeOk: bool): (r: Result<Option<Stored>, string>)
    ensures |data| == 0 ==> r == Success(None)
    ensures r.Failure? <==> |data| > 0 && BinaryExtension(extension, mediaType).None? && |Sanitize(entityId)| > 0
    ensures r.Success? && r.value.Some? <==>
      |data| > 0 && writeOk && (BinaryExtension(extension, mediaType).Some? || |Sanitize(entityId)| == 0)
    ensures r.Success? && r.value.Some? ==> EndsWith(r.value.value.file, ExtText(BinaryExtension(extension, mediaType)))
    ensures r.Success? && r.value.Some? && |Sanitize(entityId)| > 0 ==> r.value.value.file !in listing
    ensures r.Success? && r.value.Some? && BinaryExtension(extension, mediaType).None? ==>
      r.value.value.file == randomId + "None"
    ensures r.Success? && r.value.Some? ==>
      r.value.value == Store(listing, mediaType, entityId, ExtText(BinaryExtension(extension, mediaType)), randomId)
  {
    if |data| == 0 then Success(None)
    else
      var ext := BinaryExtension(extension, mediaType);
      if ext.None? && |Sanitize(entityId)| > 0 then Failure("TypeError: re.escape(None)")
      else
        var stored := Store(listing, mediaType, entityId, ExtText(ext), randomId);
        if writeOk then Success(Some(stored)) else Success(None)
  }

  /** The web path a successful `save_binary` answers with is the newest version's,
      under the extension it settled on. */
  lemma BinaryIsNewest(data: seq<bv8>, mediaType: string, entityId: string, extension: Option<string>,
                       listing: seq<string>, randomId: string)
    requires |data| > 0 && |Sanitize(entityId)| > 0 && BinaryExtension(extension, mediaType).Some?
    ensures var ext := BinaryExtension(extension, mediaType).value;
      var safeId := Sanitize(entityId);
      var r := SaveBinary(data, mediaType, entityId, extension, listing, randomId, true);
      r.Success? && r.value.Some?
      && r.value.value.webPath == WebPath(mediaType, VersionedName(safeId, MaxVersion(listing, safeId, ext) + 1, ext))
  {
    StoredIsNewest(listing, mediaType, entityId, BinaryExtension(extension, mediaType).value, randomId);
  }

  /* ---------- data URIs ---------- */

  const DefaultMime := "application/octet-stream"

  /** `file_to_base64`: None for an empty path, an `http` URL, a missing file or a read
      failure; otherwise `data:{mime};base64,{payload}`. `found` is the file system's
      answer for the resolved path, `guessedMime` the MIME-type guess and `encoded` the
      Base64 text of the file's bytes (None when reading fails). */
  function FileToBase64(path: string, found: bool, guessedMime: Option<string>,
                        encoded: Option<string>): (r: Option<string>)
    ensures |path| == 0 || StartsWith(path, "http") || !found || encoded.None? ==> r.None?
    ensures r.Some? ==> StartsWith(r.value, "data:")
    ensures r.Some? && guessedMime.None? ==> StartsWith(r.value, "data:" + DefaultMime + ";base64,")
  {
    if |path| == 0 then None
    else if StartsWith(path, "http") then None
    else if !found then None
    else
      var mime := guessedMime.GetOr(DefaultMime);
      match encoded
      case None => None
      case Some(payload) =>
        var uri := "data:" + mime + ";base64," + payload;
        assert uri == "data:" + (mime + ";base64," + payload);
        assert uri[..|"data:" + mime + ";base64,"|] == "data:" + mime + ";base64,";
        Some(uri)
  }

  /** The first index at which `sub` occurs in `s`. */
  function IndexOf(s: string, sub: string): (r: Option<nat>)
    ensures r.Some? ==> r.value + |sub| <= |s| && s[r.value..r.value + |sub|] == sub
    decreases |s|
  {
    if StartsWith(s, sub) then Some(0)
    else if |s| == 0 then None
    else match IndexOf(s[1..], sub)
      case Some(k) => Some(k + 1)
      case None => None
  }

  /** Reads a `data:{mime};base64,{payload}` URI back into its MIME type and payload. */
  function ParseDataUri(uri: string): Option<(string, string)>
  {
    if !StartsWith(uri, "data:") then None
    else
      var rest := uri[5..];
      match IndexOf(rest, ";base64,")
      case Some(k) => Some((rest[..k], rest[k + 8..]))
      case None => None
  }

  lemma {:induction false} IndexOfAfterPlain(m: string, p: string)
    requires forall i :: 0 <= i < |m| ==> m[i] != ';'
    ensures IndexOf(m + ";base64," + p, ";base64,") == Some(|m|)
    decreases |m|
  {
    var s := m + ";base64," + p;
    if |m| == 0 {
      assert s == ";base64," + p;
      assert StartsWith(s, ";base64,");
    } else {
      assert s[0] == m[0] && !StartsWith(s, ";base64,");
      assert s[1..] == m[1..] + ";base64," + p;
      IndexOfAfterPlain(m[1..], p);
    }
  }

  /** The data URI carries the file's MIME type (or the default) and payload, and both
      read back from it. MIME types never contain `;`. */
  lemma DataUriRoundTrip(path: string, guessedMime: Option<string>, payload: string)
    requires |path| > 0 && !StartsWith(path, "http")
    requires forall i :: 0 <= i < |guessedMime.GetOr(DefaultMime)| ==> guessedMime.GetOr(DefaultMime)[i] != ';'
    ensures FileToBase64(path, true, guessedMime, Some(payload)).Some?
    ensures ParseDataUri(FileToBase64(path, true, guessedMime, Some(payload)).value)
         == Some((guessedMime.GetOr(DefaultMime), payload))
  {
    var mime := guessedMime.GetOr(DefaultMime);
    var uri := FileToBase64(path, true, guessedMime, Some(payload)).value;
    assert uri == "data:" + (mime + ";base64," + payload);
    ParseBuiltDataUri(mime, payload);
  }

  /** A data URI built from a MIME type without `;` parses back into its two parts. */
  lemma ParseBuiltDataUri(mime: string, payload: string)
    requires forall i :: 0 <= i < |mime| ==> mime[i] != ';'
    ensures ParseDataUri("data:" + (mime + ";base64," + payload)) == Some((mime, payload))
  {
    var rest := mime + ";base64," + payload;
    var uri := "data:" + rest;
    assert uri[..5] == "data:" && uri[5..] == rest;
    IndexOfAfterPlain(mime, payload);
    assert rest[..|mime|] == mime;
    assert rest[|mime| + 8..] == payload;
  }
}

=== FILE: paths.dfy ===
/** POSIX path handling as `os.path` does it on Linux: `join`, `split('/')`,
    `normpath` and `abspath`. The current directory is a parameter. */
module Paths {
  import opened Strings

  /** `os.path.join(a, b)`. */
  function PathJoin(a: string, b: string): (r: string)
    ensures StartsWith(b, "/") ==> r == b
    ensures !StartsWith(b, "/") ==> StartsWith(r, a) && EndsWith(r, b) && |r| <= |a| + 1 + |b|
  {
    if StartsWith(b, "/") then b
    else if |a| == 0 || EndsWith(a, "/") then a + b
    else a + "/" + b
  }

  /* ---------- split and join on `/` ---------- */

  /** `s.split('/')`: the pieces between the slashes, never an empty list. */
  function SplitSlash(s: string): (r: seq<string>)
    ensures |r| > 0
    ensures forall i :: 0 <= i < |r| ==> '/' !in r[i]
    decreases |s|
  {
    var k := RFind(s, '/');
    if k < 0 then [s] else SplitSlash(s[..k]) + [s[k + 1..]]
  }

  /** `'/'.join(parts)`. */
  function JoinSlash(parts: seq<string>): string
  {
    if |parts| == 0 then ""
    else if |parts| == 1 then parts[0]
    else JoinSlash(parts[..|parts| - 1]) + "/" + parts[|parts| - 1]
  }

  /** Joining the pieces of a split gives the string back. */
  lemma {:induction false} JoinSplit(s: string)
    ensures JoinSlash(SplitSlash(s)) == s
    decreases |s|
  {
    var k := RFind(s, '/');
    if k >= 0 {
      var parts := SplitSlash(s);
      assert parts[..|parts| - 1] == SplitSlash(s[..k]);
      JoinSplit(s[..k]);
      assert s == s[..k] + "/" + s[k + 1..];
    }
  }

  /** Splitting the join of slash-free pieces gives the pieces back. */
  lemma {:induction false} SplitJoin(parts: seq<string>)
    requires |parts| > 0 && forall i :: 0 <= i < |parts| ==> '/' !in parts[i]
    ensures SplitSlash(JoinSlash(parts)) == parts
  {
    if |parts| == 1 {
      NoSlashSplit(parts[0]);
    } else {
      var init, last := parts[..|parts| - 1], parts[|parts| - 1];
      SplitJoin(init);
      SplitAround(JoinSlash(init), last);
      NoSlashSplit(last);
      assert parts == init + [last];
    }
  }

  /** A string without `/` is one piece. */
  lemma NoSlashSplit(s: string)
    requires '/' !in s
    ensures SplitSlash(s) == [s]
  {
  }

  /** `rfind` is determined by its last occurrence. */
  lemma RFindAt(s: string, c: char, k: int)
    requires 0 <= k < |s| && s[k] == c && forall i :: k < i < |s| ==> s[i] != c
    ensures RFind(s, c) == k
  {
  }

  /** A `/` between two strings splits between their pieces. */
  lemma {:induction false} SplitAround(a: string, b: string)
    ensures SplitSlash(a + "/" + b) == SplitSlash(a) + SplitSlash(b)
    decreases |b|
  {
    var kb := RFind(b, '/');
    if kb < 0 {
      SplitAroundLast(a, b);
    } else {
      var front, back := b[..kb], b[kb + 1..];
      SplitAround(a, front);
      SplitAroundInner(a, b, kb);
      calc {
        SplitSlash(a + "/" + b);
        SplitSlash(a + "/" + front) + [back];
        SplitSlash(a) + SplitSlash(front) + [back];
        SplitSlash(a) + (SplitSlash(front) + [back]);
      }
    }
  }

  /** A piece without `/` after the last separator. */
  lemma SplitAroundLast(a: string, b: string)
    requires RFind(b, '/') < 0
    ensures SplitSlash(a + "/" + b) == SplitSlash(a) + SplitSlash(b)
  {
    var s := a + "/" + b;
    SplitAt(s, |a|);
    assert s[..|a|] == a && s[|a| + 1..] == b;
  }

  /** The last `/` of `b` is the last `/` of `a/b`. */
  lemma SplitAroundInner(a: string, b: string, kb: nat)
    requires kb < |b| && b[kb] == '/' && forall i :: kb < i < |b| ==> b[i] != '/'
    ensures SplitSlash(a + "/" + b) == SplitSlash(a + "/" + b[..kb]) + [b[kb + 1..]]
  {
    var s := a + "/" + b;
    var k := |a| + 1 + kb;
    SplitAt(s, k);
    assert s[..k] == a + "/" + b[..kb] && s[k + 1..] == b[kb + 1..];
  }

  /** A split at the last `/` of `s`. */
  lemma SplitAt(s: string, k: nat)
    requires k < |s| && s[k] == '/' && forall i :: k < i < |s| ==> s[i] != '/'
    ensures SplitSlash(s) == SplitSlash(s[..k]) + [s[k + 1..]]
  {
    RFindAt(s, '/', k);
  }

  /* ---------- normpath ---------- */

  /** One component of `normpath`'s loop: empty and `.` components vanish, `..` takes
      back the last kept component, and a `..` that has nothing to take back is kept
      in a relative path and dropped at the root. */
  function Step(stack: seq<string>, comp: string, rooted: bool): seq<string>
  {
    if comp == "" || comp == "." then stack
    else if comp != ".." || (!rooted && |stack| == 0) || (|stack| > 0 && stack[|stack| - 1] == "..") then stack + [comp]
    else if |stack| > 0 then stack[..|stack| - 1]
    else stack
  }

  /** `normpath`'s loop over the components, from `stack` on. */
  function Norm(stack: seq<string>, comps: seq<string>, rooted: bool): seq<string>
    decreases |comps|
  {
    if |comps| == 0 then stack else Norm(Step(stack, comps[0], rooted), comps[1..], rooted)
  }

  /** The components that stay when none of them is `..`. */
  function Kept(comps: seq<string>): (r: seq<string>)
    ensures forall i :: 0 <= i < |r| ==> r[i] in comps && r[i] != "" && r[i] != "."
  {
    if |comps| == 0 then []
    else if comps[0] == "" || comps[0] == "." then Kept(comps[1..])
    else [comps[0]] + Kept(comps[1..])
  }

  /** The leading slashes `normpath` keeps: two exactly when there are two, else one or none. */
  function Lead(p: string): string
  {
    if StartsWith(p, "//") && !StartsWith(p, "///") then "//"
    else if StartsWith(p, "/") then "/"
    else ""
  }

  /** `os.path.normpath(p)`. */
  function NormPath(p: string): (r: string)
    ensures |r| > 0
    ensures StartsWith(p, "/") ==> r == Lead(p) + JoinSlash(Norm([], SplitSlash(p), true)) && r[0] == '/'
  {
    if p == "" then "."
    else
      var body := JoinSlash(Norm([], SplitSlash(p), |Lead(p)| > 0));
      if Lead(p) + body == "" then "." else Lead(p) + body
  }

  /** `os.path.abspath(p)` with `cwd` for `os.getcwd()`. */
  function AbsPath(cwd: string, p: string): (r: string)
    ensures |r| > 0 && (StartsWith(p, "/") || StartsWith(cwd, "/") ==> r[0] == '/')
  {
    NormPath(if StartsWith(p, "/") then p else PathJoin(cwd, p))
  }

  /** Normalising is done one component after the other. */
  lemma {:induction false} NormAppend(stack: seq<string>, a: seq<string>, b: seq<string>, rooted: bool)
    ensures Norm(stack, a + b, rooted) == Norm(Norm(stack, a, rooted), b, rooted)
    decreases |a|
  {
    if |a| > 0 {
      assert (a + b)[1..] == a[1..] + b;
      NormAppend(Step(stack, a[0], rooted), a[1..], b, rooted);
    } else {
      assert a + b == b;
    }
  }

  /** Normalising `a/b` is normalising `a` and then going on with the pieces of `b`. */
  lemma NormAround(a: string, b: string, rooted: bool)
    ensures Norm([], SplitSlash(a + "/" + b), rooted) == Norm(Norm([], SplitSlash(a), rooted), SplitSlash(b), rooted)
  {
    SplitAround(a, b);
    NormAppend([], SplitSlash(a), SplitSlash(b), rooted);
  }

  /** A folder written with a trailing `/` splits as the folder without it, then `/`. */
  lemma SplitTrailingSlash(folder: string, rest: string)
    requires EndsWith(folder, "/")
    ensures SplitSlash(folder + rest) == SplitSlash(folder[..|folder| - 1] + "/" + rest)
  {
    assert folder + rest == folder[..|folder| - 1] + "/" + rest;
  }

  /** Normalising under a folder written with a trailing `/`. */
  lemma NormTrailingSlash(folder: string, rest: string, rooted: bool)
    requires EndsWith(folder, "/")
    ensures Norm([], SplitSlash(folder + rest), rooted)
      == Norm(Norm([], SplitSlash(folder[..|folder| - 1]), rooted), SplitSlash(rest), rooted)
  {
    SplitTrailingSlash(folder, rest);
    NormAround(folder[..|folder| - 1], rest, rooted);
  }

  /** A trailing `/` does not change the normalised components. */
  lemma NormDropsTrailingSlash(folder: string, rooted: bool)
    requires EndsWith(folder, "/")
    ensures Norm([], SplitSlash(folder), rooted) == Norm([], SplitSlash(folder[..|folder| - 1]), rooted)
  {
    NormTrailingSlash(folder, "", rooted);
    assert folder + "" == folder;
    NoSlashSplit("");
    var base := Norm([], SplitSlash(folder[..|folder| - 1]), rooted);
    assert Norm(base, [""], rooted) == base;
  }

  /** Without `..`, normalising only drops the empty and `.` components. */
  lemma {:induction false} NormNoParent(stack: seq<string>, comps: seq<string>, rooted: bool)
    requires NoParent(comps)
    ensures Norm(stack, comps, rooted) == stack + Kept(comps)
    decreases |comps|
  {
    if |comps| > 0 {
      NormNoParent(Step(stack, comps[0], rooted), comps[1..], rooted);
    }
  }

  /** `"../name".split('/')` for a name without `/`. */
  lemma SplitParentName(name: string)
    requires '/' !in name
    ensures SplitSlash("../" + name) == ["..", name]
  {
    assert "../" + name == ".." + "/" + name;
    SplitAround("..", name);
    NoSlashSplit("..");
    NoSlashSplit(name);
  }

  /** At the root, `..` then a name replaces the last kept component by the name. */
  lemma ParentThenName(dir: seq<string>, name: string)
    requires |dir| > 0 && NoParent(dir)
    requires name != "" && name != "." && name != ".."
    ensures Norm(dir, ["..", name], true) == dir[..|dir| - 1] + [name]
  {
    assert dir[|dir| - 1] != "..";
    var up := Step(dir, "..", true);
    assert up == dir[..|dir| - 1];
    calc {
      Norm(dir, ["..", name], true);
      Norm(up, [name], true);
      Norm(up + [name], [], true);
    }
  }

  /** No component is `..`. */
  predicate NoParent(comps: seq<string>)
  {
    forall i :: 0 <= i < |comps| ==> comps[i] != ".."
  }

  /** At the root, normalising never keeps a `..`. */
  lemma {:induction false} RootedNoParent(stack: seq<string>, comps: seq<string>)
    requires NoParent(stack)
    ensures NoParent(Norm(stack, comps, true))
    decreases |comps|
  {
    if |comps| > 0 {
      var next := Step(stack, comps[0], true);
      assert NoParent(next) by {
        if comps[0] != "" && comps[0] != "." && comps[0] != ".." {
          assert next == stack + [comps[0]];
        } else if |stack| > 0 && comps[0] == ".." {
          assert next == stack[..|stack| - 1];
        }
      }
      RootedNoParent(next, comps[1..]);
    }
  }
}

=== FILE: records.dfy ===
/** The JSON record stores of `data_manager.py`: series, projects, storyboard shots,
    characters and fusion tasks, each a list of dictionaries that the manager reads,
    changes and writes back whole. The files themselves are outside the model: every
    operation takes the list it read and returns the list it writes. `uuid4()` and
    `datetime.now()` are parameters. */
module Records {
  import opened Wrappers
  import opened Json
  import opened Strings
  import opened Sorting

  /* ---------- dataclass schemas and `from_dict` ---------- */

  /** How a dataclass field gets its value when the dictionary lacks it. */
  datatype Default =
    | Required          // no default: the constructor raises TypeError
    | Value(v: Json)    // a literal default, or `default_factory=list`
    | NewId             // `default_factory=lambda: str(uuid.uuid4())`
    | Now               // `default_factory=lambda: datetime.now().isoformat()`

  datatype Field = Field(name: string, default: Default)

  /** What `datetime.now().isoformat()` returns when the default factory of the named
      field runs. Each factory reads the clock on its own, so `created_time` and
      `updated_time` may get different readings. */
  type Clock = string -> string

  /** The fields of a dataclass, in declaration order. */
  type Schema = seq<Field>

  function Names(schema: Schema): set<string>
  {
    set i | 0 <= i < |schema| :: schema[i].name
  }

  predicate MissesRequired(schema: Schema, data: Record)
  {
    exists i :: 0 <= i < |schema| && schema[i].default.Required? && schema[i].name !in data
  }

  /** The default value of field `k`, taken from its first declaration. */
  function DefaultOf(schema: Schema, k: string, uuid: string, clock: Clock): Json
  {
    if |schema| == 0 then JNull
    else if schema[0].name == k then
      match schema[0].default
      case Required => JNull
      case Value(v) => v
      case NewId => JStr(uuid)
      case Now => JStr(clock(k))
    else DefaultOf(schema[1..], k, uuid, clock)
  }

  /** The default of a field comes from its first declaration. */
  lemma {:induction false} DefaultAt(schema: Schema, k: string, i: nat, uuid: string, clock: Clock)
    requires i < |schema| && schema[i].name == k
    requires forall j :: 0 <= j < i ==> schema[j].name != k
    ensures DefaultOf(schema, k, uuid, clock) == match schema[i].default
      case Required => JNull
      case Value(v) => v
      case NewId => JStr(uuid)
      case Now => JStr(clock(k))
  {
    if i > 0 {
      DefaultAt(schema[1..], k, i - 1, uuid, clock);
    }
  }

  /** `cls.from_dict(data).to_dict()`: keys that are not fields are dropped, missing
      fields get their defaults, and a missing required field raises TypeError. */
  function FromDict(schema: Schema, data: Record, uuid: string, clock: Clock): (r: Result<Record, string>)
    ensures r.Failure? <==> MissesRequired(schema, data)
    ensures r.Success? ==> r.value.Keys == Names(schema)
    ensures r.Success? ==> forall k :: k in data && k in Names(schema) ==> r.value[k] == data[k]
    ensures r.Success? ==> forall k :: k in Names(schema) && k !in data ==> r.value[k] == DefaultOf(schema, k, uuid, clock)
  {
    if MissesRequired(schema, data) then Failure("TypeError: missing a required argument")
    else Success(map k | k in Names(schema) :: if k in data then data[k] else DefaultOf(schema, k, uuid, clock))
  }

  /** Building from `data` with one key set over it: every other field of the data
      is kept, and a field in neither takes its default. */
  lemma BuiltOver(schema: Schema, data: Record, key: string, v: Json, uuid: string, clock: Clock)
    requires FromDict(schema, data[key := v], uuid, clock).Success?
    ensures var rec := FromDict(schema, data[key := v], uuid, clock).value;
      && (forall k :: k in data && k in Names(schema) && k != key ==> rec[k] == data[k])
      && (forall k :: k in Names(schema) && k !in data && k != key ==> rec[k] == DefaultOf(schema, k, uuid, clock))
  {
  }

  /** A record read back through its own dataclass comes out unchanged, whatever the
      clock and `uuid4` say then. */
  lemma FromDictRoundTrip(schema: Schema, data: Record, uuid: string, clock: Clock, uuid': string, clock': Clock)
    requires FromDict(schema, data, uuid, clock).Success?
    ensures FromDict(schema, FromDict(schema, data, uuid, clock).value, uuid', clock')
         == FromDict(schema, data, uuid, clock)
  {
    var r := FromDict(schema, data, uuid, clock).value;
    assert !MissesRequired(schema, r) by {
      forall i | 0 <= i < |schema|
        ensures schema[i].name in r
      {
        assert schema[i].name in Names(schema);
      }
    }
    var r2 := FromDict(schema, r, uuid', clock').value;
    assert r2.Keys == r.Keys;
    assert forall k :: k in r ==> r2[k] == r[k];
    assert r2 == r;
  }

  const Blank := Value(JStr(""))
  const EmptyList := Value(JArr([]))

  const SeriesSchema: Schema := [
    Field("id", Required), Field("name", Required), Field("description", Blank),
    Field("cover_image", Blank), Field("script_core_conflict", Blank),
    Field("script_emotional_keywords", Blank), Field("basic_info", Blank),
    Field("visual_color_system", Blank), Field("visual_consistency_prompt", Blank),
    Field("created_time", Now), Field("updated_time", Now)]

  const ProjectSchema: Schema := [
    Field("film_name", Required), Field("script_core_conflict", Blank), Field("series_id", Blank),
    Field("script_emotional_keywords", Blank), Field("basic_info", Blank),
    Field("visual_color_system", Blank), Field("visual_consistency_prompt", Blank),
    Field("id", NewId), Field("created_time", Now), Field("updated_time", Now)]

  const ShotSchema: Schema := [
    Field("movie_id", Required), Field("scene", Required), Field("shot_number", Required),
    Field("visual_description", Required), Field("scene_description", Blank),
    Field("scene_prompt", Blank), Field("scene_image", Blank), Field("characters", EmptyList),
    Field("id", NewId), Field("audio_description", Blank), Field("special_technique", Blank),
    Field("duration", Blank), Field("notes", Blank), Field("start_frame", Blank),
    Field("end_frame", Blank), Field("video_url", Blank), Field("dialogue", Blank),
    Field("audio_url", Blank), Field("start_frame_prompt", Blank), Field("end_frame_prompt", Blank),
    Field("images", EmptyList), Field("created_time", Now), Field("updated_time", Now)]

  const FusionSchema: Schema := [
    Field("id", Required), Field("scene", Required), Field("shot_number", Required),
    Field("base_image", Blank), Field("elements", EmptyList), Field("result_image", Blank),
    Field("fusion_prompt", Blank), Field("end_frame_image", Blank), Field("end_frame_prompt", Blank),
    Field("shot_id", Blank), Field("video_url", Blank), Field("scene_description", Blank),
    Field("visual_description", Blank), Field("dialogue", Blank), Field("audio_description", Blank),
    Field("created_time", Now), Field("updated_time", Now)]

  /** The required fields of `Series` are `id` and `name`. */
  lemma SeriesFields(d: Record)
    ensures "id" in Names(SeriesSchema) && "name" in Names(SeriesSchema)
    ensures MissesRequired(SeriesSchema, d) <==> "id" !in d || "name" !in d
  {
    assert SeriesSchema[0].name == "id" && SeriesSchema[1].name == "name";
    if MissesRequired(SeriesSchema, d) {
      var i :| 0 <= i < |SeriesSchema| && SeriesSchema[i].default.Required? && SeriesSchema[i].name !in d;
      assert i < 2;
    }
    if "id" !in d {
      assert SeriesSchema[0].default.Required? && SeriesSchema[0].name !in d;
    }
    if "name" !in d {
      assert SeriesSchema[1].default.Required? && SeriesSchema[1].name !in d;
    }
  }

  /** `Shot` has the fields `id`, `movie_id` and `updated_time`. */
  lemma ShotNames()
    ensures "id" in Names(ShotSchema) && "movie_id" in Names(ShotSchema) && "updated_time" in Names(ShotSchema)
  {
    assert ShotSchema[0].name == "movie_id" && ShotSchema[8].name == "id" && ShotSchema[22].name == "updated_time";
  }

  /** The required fields of `Shot` are `movie_id`, `scene`, `shot_number` and
      `visual_description`. */
  lemma ShotRequired(d: Record)
    ensures MissesRequired(ShotSchema, d) <==>
      "movie_id" !in d || "scene" !in d || "shot_number" !in d || "visual_description" !in d
  {
    if MissesRequired(ShotSchema, d) {
      var i :| 0 <= i < |ShotSchema| && ShotSchema[i].default.Required? && ShotSchema[i].name !in d;
      assert i < 4;
    }
    if "movie_id" !in d {
      assert ShotSchema[0].default.Required? && ShotSchema[0].name !in d;
    }
    if "scene" !in d {
      assert ShotSchema[1].default.Required? && ShotSchema[1].name !in d;
    }
    if "shot_number" !in d {
      assert ShotSchema[2].default.Required? && ShotSchema[2].name !in d;
    }
    if "visual_description" !in d {
      assert ShotSchema[3].default.Required? && ShotSchema[3].name !in d;
    }
  }

  /** A shot without an `id` gets a fresh uuid. */
  lemma ShotIdDefault(uuid: string, clock: Clock)
    ensures DefaultOf(ShotSchema, "id", uuid, clock) == JStr(uuid)
  {
    assert ShotSchema[8].name == "id";
    forall j | 0 <= j < 8
      ensures ShotSchema[j].name != "id"
    {
    }
    DefaultAt(ShotSchema, "id", 8, uuid, clock);
  }

  /** The required fields of `FusionTask` are `id`, `scene` and `shot_number`. */
  lemma FusionFields(d: Record)
    ensures "id" in Names(FusionSchema) && "updated_time" in Names(FusionSchema) && "created_time" in Names(FusionSchema)
    ensures MissesRequired(FusionSchema, d) <==> "id" !in d || "scene" !in d || "shot_number" !in d
  {
    assert FusionSchema[0].name == "id" && FusionSchema[15].name == "created_time" && FusionSchema[16].name == "updated_time";
    if MissesRequired(FusionSchema, d) {
      var i :| 0 <= i < |FusionSchema| && FusionSchema[i].default.Required? && FusionSchema[i].name !in d;
      assert i < 3;
    }
    if "id" !in d {
      assert FusionSchema[0].default.Required? && FusionSchema[0].name !in d;
    }
    if "scene" !in d {
      assert FusionSchema[1].default.Required? && FusionSchema[1].name !in d;
    }
    if "shot_number" !in d {
      assert FusionSchema[2].default.Required? && FusionSchema[2].name !in d;
    }
  }

  /* ---------- lists of records keyed by `id` ---------- */

  /** Every record has an `id` key, so `s['id']` never raises KeyError. Every operation
      below keeps this true of the lists it writes. */
  predicate AllIds(list: seq<Record>)
  {
    forall i :: 0 <= i < |list| ==> "id" in list[i]
  }

  /** `s['id'] == id`. */
  predicate HasId(r: Record, id: string)
    requires "id" in r
  {
    r["id"] == JStr(id)
  }

  /** The index the loop `for i, s in enumerate(list): if s['id'] == id` stops at. */
  function FindById(list: seq<Record>, id: string): (r: Option<nat>)
    requires AllIds(list)
    ensures r.Some? ==> r.value < |list| && HasId(list[r.value], id)
    ensures r.Some? ==> forall k :: 0 <= k < r.value ==> !HasId(list[k], id)
    ensures r.None? ==> forall k :: 0 <= k < |list| ==> !HasId(list[k], id)
  {
    if |list| == 0 then None
    else if HasId(list[0], id) then Some(0)
    else match FindById(list[1..], id)
      case Some(i) => Some(i + 1)
      case None => None
  }

  /** `next((s for s in list if s['id'] == id), None)`. */
  function GetById(list: seq<Record>, id: string): (r: Option<Record>)
    requires AllIds(list)
    ensures r.Some? <==> exists k :: 0 <= k < |list| && HasId(list[k], id)
    ensures r.Some? ==> r.value in list && HasId(r.value, id)
    ensures r.Some? ==> exists i: nat :: FirstIndex(list, id, i) && r.value == list[i]
  {
    match FindById(list, id)
    case Some(i) =>
      assert FirstIndex(list, id, i);
      Some(list[i])
    case None => None
  }

  /** What an update returns: the list to write and the updated record, if any. */
  datatype Updated = Updated(list: seq<Record>, record: Option<Record>)

  /** `[s for s in list if s['id'] not in ids]`. */
  function RemoveIds(list: seq<Record>, ids: seq<Json>): (r: seq<Record>)
    requires AllIds(list)
    ensures |r| <= |list| && AllIds(r)
    ensures forall k :: 0 <= k < |r| ==> r[k] in list && r[k]["id"] !in ids
    ensures forall k :: 0 <= k < |list| && list[k]["id"] !in ids ==> list[k] in r
  {
    if |list| == 0 then []
    else (if list[0]["id"] in ids then [] else [list[0]]) + RemoveIds(list[1..], ids)
  }

  /** Removal works record by record: the survivors of a concatenation are the
      survivors of each part, in order. */
  lemma {:induction false} RemoveIdsAppend(a: seq<Record>, b: seq<Record>, ids: seq<Json>)
    requires AllIds(a) && AllIds(b)
    ensures AllIds(a + b)
    ensures RemoveIds(a + b, ids) == RemoveIds(a, ids) + RemoveIds(b, ids)
  {
    AllIdsAppend(a, b);
    if |a| == 0 {
      assert a + b == b;
    } else {
      var tail := a[1..];
      assert (a + b)[1..] == tail + b;
      RemoveIdsAppend(tail, b, ids);
      var head: seq<Record> := if a[0]["id"] in ids then [] else [a[0]];
      calc {
        RemoveIds(a + b, ids);
        head + RemoveIds(tail + b, ids);
        head + (RemoveIds(tail, ids) + RemoveIds(b, ids));
        (head + RemoveIds(tail, ids)) + RemoveIds(b, ids);
      }
    }
  }

  lemma AllIdsAppend(a: seq<Record>, b: seq<Record>)
    requires AllIds(a) && AllIds(b)
    ensures AllIds(a + b)
  {
    forall i | 0 <= i < |a + b|
      ensures "id" in (a + b)[i]
    {
      if i >= |a| {
        assert (a + b)[i] == b[i - |a|];
      }
    }
  }

  /** Nothing but the named records goes: removed and kept records together are the
      original list. */
  lemma {:induction false} RemoveIdsCounts(list: seq<Record>, ids: seq<Json>)
    requires AllIds(list)
    ensures multiset(RemoveIds(list, ids)) + multiset(KeepIds(list, ids)) == multiset(list)
  {
    if |list| > 0 {
      var x, t := list[0], list[1..];
      RemoveIdsCounts(t, ids);
      SplitCons(x, RemoveIds(t, ids), KeepIds(t, ids), t);
      assert list == [x] + t;
      if x["id"] in ids {
        assert RemoveIds(list, ids) == RemoveIds(t, ids);
        assert KeepIds(list, ids) == [x] + KeepIds(t, ids);
      } else {
        assert RemoveIds(list, ids) == [x] + RemoveIds(t, ids);
        assert KeepIds(list, ids) == KeepIds(t, ids);
      }
    }
  }

  /** A split of `t` into `a` and `b` extends to a split of `[x] + t` by adding `x`
      to either side. */
  lemma SplitCons<T>(x: T, a: seq<T>, b: seq<T>, t: seq<T>)
    requires multiset(a) + multiset(b) == multiset(t)
    ensures multiset([x] + a) + multiset(b) == multiset([x] + t)
    ensures multiset(a) + multiset([x] + b) == multiset([x] + t)
  {
  }

  /** Removal shortens the list exactly when some record has one of the ids. */
  lemma {:induction false} RemoveIdsShrinks(list: seq<Record>, ids: seq<Json>)
    requires AllIds(list)
    ensures |RemoveIds(list, ids)| < |list| <==> exists k :: 0 <= k < |list| && list[k]["id"] in ids
  {
    if |list| > 0 {
      RemoveIdsShrinks(list[1..], ids);
      if exists k :: 0 <= k < |list[1..]| && list[1..][k]["id"] in ids {
        var k :| 0 <= k < |list[1..]| && list[1..][k]["id"] in ids;
        assert list[k + 1] == list[1..][k];
      }
      if exists k :: 0 <= k < |list| && list[k]["id"] in ids {
        var k :| 0 <= k < |list| && list[k]["id"] in ids;
        if k > 0 {
          assert list[1..][k - 1] == list[k];
        }
      }
    }
  }

  /** The records `RemoveIds` drops. */
  function KeepIds(list: seq<Record>, ids: seq<Json>): (r: seq<Record>)
    requires AllIds(list)
    ensures forall k :: 0 <= k < |r| ==> r[k] in list && r[k]["id"] in ids
    ensures forall k :: 0 <= k < |list| && list[k]["id"] in ids ==> list[k] in r
  {
    if |list| == 0 then []
    else (if list[0]["id"] in ids then [list[0]] else []) + KeepIds(list[1..], ids)
  }

  /** `list.insert(i, x)` when `insert_index` is an int (a bool counts) in `[0, len]`,
      `list.append(x)` otherwise. */
  function InsertPosition(list: seq<Record>, insertIndex: Json): (p: nat)
    ensures p <= |list|
    ensures AsPyInt(insertIndex).Some? && 0 <= AsPyInt(insertIndex).value <= |list| ==> p == AsPyInt(insertIndex).value
    ensures !(AsPyInt(insertIndex).Some? && 0 <= AsPyInt(insertIndex).value <= |list|) ==> p == |list|
  {
    match AsPyInt(insertIndex)
    case Some(n) => if 0 <= n <= |list| then n else |list|
    case None => |list|
  }

  function InsertAt(list: seq<Record>, p: nat, x: Record): (r: seq<Record>)
    requires p <= |list|
    ensures |r| == |list| + 1 && r[p] == x
    ensures r[..p] == list[..p] && r[p + 1..] == list[p..]
  {
    list[..p] + [x] + list[p..]
  }

  /** Inserting a record with an `id` keeps every record's `id`. */
  lemma InsertKeepsIds(list: seq<Record>, p: nat, x: Record)
    requires AllIds(list) && p <= |list| && "id" in x
    ensures AllIds(InsertAt(list, p, x))
  {
    var r := InsertAt(list, p, x);
    forall k | 0 <= k < |r|
      ensures "id" in r[k]
    {
      if k < p {
        assert r[k] == r[..p][k] == list[k];
      } else if k > p {
        assert r[k] == r[p + 1..][k - p - 1] == list[k - 1];
      }
    }
  }

  /** Taking the inserted record back out gives the original list: existing records
      keep their relative order. */
  lemma InsertAtRemove(list: seq<Record>, p: nat, x: Record)
    requires p <= |list|
    ensures var r := InsertAt(list, p, x); r[..p] + r[p + 1..] == list
  {
    var r := InsertAt(list, p, x);
    assert list == list[..p] + list[p..];
  }

  /** A record inserted under an id no stored record has is the one found by that
      id afterwards. */
  lemma GetInserted(list: seq<Record>, p: nat, x: Record, id: string)
    requires AllIds(list) && p <= |list| && "id" in x && HasId(x, id)
    requires forall k :: 0 <= k < |list| ==> !HasId(list[k], id)
    ensures AllIds(InsertAt(list, p, x)) && GetById(InsertAt(list, p, x), id) == Some(x)
  {
    var r := InsertAt(list, p, x);
    InsertKeepsIds(list, p, x);
    assert forall k :: 0 <= k < p ==> r[k] == r[..p][k] == list[k];
    assert r[p] == x;
  }

  /** `i` is the index of the first record with the id. */
  predicate FirstIndex(list: seq<Record>, id: string, i: nat)
    requires AllIds(list)
  {
    i < |list| && HasId(list[i], id) && forall k :: 0 <= k < i ==> !HasId(list[k], id)
  }

  /** The list `create_*` writes and the record it returns. */
  datatype Created = Created(list: seq<Record>, record: Record)

  /* ---------- sorting by a timestamp ---------- */

  /** `x.get(key, '')` as a string, for a record whose value there is a string. */
  function StrAt(r: Record, key: string): string
  {
    if key in r && r[key].JStr? then r[key].s else ""
  }

  /** The sort key `lambda x: x.get(key, '')`. */
  function StrKey(key: string): Record -> string
  {
    (x: Record) => StrAt(x, key)
  }

  /** Some record holds a value other than a string under `key`. */
  predicate NonStringKey(list: seq<Record>, key: string)
  {
    exists i :: 0 <= i < |list| && key in list[i] && !list[i][key].JStr?
  }

  /** `list.sort(key=lambda x: x.get(key, ''))`, descending for `reverse=True`. Two
      or more records with a non-string value there are not modelled as Python orders
      them: comparing such values with strings raises TypeError. */
  function SortByKey(list: seq<Record>, key: string, d: Direction): (r: Result<seq<Record>, string>)
    ensures r.Failure? <==> |list| > 1 && NonStringKey(list, key)
  {
    if |list| > 1 && NonStringKey(list, key) then Failure("TypeError: '<' not supported")
    else Success(Sort(list, StrKey(key), d))
  }

  /** A successful sort returns the same records, ordered by the key, and records with
      equal keys keep their order. */
  lemma SortByKeySpec(list: seq<Record>, key: string, d: Direction)
    requires SortByKey(list, key, d).Success?
    ensures multiset(SortByKey(list, key, d).value) == multiset(list)
    ensures |SortByKey(list, key, d).value| == |list|
    ensures SortedBy(SortByKey(list, key, d).value, StrKey(key), d)
    ensures forall k :: WithKey(SortByKey(list, key, d).value, StrKey(key), k)
                     == WithKey(list, StrKey(key), k)
  {
    SortSpec(list, StrKey(key), d);
  }

  /** Sorting keeps every record's `id`. */
  lemma SortKeepsIds(list: seq<Record>, key: string, d: Direction)
    requires AllIds(list) && SortByKey(list, key, d).Success?
    ensures AllIds(SortByKey(list, key, d).value)
  {
    var r := SortByKey(list, key, d).value;
    SortByKeySpec(list, key, d);
    forall i | 0 <= i < |r|
      ensures "id" in r[i]
    {
      assert r[i] in multiset(list);
    }
  }

  /* ---------- series ---------- */

  /** `get_all_series`: the series, most recently updated first. */
  function GetAllSeries(list: seq<Record>): Result<seq<Record>, string>
  {
    SortByKey(list, "updated_time", Descending)
  }

  /** `get_series_by_id`: the first series with the id in that order. */
  function GetSeriesById(list: seq<Record>, id: string): (r: Result<Option<Record>, string>)
    requires AllIds(list)
    ensures r.Success? ==> (r.value.Some? <==> exists k :: 0 <= k < |list| && HasId(list[k], id))
    ensures r.Success? && r.value.Some? ==> r.value.value in list && HasId(r.value.value, id)
    ensures r.Failure? <==> GetAllSeries(list).Failure?
    ensures r.Success? && r.value.Some? ==>
      exists i :: 0 <= i < |GetAllSeries(list).value| && GetAllSeries(list).value[i] == r.value.value
        && forall j :: 0 <= j < i ==> Get(GetAllSeries(list).value[j], "id") != JStr(id)
  {
    match GetAllSeries(list)
    case Failure(e) => Failure(e)
    case Success(sorted) =>
      SortKeepsIds(list, "updated_time", Descending);
      SortByKeySpec(list, "updated_time", Descending);
      SameElementsSameIds(list, sorted, id);
      Success(GetById(sorted, id))
  }

  /** Two lists with the same records hold a record with a given id alike. */
  lemma SameElementsSameIds(a: seq<Record>, b: seq<Record>, id: string)
    requires AllIds(a) && AllIds(b) && multiset(a) == multiset(b)
    ensures (exists k :: 0 <= k < |a| && HasId(a[k], id)) <==> (exists k :: 0 <= k < |b| && HasId(b[k], id))
    ensures forall x :: x in b ==> x in a
  {
    if exists k :: 0 <= k < |a| && HasId(a[k], id) {
      var k :| 0 <= k < |a| && HasId(a[k], id);
      assert a[k] in multiset(b);
      var j :| 0 <= j < |b| && b[j] == a[k];
    }
    if exists k :: 0 <= k < |b| && HasId(b[k], id) {
      var k :| 0 <= k < |b| && HasId(b[k], id);
      assert b[k] in multiset(a);
      var j :| 0 <= j < |a| && a[j] == b[k];
    }
    forall x | x in b
      ensures x in a
    {
      assert x in multiset(a);
    }
  }

  /** A clock that reads `now` for every field. */
  function Reads(now: string): Clock
  {
    _ => now
  }

  /** `create_series`: a new id, then the series goes to the front of the list. */
  function CreateSeries(list: seq<Record>, data: Record, uuid: string, clock: Clock): (r: Result<Created, string>)
    requires AllIds(list)
    ensures r.Failure? <==> "name" !in data
    ensures r.Success? ==> r.value.list == [r.value.record] + list && AllIds(r.value.list)
    ensures r.Success? ==> r.value.record.Keys == Names(SeriesSchema)
    ensures r.Success? ==> "id" in r.value.record && r.value.record["id"] == JStr(uuid)
    ensures r.Success? ==> SeriesStamp(r.value.record, data, "created_time", clock)
    ensures r.Success? ==> SeriesStamp(r.value.record, data, "updated_time", clock)
    ensures r.Success? ==> forall k :: k in data && k in Names(SeriesSchema) && k != "id" ==>
      r.value.record[k] == data[k]
    ensures r.Success? ==> forall k :: k in Names(SeriesSchema) && k !in data && k != "id" ==>
      r.value.record[k] == DefaultOf(SeriesSchema, k, uuid, clock)
  {
    var d := data["id" := JStr(uuid)];
    SeriesFields(d);
    SeriesStampDefaults(uuid, clock);
    match FromDict(SeriesSchema, d, uuid, clock)
    case Failure(e) => Failure(e)
    case Success(rec) =>
      BuiltOver(SeriesSchema, data, "id", JStr(uuid), uuid, clock);
      AllIdsAppend([rec], list);
      Success(Created([rec] + list, rec))
  }

  /** A series created under an id no stored series has is the one `get_series_by_id`
      finds afterwards, wherever the sort puts it. */
  lemma CreatedSeriesIsFound(list: seq<Record>, data: Record, uuid: string, clock: Clock)
    requires AllIds(list) && CreateSeries(list, data, uuid, clock).Success?
    requires forall k :: 0 <= k < |list| ==> !HasId(list[k], uuid)
    requires GetSeriesById(CreateSeries(list, data, uuid, clock).value.list, uuid).Success?
    ensures var c := CreateSeries(list, data, uuid, clock).value;
      GetSeriesById(c.list, uuid) == Success(Some(c.record))
  {
    var c := CreateSeries(list, data, uuid, clock).value;
    assert HasId(c.list[0], uuid);
    var g := GetSeriesById(c.list, uuid).value;
    assert g.Some?;
    OnlyHeadHasId(c.record, list, g.value, uuid);
  }

  /** In a list whose tail lacks the id, the head is the only record with it. */
  lemma OnlyHeadHasId(x: Record, list: seq<Record>, y: Record, id: string)
    requires AllIds(list) && forall k :: 0 <= k < |list| ==> !HasId(list[k], id)
    requires y in [x] + list && "id" in y && HasId(y, id)
    ensures y == x
  {
    assert y == x || y in list;
  }

  /** A stamp of a new series is the one in `data`, else its own reading of the clock. */
  predicate SeriesStamp(rec: Record, data: Record, k: string, clock: Clock)
  {
    k in rec && rec[k] == if k in data then data[k] else JStr(clock(k))
  }

  /** The two stamps of `Series` default to their own readings of the clock. */
  lemma SeriesStampDefaults(uuid: string, clock: Clock)
    ensures "created_time" in Names(SeriesSchema) && "updated_time" in Names(SeriesSchema)
    ensures DefaultOf(SeriesSchema, "created_time", uuid, clock) == JStr(clock("created_time"))
    ensures DefaultOf(SeriesSchema, "updated_time", uuid, clock) == JStr(clock("updated_time"))
  {
    assert SeriesSchema[9].name == "created_time" && SeriesSchema[10].name == "updated_time";
    DefaultAt(SeriesSchema, "created_time", 9, uuid, clock);
    DefaultAt(SeriesSchema, "updated_time", 10, uuid, clock);
  }

  /** `{**s, **data, 'updated_time': now}`. */
  function TouchMerge(s: Record, data: Record, now: string): (r: Record)
    ensures r.Keys == s.Keys + data.Keys + {"updated_time"}
    ensures r["updated_time"] == JStr(now)
    ensures forall k :: k in data && k != "updated_time" ==> r[k] == data[k]
    ensures forall k :: k in s && k !in data && k != "updated_time" ==> r[k] == s[k]
  {
    Merge(Merge(s, data), map["updated_time" := JStr(now)])
  }

  /** `update_series`: the first series with the id is merged with `data` and stamped;
      None when there is none. */
  function UpdateSeries(list: seq<Record>, id: string, data: Record, now: string): (r: Updated)
    requires AllIds(list)
    ensures AllIds(r.list) && |r.list| == |list|
    ensures r.record.None? <==> forall k :: 0 <= k < |list| ==> !HasId(list[k], id)
    ensures r.record.None? ==> r.list == list
    ensures r.record.Some? ==> exists i: nat ::
      (FirstIndex(list, id, i) && r.record.value == TouchMerge(list[i], data, now) && r.list == list[i := r.record.value])
  {
    match FindById(list, id)
    case None => Updated(list, None)
    case Some(i) =>
      var rec := TouchMerge(list[i], data, now);
      assert FirstIndex(list, id, i);
      Updated(list[i := rec], Some(rec))
  }

  /** `delete_series`, and the other deletions by id. */
  function DeleteById(list: seq<Record>, id: string): (r: seq<Record>)
    requires AllIds(list)
    ensures AllIds(r)
    ensures forall k :: 0 <= k < |r| ==> !HasId(r[k], id)
    ensures forall k :: 0 <= k < |list| && !HasId(list[k], id) ==> list[k] in r
  {
    RemoveIds(list, [JStr(id)])
  }

  /* ---------- provider settings ---------- */

  /** `get_provider_config`: the first provider whose `id` equals the one asked for,
      or `{'type': 'mock'}`. */
  function ProviderConfig(providers: seq<Record>, providerId: Json): (r: Record)
    ensures (exists i :: 0 <= i < |providers| && Get(providers[i], "id") == providerId) ==>
      r in providers && Get(r, "id") == providerId
    ensures (forall i :: 0 <= i < |providers| ==> Get(providers[i], "id") != providerId) ==>
      r == map["type" := JStr("mock")]
    ensures (exists i :: 0 <= i < |providers| && Get(providers[i], "id") == providerId) ==>
      exists i :: FirstProviderAt(providers, providerId, i, r)
  {
    if |providers| == 0 then map["type" := JStr("mock")]
    else if Get(providers[0], "id") == providerId then
      assert FirstProviderAt(providers, providerId, 0, providers[0]);
      providers[0]
    else
      var r := ProviderConfig(providers[1..], providerId);
      FirstProviderShift(providers, providerId, r);
      r
  }

  /** A provider with the id that no earlier one carries. */
  predicate FirstProviderAt(providers: seq<Record>, providerId: Json, i: int, p: Record)
  {
    0 <= i < |providers| && providers[i] == p && forall j :: 0 <= j < i ==> Get(providers[j], "id") != providerId
  }

  /** Past a first provider without the id, the first provider with it in the tail
      is the first one in the whole list. */
  lemma FirstProviderShift(providers: seq<Record>, providerId: Json, r: Record)
    requires |providers| > 0 && Get(providers[0], "id") != providerId
    requires (exists i :: 0 <= i < |providers[1..]| && Get(providers[1..][i], "id") == providerId) ==>
      exists i :: FirstProviderAt(providers[1..], providerId, i, r)
    ensures (exists i :: 0 <= i < |providers| && Get(providers[i], "id") == providerId) ==>
      exists i :: FirstProviderAt(providers, providerId, i, r)
  {
    if exists i :: 0 <= i < |providers| && Get(providers[i], "id") == providerId {
      var k :| 0 <= k < |providers| && Get(providers[k], "id") == providerId;
      assert providers[1..][k - 1] == providers[k];
      var i :| FirstProviderAt(providers[1..], providerId, i, r);
      assert forall j :: 1 <= j < i + 1 ==> providers[j] == providers[1..][j - 1];
      assert FirstProviderAt(providers, providerId, i + 1, r);
    }
  }

  /* ---------- projects ---------- */

  /** `get_all_projects`: the projects' `info.json` records, most recently updated
      first. The order `os.listdir` gives them in is the order of `infos`. */
  function GetAllProjects(infos: seq<Record>): Result<seq<Record>, string>
  {
    SortByKey(infos, "updated_time", Descending)
  }

  /** `[p for p in projects if p.get('series_id') == series_id]`. */
  function InSeries(projects: seq<Record>, seriesId: Json): (r: seq<Record>)
    ensures forall k :: 0 <= k < |r| ==> Get(r[k], "series_id") == seriesId
    ensures multiset(r) <= multiset(projects)
  {
    if |projects| == 0 then []
    else
      assert projects == [projects[0]] + projects[1..];
      (if Get(projects[0], "series_id") == seriesId then [projects[0]] else []) + InSeries(projects[1..], seriesId)
  }

  /** `get_projects_by_series`: the series' projects, oldest first. */
  function ProjectsBySeries(infos: seq<Record>, seriesId: Json): Result<seq<Record>, string>
  {
    match GetAllProjects(infos)
    case Failure(e) => Failure(e)
    case Success(all) => SortByKey(InSeries(all, seriesId), "created_time", Ascending)
  }

  /** Every project of the series comes back once, and only those, ordered by
      `created_time`. */
  lemma ProjectsBySeriesSpec(infos: seq<Record>, seriesId: Json)
    requires ProjectsBySeries(infos, seriesId).Success?
    ensures var r := ProjectsBySeries(infos, seriesId).value;
      && (forall k :: 0 <= k < |r| ==> Get(r[k], "series_id") == seriesId)
      && multiset(r) <= multiset(infos)
      && (forall x :: x in infos && Get(x, "series_id") == seriesId ==> multiset(r)[x] == multiset(infos)[x])
      && SortedBy(r, StrKey("created_time"), Ascending)
  {
    var all := GetAllProjects(infos).value;
    SortByKeySpec(infos, "updated_time", Descending);
    var f := InSeries(all, seriesId);
    SortByKeySpec(f, "created_time", Ascending);
    var r := ProjectsBySeries(infos, seriesId).value;
    InSeriesCount(all, seriesId);
    forall k | 0 <= k < |r|
      ensures Get(r[k], "series_id") == seriesId
    {
      assert r[k] in multiset(f);
    }
  }

  /** The filter keeps every copy of each record of the series. */
  lemma {:induction false} InSeriesCount(projects: seq<Record>, seriesId: Json)
    ensures forall x :: Get(x, "series_id") == seriesId ==> multiset(InSeries(projects, seriesId))[x] == multiset(projects)[x]
  {
    if |projects| > 0 {
      InSeriesCount(projects[1..], seriesId);
      assert projects == [projects[0]] + projects[1..];
    }
  }

  /** `update_project`: a project with no (or an empty) `info.json` gives None;
      otherwise `data` is merged in, `id` forced to the project's and the record
      stamped. */
  function UpdateProject(current: Record, projectId: string, data: Record, now: string): (r: Option<Record>)
    ensures r.None? <==> |current| == 0
    ensures r.Some? ==> r.value.Keys == current.Keys + data.Keys + {"id", "updated_time"}
    ensures r.Some? ==> r.value["id"] == JStr(projectId) && r.value["updated_time"] == JStr(now)
    ensures r.Some? ==> forall k :: k in data && k !in {"id", "updated_time"} ==> r.value[k] == data[k]
    ensures r.Some? ==> forall k :: k in current && k !in data && k !in {"id", "updated_time"} ==> r.value[k] == current[k]
  {
    if |current| == 0 then None
    else Some(PatchWithId(current, data, projectId, now))
  }

  /* ---------- shots ---------- */

  /** `create_shot`: the shot is built from `data` plus the project id, and inserted at
      `insert_index` when that is a usable int, else appended. */
  function CreateShot(shots: seq<Record>, projectId: string, data: Record, uuid: string, clock: Clock): (r: Result<Created, string>)
    requires AllIds(shots)
    ensures r.Failure? <==> "scene" !in data || "shot_number" !in data || "visual_description" !in data
    ensures r.Success? ==>
      && r.value.list == InsertAt(shots, InsertPosition(shots, Get(data, "insert_index")), r.value.record)
      && AllIds(r.value.list)
      && r.value.record.Keys == Names(ShotSchema)
      && "movie_id" in r.value.record && "id" in r.value.record
      && r.value.record["movie_id"] == JStr(projectId)
      && r.value.record["id"] == (if "id" in data then data["id"] else JStr(uuid))
    ensures r.Success? ==> forall k :: k in data && k in Names(ShotSchema) && k != "movie_id" ==>
      r.value.record[k] == data[k]
    ensures r.Success? ==> forall k :: k in Names(ShotSchema) && k !in data && k != "movie_id" ==>
      r.value.record[k] == DefaultOf(ShotSchema, k, uuid, clock)
  {
    var d := data["movie_id" := JStr(projectId)];
    ShotNames();
    ShotRequired(d);
    ShotIdDefault(uuid, clock);
    match FromDict(ShotSchema, d, uuid, clock)
    case Failure(e) => Failure(e)
    case Success(rec) =>
      BuiltOver(ShotSchema, data, "movie_id", JStr(projectId), uuid, clock);
      assert rec["movie_id"] == d["movie_id"];
      assert rec["id"] == (if "id" in d then d["id"] else JStr(uuid));
      var list := InsertAt(shots, InsertPosition(shots, Get(data, "insert_index")), rec);
      InsertKeepsIds(shots, InsertPosition(shots, Get(data, "insert_index")), rec);
      Success(Created(list, rec))
  }

  /** A shot created under an id no stored shot has is the one `get_shot` finds by
      that id, wherever it was inserted. */
  lemma CreatedShotIsFound(shots: seq<Record>, projectId: string, data: Record, uuid: string, clock: Clock, sid: string)
    requires AllIds(shots) && CreateShot(shots, projectId, data, uuid, clock).Success?
    requires (if "id" in data then data["id"] else JStr(uuid)) == JStr(sid)
    requires forall k :: 0 <= k < |shots| ==> !HasId(shots[k], sid)
    ensures var c := CreateShot(shots, projectId, data, uuid, clock).value;
      GetById(c.list, sid) == Some(c.record)
  {
    var c := CreateShot(shots, projectId, data, uuid, clock).value;
    GetInserted(shots, InsertPosition(shots, Get(data, "insert_index")), c.record, sid);
  }

  /** The merge `update_shot` and `update_fusion` make before rebuilding the record. */
  function PatchWithId(s: Record, data: Record, id: string, now: string): (r: Record)
    ensures r.Keys == s.Keys + data.Keys + {"id", "updated_time"}
    ensures r["id"] == JStr(id) && r["updated_time"] == JStr(now)
    ensures forall k :: k in data && k !in {"id", "updated_time"} ==> r[k] == data[k]
    ensures forall k :: k in s && k !in data && k !in {"id", "updated_time"} ==> r[k] == s[k]
  {
    Merge(Merge(s, data), map["id" := JStr(id), "updated_time" := JStr(now)])
  }

  /** The record `{**stored, **data, 'id': id, 'updated_time': now}` rebuilt through
      the dataclass, field by field: the data wins, a stored field the data does not
      name keeps its value, and a field in neither takes its default. */
  predicate Rebuilt(schema: Schema, stored: Record, data: Record, id: string, now: string, clock: Clock, rec: Record)
  {
    && rec.Keys == Names(schema) && "id" in rec && "updated_time" in rec
    && rec["id"] == JStr(id) && rec["updated_time"] == JStr(now)
    && (forall k :: k in data && k in rec && k !in {"id", "updated_time"} ==> rec[k] == data[k])
    && (forall k :: k in stored && k !in data && k in rec && k !in {"id", "updated_time"} ==> rec[k] == stored[k])
    && (forall k :: k !in stored && k !in data && k in rec && k !in {"id", "updated_time"} ==>
          rec[k] == DefaultOf(schema, k, id, clock))
  }

  /** Rebuilding the patched record gives it field by field. */
  lemma RebuiltFromPatch(schema: Schema, stored: Record, data: Record, id: string, now: string, clock: Clock)
    requires "id" in Names(schema) && "updated_time" in Names(schema)
    requires FromDict(schema, PatchWithId(stored, data, id, now), id, clock).Success?
    ensures Rebuilt(schema, stored, data, id, now, clock, FromDict(schema, PatchWithId(stored, data, id, now), id, clock).value)
  {
    var patched := PatchWithId(stored, data, id, now);
    var rec := FromDict(schema, patched, id, clock).value;
    assert rec["id"] == patched["id"] && rec["updated_time"] == patched["updated_time"];
  }

  /** The update `update_shot` and `update_fusion` share: the first record with the
      id is merged with `data`, keeps its id, is stamped and rebuilt through the
      dataclass; None when there is none. Rebuilding raises when a required field is
      in neither the stored record nor `data`. `now` is the stamp of the merge, and
      `clock` what the factory of a stamp missing from both reads later. */
  function UpdateRebuilt(schema: Schema, list: seq<Record>, id: string, data: Record, now: string, clock: Clock): (r: Result<Updated, string>)
    requires AllIds(list) && "id" in Names(schema) && "updated_time" in Names(schema)
    ensures r.Failure? <==> exists i: nat :: FirstIndex(list, id, i) && MissesRequired(schema, PatchWithId(list[i], data, id, now))
    ensures r.Success? ==> AllIds(r.value.list) && |r.value.list| == |list|
    ensures (r.Success? && r.value.record.None?) <==> forall k :: 0 <= k < |list| ==> !HasId(list[k], id)
    ensures r.Success? && r.value.record.None? ==> r.value.list == list
    ensures r.Success? && r.value.record.Some? ==> var rec := r.value.record.value;
      && rec.Keys == Names(schema) && rec["id"] == JStr(id) && rec["updated_time"] == JStr(now)
      && (forall k :: k in data && k in Names(schema) && k !in {"id", "updated_time"} ==> rec[k] == data[k])
      && exists i: nat :: FirstIndex(list, id, i) && r.value.list == list[i := rec]
    ensures r.Success? && r.value.record.Some? ==> exists i: nat ::
      FirstIndex(list, id, i) && Rebuilt(schema, list[i], data, id, now, clock, r.value.record.value)
  {
    match FindById(list, id)
    case None => Success(Updated(list, None))
    case Some(i) =>
      assert FirstIndex(list, id, i);
      var patched := PatchWithId(list[i], data, id, now);
      match FromDict(schema, patched, id, clock)
      case Failure(e) => Failure(e)
      case Success(rec) =>
        RebuiltFromPatch(schema, list[i], data, id, now, clock);
        Success(Updated(list[i := rec], Some(rec)))
  }

  /** `update_shot`. */
  function UpdateShot(shots: seq<Record>, id: string, data: Record, now: string, clock: Clock): (r: Result<Updated, string>)
    requires AllIds(shots)
    ensures r.Success? ==> AllIds(r.value.list) && |r.value.list| == |shots|
    ensures r.Failure? <==> exists i: nat :: FirstIndex(shots, id, i) && MissesRequired(ShotSchema, PatchWithId(shots[i], data, id, now))
    ensures (r.Success? && r.value.record.None?) <==> forall k :: 0 <= k < |shots| ==> !HasId(shots[k], id)
    ensures r.Success? && r.value.record.None? ==> r.value.list == shots
    ensures r.Success? && r.value.record.Some? ==> exists i: nat ::
      && FirstIndex(shots, id, i) && r.value.list == shots[i := r.value.record.value]
      && Rebuilt(ShotSchema, shots[i], data, id, now, clock, r.value.record.value)
  {
    ShotNames();
    UpdateRebuilt(ShotSchema, shots, id, data, now, clock)
  }


  /** `update_fusion`. */
  function UpdateFusion(fusions: seq<Record>, id: string, data: Record, now: string, clock: Clock): (r: Result<Updated, string>)
    requires AllIds(fusions)
    ensures r.Success? ==> AllIds(r.value.list) && |r.value.list| == |fusions|
    ensures r.Failure? <==> exists i: nat :: FirstIndex(fusions, id, i) && MissesRequired(FusionSchema, PatchWithId(fusions[i], data, id, now))
    ensures (r.Success? && r.value.record.None?) <==> forall k :: 0 <= k < |fusions| ==> !HasId(fusions[k], id)
    ensures r.Success? && r.value.record.None? ==> r.value.list == fusions
    ensures r.Success? && r.value.record.Some? ==> exists i: nat ::
      && FirstIndex(fusions, id, i) && r.value.list == fusions[i := r.value.record.value]
      && Rebuilt(FusionSchema, fusions[i], data, id, now, clock, r.value.record.value)
  {
    FusionFields(map[]);
    UpdateRebuilt(FusionSchema, fusions, id, data, now, clock)
  }

  /** After an update, looking the id up again finds the updated record. */
  lemma UpdatedIsFound(schema: Schema, list: seq<Record>, id: string, data: Record, now: string, clock: Clock)
    requires AllIds(list) && "id" in Names(schema) && "updated_time" in Names(schema)
    requires UpdateRebuilt(schema, list, id, data, now, clock).Success?
    ensures var u := UpdateRebuilt(schema, list, id, data, now, clock).value;
      GetById(u.list, id) == u.record
  {
    var u := UpdateRebuilt(schema, list, id, data, now, clock).value;
    if u.record.Some? {
      var i: nat :| FirstIndex(list, id, i) && u.list == list[i := u.record.value];
      ReplacedIsFound(list, i, id, u.record.value);
    }
  }

  /** Writing a record with the id over the first record with it leaves it first. */
  lemma ReplacedIsFound(list: seq<Record>, i: nat, id: string, rec: Record)
    requires AllIds(list) && FirstIndex(list, id, i) && "id" in rec && HasId(rec, id)
    ensures AllIds(list[i := rec]) && GetById(list[i := rec], id) == Some(rec)
  {
    var l := list[i := rec];
    assert forall k :: 0 <= k < i ==> l[k] == list[k];
    assert FirstIndex(l, id, i);
    var g := GetById(l, id);
    assert g.Some?;
    var j: nat :| FirstIndex(l, id, j) && g.value == l[j];
    assert l[i] == rec && HasId(l[i], id) && HasId(l[j], id);
  }

  /** `get_shot` after `update_shot` returns the shot it wrote. */
  lemma UpdatedShotIsFound(shots: seq<Record>, id: string, data: Record, now: string, clock: Clock)
    requires AllIds(shots) && UpdateShot(shots, id, data, now, clock).Success?
    ensures var u := UpdateShot(shots, id, data, now, clock).value;
      GetById(u.list, id) == u.record
  {
    ShotNames();
    UpdatedIsFound(ShotSchema, shots, id, data, now, clock);
  }

  /** `get_fusion` after `update_fusion` returns the fusion it wrote. */
  lemma UpdatedFusionIsFound(fusions: seq<Record>, id: string, data: Record, now: string, clock: Clock)
    requires AllIds(fusions) && UpdateFusion(fusions, id, data, now, clock).Success?
    ensures var u := UpdateFusion(fusions, id, data, now, clock).value;
      GetById(u.list, id) == u.record
  {
    FusionFields(map[]);
    UpdatedIsFound(FusionSchema, fusions, id, data, now, clock);
  }

  /* ---------- the previous shot ---------- */

  /** `int(s['shot_number'])`, None when the key is missing or the value is no int. */
  function ShotNumber(s: Record): Option<int>
  {
    if "shot_number" in s then PyInt(s["shot_number"]) else None
  }

  /** The generator `next(s for s in shots if int(s['shot_number']) == target)`, where
      the first shot whose number cannot be read raises, and the bare `except` turns
      that into None. */
  function ShotNumbered(shots: seq<Record>, target: int): (r: Option<Record>)
    ensures r.Some? ==> r.value in shots && ShotNumber(r.value) == Some(target)
  {
    if |shots| == 0 then None
    else match ShotNumber(shots[0])
      case None => None
      case Some(n) => if n == target then Some(shots[0]) else ShotNumbered(shots[1..], target)
  }

  /** `get_previous_shot`: the first shot numbered one less than the current one. */
  function GetPreviousShot(shots: seq<Record>, current: Json): (r: Option<Record>)
    ensures r.Some? ==> r.value in shots && PyInt(current).Some?
    ensures r.Some? ==> ShotNumber(r.value) == Some(PyInt(current).value - 1)
    ensures PyInt(current).None? ==> r.None?
  {
    match PyInt(current)
    case None => None
    case Some(c) => ShotNumbered(shots, c - 1)
  }

  /** Every shot's number can be read. */
  predicate Numbered(shots: seq<Record>)
  {
    forall k :: 0 <= k < |shots| ==> ShotNumber(shots[k]).Some?
  }

  /** The first shot with the number. */
  predicate FirstNumbered(shots: seq<Record>, target: int, i: nat)
  {
    i < |shots| && ShotNumber(shots[i]) == Some(target)
    && forall k :: 0 <= k < i ==> ShotNumber(shots[k]).Some? && ShotNumber(shots[k]) != Some(target)
  }

  /** The search finds the first shot with the number, provided every shot before it
      has a readable number; when all numbers are readable it fails only if no shot
      has the number. */
  lemma {:induction false} ShotNumberedSpec(shots: seq<Record>, target: int)
    ensures forall i: nat :: FirstNumbered(shots, target, i) ==> ShotNumbered(shots, target) == Some(shots[i])
    ensures Numbered(shots) ==>
      (ShotNumbered(shots, target).None? <==> forall k :: 0 <= k < |shots| ==> ShotNumber(shots[k]) != Some(target))
  {
    if |shots| > 0 {
      var tail := shots[1..];
      ShotNumberedSpec(tail, target);
      forall i: nat | FirstNumbered(shots, target, i)
        ensures ShotNumbered(shots, target) == Some(shots[i])
      {
        if i > 0 {
          assert FirstNumbered(tail, target, i - 1) by {
            forall k | 0 <= k < i - 1
              ensures ShotNumber(tail[k]).Some? && ShotNumber(tail[k]) != Some(target)
            {
              assert tail[k] == shots[k + 1];
            }
          }
        }
      }
      if Numbered(shots) {
        assert Numbered(tail) by {
          forall k | 0 <= k < |tail|
            ensures ShotNumber(tail[k]).Some?
          {
            assert tail[k] == shots[k + 1];
          }
        }
        if ShotNumber(shots[0]) != Some(target) {
          if forall k :: 0 <= k < |tail| ==> ShotNumber(tail[k]) != Some(target) {
            forall k | 0 <= k < |shots|
              ensures ShotNumber(shots[k]) != Some(target)
            {
              if k > 0 {
                assert shots[k] == tail[k - 1];
              }
            }
          } else {
            var k :| 0 <= k < |tail| && ShotNumber(tail[k]) == Some(target);
            assert shots[k + 1] == tail[k];
          }
        }
      }
    }
  }

  /** A shot stops the search with None when its number cannot be read and no shot
      before it has the number, even if a later one does. */
  lemma {:induction false} UnreadableNumberStops(shots: seq<Record>, target: int, i: nat)
    requires i < |shots| && ShotNumber(shots[i]).None?
    requires forall k :: 0 <= k < i ==> ShotNumber(shots[k]) != Some(target)
    ensures ShotNumbered(shots, target).None?
  {
    if i > 0 && ShotNumber(shots[0]).Some? {
      UnreadableNumberStops(shots[1..], target, i - 1);
    }
  }

  /** Asked for the shot before the one numbered `n + 1` (as a string, as the
      front end sends it), the store answers with the first shot numbered `n`. */
  lemma PreviousOfNext(shots: seq<Record>, n: int, i: nat)
    requires FirstNumbered(shots, n, i)
    ensures GetPreviousShot(shots, JStr(IntToString(n + 1))) == Some(shots[i])
  {
    IntToStringRoundTrip(n + 1, "", "");
    assert "" + IntToString(n + 1) + "" == IntToString(n + 1);
    ShotNumberedSpec(shots, n);
  }

  /* ---------- reordering ---------- */

  /** No later shot has the id of `shots[i]`. */
  predicate LastOfId(shots: seq<Record>, i: nat)
    requires AllIds(shots) && i < |shots|
  {
    forall j :: i < j < |shots| ==> shots[j]["id"] != shots[i]["id"]
  }

  /** `{s['id']: s for s in shots}`: a later shot with the same id wins. */
  function ShotMap(shots: seq<Record>): (m: map<Json, Record>)
    requires AllIds(shots)
    ensures forall k :: k in m ==> m[k] in shots && "id" in m[k] && m[k]["id"] == k
    ensures forall i :: 0 <= i < |shots| ==> shots[i]["id"] in m
  {
    if |shots| == 0 then map[]
    else
      var init := shots[..|shots| - 1];
      var last := shots[|shots| - 1];
      var m := ShotMap(init)[last["id"] := last];
      assert forall i :: 0 <= i < |init| ==> init[i] == shots[i];
      m
  }

  /** The map holds, for each id, the last shot that carries it. */
  lemma {:induction false} ShotMapLastWins(shots: seq<Record>, i: nat)
    requires AllIds(shots) && i < |shots| && LastOfId(shots, i)
    ensures ShotMap(shots)[shots[i]["id"]] == shots[i]
  {
    var init := shots[..|shots| - 1];
    var last := shots[|shots| - 1];
    if i < |shots| - 1 {
      assert init[i] == shots[i];
      assert LastOfId(init, i) by {
        forall j | i < j < |init|
          ensures init[j]["id"] != init[i]["id"]
        {
          assert init[j] == shots[j];
        }
      }
      ShotMapLastWins(init, i);
      assert shots[i]["id"] != last["id"];
    }
  }

  /** `[shot_map[sid] for sid in ordered_ids if sid in shot_map]`. */
  function Named(ordered: seq<Json>, m: map<Json, Record>): seq<Record>
  {
    if |ordered| == 0 then []
    else (if ordered[0] in m then [m[ordered[0]]] else []) + Named(ordered[1..], m)
  }

  /** `x` is the shot the map holds for the `j`-th requested id. */
  predicate PickedAt(ordered: seq<Json>, m: map<Json, Record>, x: Record, j: nat)
  {
    j < |ordered| && ordered[j] in m && x == m[ordered[j]]
  }

  /** Every named shot is the map's shot for some requested id. */
  lemma {:induction false} NamedPicked(ordered: seq<Json>, m: map<Json, Record>, x: Record)
    requires x in Named(ordered, m)
    ensures exists j: nat :: PickedAt(ordered, m, x, j)
  {
    if !(ordered[0] in m && x == m[ordered[0]]) {
      NamedPicked(ordered[1..], m, x);
      var j: nat :| PickedAt(ordered[1..], m, x, j);
      assert PickedAt(ordered, m, x, j + 1);
    } else {
      assert PickedAt(ordered, m, x, 0);
    }
  }

  /** `reorder_shots`: the shots named in `ordered`, in that order, then every other
      shot in its old order. The first `n` shots are the requested ones, so their
      positions follow the positions of their ids in `ordered` when it has no
      repeats; the last ones are exactly the unrequested shots, as `RemoveIds`
      leaves them. */
  function ReorderShots(shots: seq<Record>, ordered: seq<Json>): (r: seq<Record>)
    requires AllIds(shots)
    ensures AllIds(r)
    ensures forall k :: 0 <= k < |r| ==> r[k] in shots
    ensures |RemoveIds(shots, ordered)| <= |r|
    ensures r[|r| - |RemoveIds(shots, ordered)|..] == RemoveIds(shots, ordered)
    ensures forall k :: 0 <= k < |r| - |RemoveIds(shots, ordered)| ==> r[k]["id"] in ordered
    ensures NoDup(ordered) ==> forall k1, k2 :: 0 <= k1 < k2 < |r| - |RemoveIds(shots, ordered)| ==>
      FirstPos(ordered, r[k1]["id"]) < FirstPos(ordered, r[k2]["id"])
  {
    var m := ShotMap(shots);
    var named := Named(ordered, m);
    var rest := RemoveIds(shots, ordered);
    NamedFromShots(ordered, m, shots);
    AppendFromShots(shots, named, rest);
    NamedInOrder(ordered, m);
    var r := named + rest;
    assert r[|named|..] == rest;
    assert forall k :: 0 <= k < |named| ==> r[k] == named[k];
    r
  }

  /** Index of the first `x` in `s`, or `|s|` when there is none. */
  function FirstPos(s: seq<Json>, x: Json): (i: nat)
    ensures i <= |s|
    ensures i < |s| ==> s[i] == x
    ensures forall j :: 0 <= j < i ==> s[j] != x
    ensures x in s ==> i < |s|
  {
    if |s| == 0 then 0
    else if s[0] == x then 0
    else
      var i := 1 + FirstPos(s[1..], x);
      assert forall j :: 1 <= j < |s| ==> s[j] == s[1..][j - 1];
      i
  }

  /** The named shots carry requested ids, and without repeats in `ordered` they
      come in the order of those ids. */
  lemma NamedInOrder(ordered: seq<Json>, m: map<Json, Record>)
    requires forall k :: k in m ==> "id" in m[k] && m[k]["id"] == k
    ensures forall k :: 0 <= k < |Named(ordered, m)| ==>
      "id" in Named(ordered, m)[k] && Named(ordered, m)[k]["id"] in ordered
    ensures NoDup(ordered) ==> forall k1, k2 :: 0 <= k1 < k2 < |Named(ordered, m)| ==>
      FirstPos(ordered, Named(ordered, m)[k1]["id"]) < FirstPos(ordered, Named(ordered, m)[k2]["id"])
  {
    var named, present := Named(ordered, m), Present(ordered, m);
    NamedArePresent(ordered, m);
    assert forall k :: 0 <= k < |named| ==> named[k]["id"] == present[k];
    if NoDup(ordered) {
      PresentInOrder(ordered, m);
    }
  }

  /** `[x for x in ordered if x in m]`: the requested ids the map holds. */
  function Present(ordered: seq<Json>, m: map<Json, Record>): (r: seq<Json>)
    ensures forall k :: 0 <= k < |r| ==> r[k] in ordered && r[k] in m
  {
    if |ordered| == 0 then []
    else (if ordered[0] in m then [ordered[0]] else []) + Present(ordered[1..], m)
  }

  /** The ids come in the order of their first positions in `ordered`. */
  predicate InOrderOf(ordered: seq<Json>, ids: seq<Json>)
  {
    forall k1, k2 :: 0 <= k1 < k2 < |ids| ==> FirstPos(ordered, ids[k1]) < FirstPos(ordered, ids[k2])
  }

  /** The named shots are the map's shots for the present ids, one for one. */
  lemma {:induction false} NamedArePresent(ordered: seq<Json>, m: map<Json, Record>)
    ensures |Named(ordered, m)| == |Present(ordered, m)|
    ensures forall k :: 0 <= k < |Present(ordered, m)| ==> Named(ordered, m)[k] == m[Present(ordered, m)[k]]
  {
    if |ordered| > 0 {
      var tail := ordered[1..];
      NamedArePresent(tail, m);
      var named, present := Named(tail, m), Present(tail, m);
      if ordered[0] in m {
        assert Named(ordered, m) == [m[ordered[0]]] + named;
        assert Present(ordered, m) == [ordered[0]] + present;
      } else {
        assert Named(ordered, m) == named;
        assert Present(ordered, m) == present;
      }
    }
  }

  /** Filtering a list without repeats keeps its order. */
  lemma {:induction false} PresentInOrder(ordered: seq<Json>, m: map<Json, Record>)
    requires NoDup(ordered)
    ensures InOrderOf(ordered, Present(ordered, m))
  {
    if |ordered| > 0 {
      var tail := ordered[1..];
      NoDupTail(ordered);
      PresentInOrder(tail, m);
      var rest := Present(tail, m);
      var head: seq<Json> := if ordered[0] in m then [ordered[0]] else [];
      assert Present(ordered, m) == head + rest;
      ShiftAll(ordered, rest);
      ConsInOrder(ordered, head, rest);
    }
  }

  /** Every element of a list drawn from the tail sits one place further on in
      the whole. */
  lemma ShiftAll(ordered: seq<Json>, rest: seq<Json>)
    requires |ordered| > 0 && NoDup(ordered)
    requires forall k :: 0 <= k < |rest| ==> rest[k] in ordered[1..]
    ensures forall k :: 0 <= k < |rest| ==> FirstPos(ordered, rest[k]) == 1 + FirstPos(ordered[1..], rest[k])
  {
    forall k | 0 <= k < |rest|
      ensures FirstPos(ordered, rest[k]) == 1 + FirstPos(ordered[1..], rest[k])
    {
      FirstPosShift(ordered, rest[k]);
    }
  }

  /** Putting the head of `ordered` (or nothing) before a list in the tail's order
      gives a list in the order of `ordered`. */
  lemma ConsInOrder(ordered: seq<Json>, head: seq<Json>, rest: seq<Json>)
    requires |ordered| > 0 && (head == [] || head == [ordered[0]])
    requires InOrderOf(ordered[1..], rest)
    requires forall k :: 0 <= k < |rest| ==> FirstPos(ordered, rest[k]) == 1 + FirstPos(ordered[1..], rest[k])
    ensures InOrderOf(ordered, head + rest)
  {
    ShiftInOrder(ordered, rest);
    if head != [] {
      HeadInOrder(ordered, rest);
    } else {
      assert head + rest == rest;
    }
  }

  /** A list in the tail's order is in the whole's order once positions shift. */
  lemma ShiftInOrder(ordered: seq<Json>, rest: seq<Json>)
    requires |ordered| > 0
    requires InOrderOf(ordered[1..], rest)
    requires forall k :: 0 <= k < |rest| ==> FirstPos(ordered, rest[k]) == 1 + FirstPos(ordered[1..], rest[k])
    ensures InOrderOf(ordered, rest)
  {
    forall k1, k2 | 0 <= k1 < k2 < |rest|
      ensures FirstPos(ordered, rest[k1]) < FirstPos(ordered, rest[k2])
    {
      assert FirstPos(ordered[1..], rest[k1]) < FirstPos(ordered[1..], rest[k2]);
    }
  }

  /** The first element of `ordered` can go before a list ordered by the tail. */
  lemma HeadInOrder(ordered: seq<Json>, rest: seq<Json>)
    requires |ordered| > 0 && InOrderOf(ordered, rest)
    requires forall k :: 0 <= k < |rest| ==> FirstPos(ordered, rest[k]) == 1 + FirstPos(ordered[1..], rest[k])
    ensures InOrderOf(ordered, [ordered[0]] + rest)
  {
    var present := [ordered[0]] + rest;
    assert FirstPos(ordered, ordered[0]) == 0;
    forall k1, k2 | 0 <= k1 < k2 < |present|
      ensures FirstPos(ordered, present[k1]) < FirstPos(ordered, present[k2])
    {
      var b := rest[k2 - 1];
      assert present[k2] == b;
      assert FirstPos(ordered, b) == 1 + FirstPos(ordered[1..], b);
      if k1 == 0 {
        assert present[k1] == ordered[0];
      } else {
        var a := rest[k1 - 1];
        assert present[k1] == a;
        assert FirstPos(ordered, a) < FirstPos(ordered, b);
      }
    }
  }

  lemma NoDupTail<T>(s: seq<T>)
    requires |s| > 0 && NoDup(s)
    ensures NoDup(s[1..])
  {
    forall i, j | 0 <= i < j < |s[1..]|
      ensures s[1..][i] != s[1..][j]
    {
      assert s[1..][i] == s[i + 1] && s[1..][j] == s[j + 1];
    }
  }

  /** Past a first element that differs from `x`, positions shift by one. */
  lemma FirstPosShift(s: seq<Json>, x: Json)
    requires |s| > 0 && NoDup(s) && x in s[1..]
    ensures FirstPos(s, x) == 1 + FirstPos(s[1..], x)
  {
    var p := FirstPos(s[1..], x);
    assert s[p + 1] == s[1..][p] == x;
  }

  lemma NamedFromShots(ordered: seq<Json>, m: map<Json, Record>, shots: seq<Record>)
    requires forall k :: k in m ==> m[k] in shots
    ensures forall k :: 0 <= k < |Named(ordered, m)| ==> Named(ordered, m)[k] in shots
  {
    forall k | 0 <= k < |Named(ordered, m)|
      ensures Named(ordered, m)[k] in shots
    {
      NamedPicked(ordered, m, Named(ordered, m)[k]);
    }
  }

  lemma AppendFromShots(shots: seq<Record>, a: seq<Record>, b: seq<Record>)
    requires AllIds(shots)
    requires forall k :: 0 <= k < |a| ==> a[k] in shots
    requires forall k :: 0 <= k < |b| ==> b[k] in shots
    ensures forall k :: 0 <= k < |a + b| ==> (a + b)[k] in shots && "id" in (a + b)[k]
  {
    forall k | 0 <= k < |a + b|
      ensures (a + b)[k] in shots
    {
      if k < |a| {
        assert (a + b)[k] == a[k];
      } else {
        assert (a + b)[k] == b[k - |a|];
      }
    }
  }

  /** Reordering loses no shot: every id of the old list is in the new one, whatever
      `ordered` holds (the `extend` with the unlisted shots is there for this). */
  lemma ReorderKeepsEveryId(shots: seq<Record>, ordered: seq<Json>, i: nat)
    requires AllIds(shots) && i < |shots|
    ensures exists k :: 0 <= k < |ReorderShots(shots, ordered)| && ReorderShots(shots, ordered)[k]["id"] == shots[i]["id"]
  {
    var m := ShotMap(shots);
    var named := Named(ordered, m);
    var rest := RemoveIds(shots, ordered);
    var r := ReorderShots(shots, ordered);
    assert r == named + rest;
    var sid := shots[i]["id"];
    if sid in ordered {
      var j :| 0 <= j < |ordered| && ordered[j] == sid;
      NamedHas(ordered, m, j);
      var k :| 0 <= k < |named| && named[k] == m[sid];
      assert r[k] == named[k];
    } else {
      var k :| 0 <= k < |rest| && rest[k] == shots[i];
      assert r[|named| + k] == rest[k];
    }
  }

  /** The listed shots come first, each named in `ordered`, and the rest after them,
      none named there. */
  lemma ReorderLayout(shots: seq<Record>, ordered: seq<Json>)
    requires AllIds(shots)
    ensures var r := ReorderShots(shots, ordered);
      var n := |Named(ordered, ShotMap(shots))|;
      && n <= |r|
      && (forall k :: 0 <= k < n ==> r[k]["id"] in ordered)
      && (forall k :: n <= k < |r| ==> r[k]["id"] !in ordered)
  {
    var rest := RemoveIds(shots, ordered);
    var r := ReorderShots(shots, ordered);
    assert |r| == |Named(ordered, ShotMap(shots))| + |rest|;
    forall k | |r| - |rest| <= k < |r|
      ensures r[k]["id"] !in ordered
    {
      assert r[k] == r[|r| - |rest|..][k - (|r| - |rest|)] == rest[k - (|r| - |rest|)];
    }
  }

  /** A name listed in `ordered` that the map holds contributes its shot. */
  lemma {:induction false} NamedHas(ordered: seq<Json>, m: map<Json, Record>, j: nat)
    requires j < |ordered| && ordered[j] in m
    ensures m[ordered[j]] in Named(ordered, m)
  {
    if j > 0 {
      NamedHas(ordered[1..], m, j - 1);
      assert ordered[1..][j - 1] == ordered[j];
    }
  }

  /** Records of the list are told apart by their ids. */
  predicate DistinctIds(list: seq<Record>)
    requires AllIds(list)
  {
    forall i, j :: 0 <= i < j < |list| ==> list[i]["id"] != list[j]["id"]
  }

  ghost predicate NoDup<T>(s: seq<T>)
  {
    forall i, j :: 0 <= i < j < |s| ==> s[i] != s[j]
  }

  /** When ids and the requested order have no duplicates, reordering is a
      permutation: no shot is lost and none is doubled. */
  lemma ReorderPermutes(shots: seq<Record>, ordered: seq<Json>)
    requires AllIds(shots) && DistinctIds(shots) && NoDup(ordered)
    ensures multiset(ReorderShots(shots, ordered)) == multiset(shots)
  {
    var m := ShotMap(shots);
    var named := Named(ordered, m);
    var kept := KeepIds(shots, ordered);
    RemoveIdsCounts(shots, ordered);
    NamedNoDup(ordered, m);
    KeepIdsNoDup(shots, ordered);
    NamedAreKept(shots, ordered);
    SameSetSameMultiset(named, kept);
    assert ReorderShots(shots, ordered) == named + RemoveIds(shots, ordered);
  }

  /** With distinct ids the named shots are exactly the shots whose id is listed. */
  lemma NamedAreKept(shots: seq<Record>, ordered: seq<Json>)
    requires AllIds(shots) && DistinctIds(shots)
    ensures forall x :: x in Named(ordered, ShotMap(shots)) <==> x in KeepIds(shots, ordered)
  {
    var m := ShotMap(shots);
    var named := Named(ordered, m);
    var kept := KeepIds(shots, ordered);
    forall x | x in named
      ensures x in kept
    {
      NamedPicked(ordered, m, x);
      var j: nat :| PickedAt(ordered, m, x, j);
      var i :| 0 <= i < |shots| && shots[i] == x;
    }
    forall x | x in kept
      ensures x in named
    {
      var k :| 0 <= k < |kept| && kept[k] == x;
      var i :| 0 <= i < |shots| && shots[i] == x;
      var sid := x["id"];
      var j :| 0 <= j < |ordered| && ordered[j] == sid;
      var i' :| 0 <= i' < |shots| && shots[i'] == m[sid];
      assert i' == i;
      NamedHas(ordered, m, j);
    }
  }

  /** The named shots are told apart by the distinct names that picked them. */
  lemma {:induction false} NamedNoDup(ordered: seq<Json>, m: map<Json, Record>)
    requires NoDup(ordered)
    requires forall k :: k in m ==> "id" in m[k] && m[k]["id"] == k
    ensures NoDup(Named(ordered, m))
    ensures forall x :: x in Named(ordered, m) ==> "id" in x && x["id"] in ordered
  {
    if |ordered| > 0 {
      var tail := ordered[1..];
      assert NoDup(tail) by {
        forall i, j | 0 <= i < j < |tail|
          ensures tail[i] != tail[j]
        {
          assert tail[i] == ordered[i + 1] && tail[j] == ordered[j + 1];
        }
      }
      NamedNoDup(tail, m);
      var rest := Named(tail, m);
      if ordered[0] in m {
        var x := m[ordered[0]];
        forall k | 0 <= k < |rest|
          ensures rest[k] != x
        {
          var j :| 0 <= j < |tail| && tail[j] == rest[k]["id"];
          assert tail[j] == ordered[j + 1];
        }
      }
      forall x | x in Named(ordered, m)
        ensures "id" in x && x["id"] in ordered
      {
        if x !in rest {
          assert x == m[ordered[0]];
        } else {
          var j :| 0 <= j < |tail| && tail[j] == x["id"];
          assert tail[j] == ordered[j + 1];
        }
      }
    }
  }

  /** Filtering a list whose ids are distinct gives records that are all different. */
  lemma {:induction false} KeepIdsNoDup(list: seq<Record>, ids: seq<Json>)
    requires AllIds(list) && DistinctIds(list)
    ensures NoDup(KeepIds(list, ids))
  {
    if |list| > 0 {
      var tail := list[1..];
      assert AllIds(tail) && DistinctIds(tail) by {
        forall i, j | 0 <= i < j < |tail|
          ensures tail[i]["id"] != tail[j]["id"]
        {
          assert tail[i] == list[i + 1] && tail[j] == list[j + 1];
        }
      }
      KeepIdsNoDup(tail, ids);
      var rest := KeepIds(tail, ids);
      forall k | 0 <= k < |rest|
        ensures rest[k] != list[0]
      {
        var i :| 0 <= i < |tail| && tail[i] == rest[k];
        assert tail[i] == list[i + 1];
      }
    }
  }

  /** Two duplicate-free sequences with the same elements hold them equally often. */
  lemma SameSetSameMultiset<T>(a: seq<T>, b: seq<T>)
    requires NoDup(a) && NoDup(b)
    requires forall x :: x in a <==> x in b
    ensures multiset(a) == multiset(b)
  {
    NoDupCount(a);
    NoDupCount(b);
    assert forall x :: multiset(a)[x] == multiset(b)[x];
  }

  /** In a duplicate-free sequence every element occurs once. */
  lemma {:induction false} NoDupCount<T>(a: seq<T>)
    requires NoDup(a)
    ensures forall x :: multiset(a)[x] == if x in a then 1 else 0
  {
    if |a| > 0 {
      var tail := a[1..];
      assert NoDup(tail) by {
        forall i, j | 0 <= i < j < |tail|
          ensures tail[i] != tail[j]
        {
          assert tail[i] == a[i + 1] && tail[j] == a[j + 1];
        }
      }
      NoDupCount(tail);
      assert a == [a[0]] + tail;
      assert a[0] !in tail by {
        forall k | 0 <= k < |tail|
          ensures tail[k] != a[0]
        {
          assert tail[k] == a[k + 1];
        }
      }
    }
  }

  /* ---------- characters ---------- */

  /** `create_character`: a new record with a fresh id, appended. */
  function CreateCharacter(chars: seq<Record>, data: Record, uuid: string, now: string): (r: Created)
    requires AllIds(chars)
    ensures r.list == chars + [r.record] && AllIds(r.list)
    ensures r.record.Keys == {"id", "name", "description", "image_url", "created_time"}
    ensures r.record["id"] == JStr(uuid) && r.record["created_time"] == JStr(now)
    ensures r.record["name"] == Get(data, "name") && r.record["description"] == Get(data, "description")
    ensures r.record["image_url"] == (if "image_url" in data then data["image_url"] else JStr(""))
  {
    var rec := map[
      "id" := JStr(uuid),
      "name" := Get(data, "name"),
      "description" := Get(data, "description"),
      "image_url" := GetOr(data, "image_url", JStr("")),
      "created_time" := JStr(now)];
    Created(chars + [rec], rec)
  }

  /** A character created under an id no stored character has is the one a later
      update of that id merges into, at the end of the list. */
  lemma CreatedCharacterUpdatable(chars: seq<Record>, data: Record, uuid: string, now: string, patch: Record)
    requires AllIds(chars) && forall k :: 0 <= k < |chars| ==> !HasId(chars[k], uuid)
    ensures var c := CreateCharacter(chars, data, uuid, now);
      var u := UpdateCharacter(c.list, uuid, patch);
      && u.record == Some(Merge(c.record, patch))
      && u.list == chars + [Merge(c.record, patch)]
  {
    var c := CreateCharacter(chars, data, uuid, now);
    var u := UpdateCharacter(c.list, uuid, patch);
    assert HasId(c.list[|chars|], uuid);
    var i: nat :| FirstIndex(c.list, uuid, i) && u.record.value == Merge(c.list[i], patch) && u.list == c.list[i := u.record.value];
    assert i == |chars|;
  }

  /** `update_character`: the first character with the id is merged with `data`, with
      no stamp and no protection of its id. */
  function UpdateCharacter(chars: seq<Record>, id: string, data: Record): (r: Updated)
    requires AllIds(chars)
    ensures AllIds(r.list) && |r.list| == |chars|
    ensures r.record.None? <==> forall k :: 0 <= k < |chars| ==> !HasId(chars[k], id)
    ensures r.record.None? ==> r.list == chars
    ensures r.record.Some? ==> exists i: nat ::
      (FirstIndex(chars, id, i) && r.record.value == Merge(chars[i], data) && r.list == chars[i := r.record.value])
  {
    match FindById(chars, id)
    case None => Updated(chars, None)
    case Some(i) =>
      var rec := Merge(chars[i], data);
      assert FirstIndex(chars, id, i);
      Updated(chars[i := rec], Some(rec))
  }

  /* ---------- fusion tasks ---------- */

  /** The keys `create_fusion` sets before building the record. */
  const FusionStamped := {"id", "created_time", "updated_time"}

  /** `create_fusion`: `data` gets a fresh id and two stamps from two readings of the
      clock, is built into a `FusionTask`, and inserted at `insert_index` when that is
      a usable int. Both stamps are set, so no default factory reads the clock again;
      `Reads(updated)` stands for it. */
  function CreateFusion(fusions: seq<Record>, data: Record, uuid: string, created: string, updated: string): (r: Result<Created, string>)
    requires AllIds(fusions)
    ensures r.Failure? <==> "scene" !in data || "shot_number" !in data
    ensures r.Success? ==>
      && r.value.list == InsertAt(fusions, InsertPosition(fusions, Get(data, "insert_index")), r.value.record)
      && AllIds(r.value.list)
      && r.value.record.Keys == Names(FusionSchema)
      && "id" in r.value.record && "created_time" in r.value.record && "updated_time" in r.value.record
      && r.value.record["id"] == JStr(uuid)
      && r.value.record["created_time"] == JStr(created) && r.value.record["updated_time"] == JStr(updated)
    ensures r.Success? ==> forall k :: k in data && k in Names(FusionSchema) && k !in FusionStamped ==>
      r.value.record[k] == data[k]
    ensures r.Success? ==> forall k :: k in Names(FusionSchema) && k !in data && k !in FusionStamped ==>
      r.value.record[k] == DefaultOf(FusionSchema, k, uuid, Reads(updated))
  {
    var d := data["id" := JStr(uuid)]["created_time" := JStr(created)]["updated_time" := JStr(updated)];
    FusionFields(d);
    match FromDict(FusionSchema, d, uuid, Reads(updated))
    case Failure(e) => Failure(e)
    case Success(rec) =>
      assert rec["id"] == d["id"] && rec["created_time"] == d["created_time"] && rec["updated_time"] == d["updated_time"];
      var p := InsertPosition(fusions, Get(d, "insert_index"));
      assert Get(d, "insert_index") == Get(data, "insert_index");
      InsertKeepsIds(fusions, p, rec);
      Success(Created(InsertAt(fusions, p, rec), rec))
  }

  /** A fusion created under an id no stored fusion has is the one `get_fusion` finds
      by that id, wherever it was inserted. */
  lemma CreatedFusionIsFound(fusions: seq<Record>, data: Record, uuid: string, created: string, updated: string)
    requires AllIds(fusions) && CreateFusion(fusions, data, uuid, created, updated).Success?
    requires forall k :: 0 <= k < |fusions| ==> !HasId(fusions[k], uuid)
    ensures var c := CreateFusion(fusions, data, uuid, created, updated).value;
      GetById(c.list, uuid) == Some(c.record)
  {
    var c := CreateFusion(fusions, data, uuid, created, updated).value;
    GetInserted(fusions, InsertPosition(fusions, Get(data, "insert_index")), c.record, uuid);
  }
}

=== FILE: settings.dfy ===
/** The provider settings of `main.py`: looking a provider up, picking the Aliyun key,
    listing providers with their keys masked, saving (insert or replace) and deleting
    a provider. `settings.json` is outside the model: every operation takes the
    provider list it read and returns the list it writes; `uuid4()` is a parameter. */
module Settings {
  import opened Wrappers
  import opened Json
  import opened Strings
  import Records

  /* ---------- lookups ---------- */

  /** `get_provider_config`: the first provider whose `id` equals the one asked for. */
  function FindProvider(providers: seq<Record>, providerId: Json): (r: Option<Record>)
    ensures r.Some? ==> r.value in providers && Get(r.value, "id") == providerId
    ensures r.None? <==> forall i :: 0 <= i < |providers| ==> Get(providers[i], "id") != providerId
    ensures r.Some? ==>
      exists i :: 0 <= i < |providers| && providers[i] == r.value
        && forall j :: 0 <= j < i ==> Get(providers[j], "id") != providerId
  {
    if |providers| == 0 then None
    else if Get(providers[0], "id") == providerId then Some(providers[0])
    else
      var r := FindProvider(providers[1..], providerId);
      assert r.Some? ==>
        exists i :: 0 <= i < |providers| && providers[i] == r.value
          && forall j :: 0 <= j < i ==> Get(providers[j], "id") != providerId by {
        if r.Some? {
          var i :| 0 <= i < |providers[1..]| && providers[1..][i] == r.value
            && forall j :: 0 <= j < i ==> Get(providers[1..][j], "id") != providerId;
          assert providers[i + 1] == r.value;
          assert forall j :: 1 <= j < i + 1 ==> providers[j] == providers[1..][j - 1];
        }
      }
      r
  }

  /** The lookup `data_manager.py` does is the same search, with `{'type': 'mock'}`
      in place of None. */
  lemma ProviderConfigAgrees(providers: seq<Record>, providerId: Json)
    ensures Records.ProviderConfig(providers, providerId)
         == match FindProvider(providers, providerId)
            case Some(p) => p
            case None => map["type" := JStr("mock")]
  {
    if |providers| > 0 && Get(providers[0], "id") != providerId {
      ProviderConfigAgrees(providers[1..], providerId);
    }
  }

  /** An enabled Aliyun provider. */
  predicate EnabledAliyun(p: Record)
  {
    Get(p, "type") == JStr("aliyun") && Truthy(Get(p, "enabled"))
  }

  /** The loop over providers for the first enabled Aliyun one. */
  function FirstEnabledAliyun(providers: seq<Record>): (r: Option<Record>)
    ensures r.Some? ==> r.value in providers && EnabledAliyun(r.value)
    ensures r.None? <==> forall i :: 0 <= i < |providers| ==> !EnabledAliyun(providers[i])
    ensures r.Some? ==>
      exists i :: 0 <= i < |providers| && providers[i] == r.value
        && forall j :: 0 <= j < i ==> !EnabledAliyun(providers[j])
  {
    if |providers| == 0 then None
    else if EnabledAliyun(providers[0]) then Some(providers[0])
    else
      var r := FirstEnabledAliyun(providers[1..]);
      assert r.Some? ==>
        exists i :: 0 <= i < |providers| && providers[i] == r.value
          && forall j :: 0 <= j < i ==> !EnabledAliyun(providers[j]) by {
        if r.Some? {
          var i :| 0 <= i < |providers[1..]| && providers[1..][i] == r.value
            && forall j :: 0 <= j < i ==> !EnabledAliyun(providers[1..][j]);
          assert providers[i + 1] == r.value;
          assert forall j :: 1 <= j < i + 1 ==> providers[j] == providers[1..][j - 1];
        }
      }
      r
  }

  /** `get_aliyun_api_key`: the key of the named provider when one is named and
      found, else the key of the first enabled Aliyun provider, else `None`. */
  function AliyunKey(providers: seq<Record>, providerId: Json): (r: Json)
    ensures Truthy(providerId) && FindProvider(providers, providerId).Some? && |FindProvider(providers, providerId).value| > 0
      ==> r == Get(FindProvider(providers, providerId).value, "api_key")
    ensures !(Truthy(providerId) && FindProvider(providers, providerId).Some? && |FindProvider(providers, providerId).value| > 0)
      ==> r == match FirstEnabledAliyun(providers)
              case Some(p) => Get(p, "api_key")
              case None => JNull
  {
    var named := if Truthy(providerId) then FindProvider(providers, providerId) else None;
    if named.Some? && |named.value| > 0 then Get(named.value, "api_key")
    else match FirstEnabledAliyun(providers)
      case Some(p) => Get(p, "api_key")
      case None => JNull
  }

  /** A named provider that exists is never empty, so its key is the answer even
      when it is disabled or not an Aliyun provider. */
  lemma NamedProviderWins(providers: seq<Record>, id: string, i: nat)
    requires i < |providers| && Get(providers[i], "id") == JStr(id) && |id| > 0
    ensures AliyunKey(providers, JStr(id)) == Get(FindProvider(providers, JStr(id)).value, "api_key")
  {
    var p := FindProvider(providers, JStr(id)).value;
    assert "id" in p;
  }

  /* ---------- the settings listing ---------- */

  /** The marker that replaces the hidden part of a key. */
  const Mask := "******"

  /** `key[:6] + '******'` for a truthy string key; other values are shown as they
      are, except that a truthy non-string key cannot be sliced and concatenated. */
  function MaskKey(key: Json): (r: Result<Json, string>)
    ensures !Truthy(key) ==> r == Success(key)
    ensures key.JStr? && Truthy(key) ==> (r.Success? && r.value.JStr?
      && StartsWith(r.value.s, Take(key.s, 6)) && EndsWith(r.value.s, Mask) && |r.value.s| <= 12)
    ensures r.Failure? <==> Truthy(key) && !key.JStr?
  {
    if !Truthy(key) then Success(key)
    else if key.JStr? then Success(JStr(Take(key.s, 6) + Mask))
    else Failure("TypeError: key cannot be masked")
  }

  /** A masked key always contains the marker, so sending it back is recognised as
      "unchanged". */
  lemma MaskedKeyHasMarker(key: string)
    requires |key| > 0
    ensures MaskKey(JStr(key)) == Success(JStr(Take(key, 6) + Mask))
    ensures Contains(Take(key, 6) + Mask, Mask)
  {
    var s := Take(key, 6) + Mask;
    assert s[|Take(key, 6)|..] == Mask;
    ContainsAt(s, Mask, |Take(key, 6)|);
  }

  /** `'type' in m` for one entry of `models`: a key test on a dictionary, a
      substring test on a string, an element test on a list; None where `in` raises
      TypeError, on None, a bool or a number. */
  function TypeIn(m: Json): Option<bool>
  {
    match m
    case JObj(fields) => Some("type" in fields)
    case JStr(s) => Some(Contains(s, "type"))
    case JArr(items) => Some(JStr("type") in items)
    case _ => None
  }

  /** One turn of the loop: `if 'type' not in m: m['type'] = 'image'`. A dictionary
      without the key gains it; a string or list without `'type'` cannot take the
      assignment and raises TypeError. */
  function TypedModel(m: Json): (r: Result<Json, string>)
    ensures r.Success? ==> TypeIn(r.value) == Some(true)
    ensures TypeIn(m) == Some(true) ==> r == Success(m)
    ensures r.Failure? <==> TypeIn(m).None? || (TypeIn(m) == Some(false) && !m.JObj?)
    ensures m.JObj? ==> r.Success? && r.value.JObj?
    ensures m.JObj? && r.Success? && r.value.JObj? ==>
      r.value.fields == (if "type" in m.fields then m.fields else m.fields["type" := JStr("image")])
  {
    match TypeIn(m)
    case None => Failure("TypeError: argument of type is not iterable")
    case Some(true) => Success(m)
    case Some(false) =>
      if m.JObj? then Success(JObj(m.fields["type" := JStr("image")]))
      else Failure("TypeError: object does not support item assignment")
  }

  /** The loop over a list of models: every entry typed, in order; it raises at the
      first entry that cannot be typed. */
  function DefaultModelTypes(models: seq<Json>): (r: Result<seq<Json>, string>)
    ensures r.Success? ==> |r.value| == |models|
    ensures r.Success? ==> forall k :: 0 <= k < |models| ==> TypedModel(models[k]) == Success(r.value[k])
    ensures r.Failure? <==> exists k :: 0 <= k < |models| && TypedModel(models[k]).Failure?
  {
    if |models| == 0 then Success([])
    else match TypedModel(models[0])
      case Failure(e) => Failure(e)
      case Success(m) =>
        match DefaultModelTypes(models[1..])
        case Failure(e) =>
          var k :| 0 <= k < |models[1..]| && TypedModel(models[1..][k]).Failure?;
          assert models[k + 1] == models[1..][k];
          Failure(e)
        case Success(rest) =>
          var r := [m] + rest;
          assert forall k :: 0 < k < |models| ==> models[k] == models[1..][k - 1] && r[k] == rest[k - 1];
          Success(r)
  }

  /** A one-character string never contains `'type'`. */
  lemma CharLacksType(c: char)
    ensures !Contains([c], "type")
  {
    assert [c][1..] == [];
  }

  /** `for m in models: ...` over whatever `models` holds: a list's entries, a
      dictionary's keys or a string's characters go through the same test, and
      anything else is not iterable. Keys and characters are strings, so they pass
      only when they already contain `'type'`, and `models` is then unchanged. */
  function TypedModels(models: Json): (r: Result<Json, string>)
    ensures models.JArr? ==> (r.Success? <==> DefaultModelTypes(models.items).Success?)
    ensures models.JArr? && r.Success? ==> r == Success(JArr(DefaultModelTypes(models.items).value))
    ensures models.JObj? ==> (r.Success? <==> forall k :: k in models.fields ==> TypedModel(JStr(k)).Success?)
    ensures models.JStr? ==> (r.Success? <==> forall i :: 0 <= i < |models.s| ==> TypedModel(JStr([models.s[i]])).Success?)
    ensures !models.JArr? && r.Success? ==> r.value == models
    ensures models.JNull? || models.JBool? || models.JInt? ==> r.Failure?
  {
    match models
    case JArr(items) =>
      (match DefaultModelTypes(items)
       case Failure(e) => Failure(e)
       case Success(typed) => Success(JArr(typed)))
    case JObj(fields) =>
      if forall k :: k in fields ==> Contains(k, "type") then Success(models)
      else Failure("TypeError: 'str' object does not support item assignment")
    case JStr(s) =>
      if |s| == 0 then Success(models)
      else
        CharLacksType(s[0]);
        assert TypedModel(JStr([s[0]])).Failure?;
        Failure("TypeError: 'str' object does not support item assignment")
    case _ => Failure("TypeError: object is not iterable")
  }

  /** Typing the models again changes nothing: a listing is its own fixed point. */
  lemma {:induction false} TypedModelsIdempotent(models: Json)
    requires TypedModels(models).Success?
    ensures TypedModels(TypedModels(models).value) == TypedModels(models)
  {
    if models.JArr? {
      var typed := DefaultModelTypes(models.items).value;
      assert forall k :: 0 <= k < |typed| ==> TypedModel(typed[k]) == Success(typed[k]);
      TypedListAgain(typed);
    }
  }

  /** A list whose every entry is already typed is typed to itself. */
  lemma {:induction false} TypedListAgain(items: seq<Json>)
    requires forall k :: 0 <= k < |items| ==> TypedModel(items[k]) == Success(items[k])
    ensures DefaultModelTypes(items) == Success(items)
  {
    if |items| > 0 {
      assert forall k :: 0 <= k < |items[1..]| ==> items[1..][k] == items[k + 1];
      TypedListAgain(items[1..]);
      assert items == [items[0]] + items[1..];
    }
  }

  /** One entry of `get_settings`: the provider with its key masked, `models`
      defaulting to `[]`, and every model given a type. */
  function ListedProvider(p: Record): (r: Result<Record, string>)
    ensures r.Success? ==> r.value.Keys == p.Keys + {"models"}
    ensures r.Success? ==> forall k :: k in p && k !in {"api_key", "models"} ==> r.value[k] == p[k]
    ensures r.Success? && "api_key" in p ==> Success(r.value["api_key"]) == MaskKey(p["api_key"])
    ensures r.Success? ==> Success(r.value["models"]) == TypedModels(GetOr(p, "models", JArr([])))
    ensures r.Success? && "models" !in p ==> r.value["models"] == JArr([])
    ensures r.Success? && "models" in p && p["models"].JArr? ==>
      r.value["models"] == JArr(DefaultModelTypes(p["models"].items).value)
    ensures r.Failure? <==> MaskKey(Get(p, "api_key")).Failure? || TypedModels(GetOr(p, "models", JArr([]))).Failure?
  {
    var key := Get(p, "api_key");
    match MaskKey(key)
    case Failure(e) => Failure(e)
    case Success(shown) =>
      var p1 := if Truthy(key) then p["api_key" := shown] else p;
      var models := if "models" in p1 then p1["models"] else JArr([]);
      match TypedModels(models)
      case Failure(e) => Failure(e)
      case Success(typed) => Success(p1["models" := typed])
  }

  /** `get_settings`: every provider listed, in order. */
  function ListProviders(providers: seq<Record>): (r: Result<seq<Record>, string>)
    ensures r.Success? ==> |r.value| == |providers|
    ensures r.Success? ==> forall k :: 0 <= k < |providers| ==> ListedProvider(providers[k]) == Success(r.value[k])
    ensures r.Failure? <==> exists k :: 0 <= k < |providers| && ListedProvider(providers[k]).Failure?
  {
    if |providers| == 0 then Success([])
    else match ListedProvider(providers[0])
      case Failure(e) => Failure(e)
      case Success(first) =>
        match ListProviders(providers[1..])
        case Failure(e) =>
          var k :| 0 <= k < |providers[1..]| && ListedProvider(providers[1..][k]).Failure?;
          assert providers[k + 1] == providers[1..][k];
          Failure(e)
        case Success(rest) =>
          var r := [first] + rest;
          assert forall k :: 0 < k < |providers| ==> providers[k] == providers[1..][k - 1] && r[k] == rest[k - 1];
          Success(r)
  }

  /* ---------- saving and deleting ---------- */

  /** `'******' in input_key`: a substring test for a string, an element test for a
      list; any other value raises TypeError. */
  function IsMasked(inputKey: Json): (r: Result<bool, string>)
    ensures inputKey.JStr? ==> r == Success(Contains(inputKey.s, Mask))
  {
    match inputKey
    case JStr(s) => Success(Contains(s, Mask))
    case JArr(items) => Success(JStr(Mask) in items)
    case JObj(fields) => Success(Mask in fields)
    case _ => Failure("TypeError: argument of type is not iterable")
  }

  /** The record `save_provider` builds from the request, before its key is set. */
  function NewProvider(req: Record, uuid: string): (r: Record)
    ensures r.Keys == {"id", "name", "type", "base_url", "models", "enabled"}
    ensures r["id"] == if Truthy(Get(req, "id")) then req["id"] else JStr(uuid)
    ensures forall k :: k in req && k in {"name", "type", "base_url", "models", "enabled"} ==> r[k] == req[k]
  {
    map[
      "id" := if Truthy(Get(req, "id")) then req["id"] else JStr(uuid),
      "name" := GetOr(req, "name", JStr("New Provider")),
      "type" := GetOr(req, "type", JStr("aliyun")),
      "base_url" := GetOr(req, "base_url", JStr("")),
      "models" := GetOr(req, "models", JArr([])),
      "enabled" := GetOr(req, "enabled", JBool(true))]
  }

  /** The index of the first provider with the id, scanning with `p['id']`, which
      raises KeyError on a provider without an id met before the match. */
  function IndexOfId(providers: seq<Record>, id: Json): (r: Result<Option<nat>, string>)
    ensures r.Success? && r.value.Some? ==> var i := r.value.value;
      && i < |providers| && "id" in providers[i] && providers[i]["id"] == id
      && forall k :: 0 <= k < i ==> "id" in providers[k] && providers[k]["id"] != id
    ensures r.Success? && r.value.None? ==> forall k :: 0 <= k < |providers| ==> "id" in providers[k] && providers[k]["id"] != id
    ensures r.Failure? ==> exists k :: 0 <= k < |providers| && "id" !in providers[k]
  {
    if |providers| == 0 then Success(None)
    else if "id" !in providers[0] then Failure("KeyError: 'id'")
    else if providers[0]["id"] == id then Success(Some(0))
    else match IndexOfId(providers[1..], id)
      case Failure(e) =>
        var k :| 0 <= k < |providers[1..]| && "id" !in providers[1..][k];
        assert providers[k + 1] == providers[1..][k];
        Failure(e)
      case Success(None) =>
        assert forall k :: 1 <= k < |providers| ==> providers[k] == providers[1..][k - 1];
        Success(None)
      case Success(Some(i)) =>
        assert forall k :: 1 <= k <= i + 1 ==> providers[k] == providers[1..][k - 1];
        Success(Some(i + 1))
  }

  /** The scan stops at the first provider with the id when every provider before
      it has an id. */
  lemma {:induction false} IndexOfIdFirst(providers: seq<Record>, id: Json, i: nat)
    requires i < |providers| && "id" in providers[i] && providers[i]["id"] == id
    requires forall k :: 0 <= k < i ==> "id" in providers[k] && providers[k]["id"] != id
    ensures IndexOfId(providers, id) == Success(Some(i))
  {
    if i > 0 {
      IndexOfIdFirst(providers[1..], id, i - 1);
    }
  }

  /** Some provider carries the id. */
  predicate KnownId(providers: seq<Record>, id: Json)
  {
    exists i :: 0 <= i < |providers| && "id" in providers[i] && providers[i]["id"] == id
  }

  /** What `save_provider` writes and the id it answers with. */
  datatype Saved = Saved(providers: seq<Record>, id: Json)

  /** `save_provider`: a request naming a known id replaces that provider in place,
      keeping its stored key when the key sent contains the mask; any other request
      appends a new provider with the key sent. */
  function SaveProvider(providers: seq<Record>, req: Record, uuid: string): (r: Result<Saved, string>)
    ensures r.Success? ==> var made := NewProvider(req, uuid);
      && r.value.id == made["id"]
      && (|r.value.providers| == |providers| || r.value.providers == providers + [made["api_key" := GetOr(req, "api_key", JStr(""))]])
    ensures r.Success? && |r.value.providers| == |providers| ==> exists i: nat :: (i < |providers| && Truthy(Get(req, "id"))
      && "id" in providers[i] && providers[i]["id"] == req["id"]
      && r.value.providers == providers[i := r.value.providers[i]]
      && r.value.providers[i] - {"api_key"} == NewProvider(req, uuid))
    ensures !Truthy(Get(req, "id")) ==>
      r == Success(Saved(providers + [NewProvider(req, uuid)["api_key" := GetOr(req, "api_key", JStr(""))]], JStr(uuid)))
    ensures r.Success? && Truthy(Get(req, "id")) ==>
      (|r.value.providers| == |providers| <==> KnownId(providers, req["id"]))
    ensures Truthy(Get(req, "id")) && IndexOfId(providers, req["id"]) == Success(None) ==>
      r == Success(Saved(providers + [NewProvider(req, uuid)["api_key" := GetOr(req, "api_key", JStr(""))]], req["id"]))
    ensures r.Failure? <==> (Truthy(Get(req, "id"))
      && (IndexOfId(providers, req["id"]).Failure?
        || (IndexOfId(providers, req["id"]).value.Some? && IsMasked(GetOr(req, "api_key", JStr(""))).Failure?)))
  {
    var made := NewProvider(req, uuid);
    var inputKey := GetOr(req, "api_key", JStr(""));
    var appended := Saved(providers + [made["api_key" := inputKey]], made["id"]);
    if !Truthy(Get(req, "id")) then Success(appended)
    else match IndexOfId(providers, req["id"])
      case Failure(e) => Failure(e)
      case Success(None) => Success(appended)
      case Success(Some(i)) =>
        match IsMasked(inputKey)
        case Failure(e) => Failure(e)
        case Success(masked) =>
          var key := if masked then GetOr(providers[i], "api_key", JStr("")) else inputKey;
          var rec := made["api_key" := key];
          assert rec - {"api_key"} == made;
          Success(Saved(providers[i := rec], made["id"]))
  }

  /** A truthy id that no stored provider carries appends one new entry holding the
      request's fields and key, once every stored provider has an id. */
  lemma SaveUnknownAppends(providers: seq<Record>, req: Record, uuid: string)
    requires Records.AllIds(providers) && Truthy(Get(req, "id")) && !KnownId(providers, req["id"])
    ensures var r := SaveProvider(providers, req, uuid);
      && r.Success? && |r.value.providers| == |providers| + 1
      && r.value.providers[..|providers|] == providers
      && r.value.providers[|providers|] - {"api_key"} == NewProvider(req, uuid) - {"api_key"}
      && r.value.providers[|providers|]["api_key"] == GetOr(req, "api_key", JStr(""))
      && r.value.id == req["id"]
  {
    match IndexOfId(providers, req["id"])
    case Failure(_) =>
    case Success(None) =>
    case Success(Some(i)) =>
  }

  /** Sending back the masked key of a stored provider keeps its real key: the
      listing and the save round-trip. */
  lemma MaskedKeyRoundTrip(providers: seq<Record>, i: nat, req: Record, uuid: string)
    requires i < |providers| && "id" in providers[i] && Truthy(providers[i]["id"])
    requires forall k :: 0 <= k < i ==> "id" in providers[k] && providers[k]["id"] != providers[i]["id"]
    requires "api_key" in providers[i] && providers[i]["api_key"].JStr? && |providers[i]["api_key"].s| > 0
    requires "id" in req && req["id"] == providers[i]["id"]
    requires "api_key" in req && Success(req["api_key"]) == MaskKey(providers[i]["api_key"])
    ensures SaveProvider(providers, req, uuid).Success?
    ensures SaveProvider(providers, req, uuid).value.providers[i]["api_key"] == providers[i]["api_key"]
    ensures |SaveProvider(providers, req, uuid).value.providers| == |providers|
  {
    MaskedKeyHasMarker(providers[i]["api_key"].s);
    IndexOfIdFirst(providers, req["id"], i);
  }

  /** A key sent without the mask replaces the stored one. */
  lemma PlainKeyReplaces(providers: seq<Record>, i: nat, req: Record, uuid: string)
    requires i < |providers| && "id" in providers[i] && Truthy(providers[i]["id"])
    requires forall k :: 0 <= k < i ==> "id" in providers[k] && providers[k]["id"] != providers[i]["id"]
    requires "id" in req && req["id"] == providers[i]["id"]
    requires "api_key" in req && req["api_key"].JStr? && !Contains(req["api_key"].s, Mask)
    ensures SaveProvider(providers, req, uuid).Success?
    ensures SaveProvider(providers, req, uuid).value.providers[i]["api_key"] == req["api_key"]
  {
    IndexOfIdFirst(providers, req["id"], i);
  }

  /** What `delete_provider` writes and the status it answers with. */
  datatype Deleted = Deleted(providers: seq<Record>, status: int)

  /** `delete_provider`: every provider with the id goes; the answer is 404 when none
      did. A provider without an `id` makes the filter raise KeyError. */
  function DeleteProvider(providers: seq<Record>, id: string): (r: Result<Deleted, string>)
    ensures r.Failure? <==> !Records.AllIds(providers)
    ensures r.Success? ==> Records.AllIds(r.value.providers)
    ensures r.Success? ==> forall k :: 0 <= k < |r.value.providers| ==> r.value.providers[k]["id"] != JStr(id)
    ensures r.Success? ==> forall k :: 0 <= k < |providers| && providers[k]["id"] != JStr(id) ==> providers[k] in r.value.providers
    ensures r.Success? ==> r.value.status in {200, 404}
    ensures r.Success? ==> (r.value.status == 404 <==> forall k :: 0 <= k < |providers| ==> providers[k]["id"] != JStr(id))
  {
    if !Records.AllIds(providers) then Failure("KeyError: 'id'")
    else
      var kept := Records.RemoveIds(providers, [JStr(id)]);
      Records.RemoveIdsShrinks(providers, [JStr(id)]);
      Success(Deleted(kept, if |kept| < |providers| then 200 else 404))
  }
}

=== FILE: sorting.dfy ===
/** Python's `sorted(xs, key=k)` and `sorted(xs, key=k, reverse=True)` for string keys:
    a stable sort, which with `reverse=True` still keeps records with equal keys in
    their original order. Modelled as an insertion sort with its three properties:
    the output is a permutation of the input, it is ordered, and it is stable. */
module Sorting {
  import opened Strings

  datatype Direction = Ascending | Descending

  /** Key `a` must be placed strictly before key `b` (`reverse=True` is Descending). */
  predicate Before(d: Direction, a: string, b: string)
  {
    match d
    case Ascending => Lt(a, b)
    case Descending => Lt(b, a)
  }

  /** Key `a` may be placed before key `b`. */
  predicate NotAfter(d: Direction, a: string, b: string)
  {
    !Before(d, b, a)
  }

  ghost predicate SortedBy<T>(s: seq<T>, key: T -> string, d: Direction)
  {
    forall i, j :: 0 <= i < j < |s| ==> NotAfter(d, key(s[i]), key(s[j]))
  }

  /** The elements of `s` whose key is `k`, in order. */
  function WithKey<T>(s: seq<T>, key: T -> string, k: string): (r: seq<T>)
    ensures |r| <= |s|
    ensures forall i :: 0 <= i < |r| ==> key(r[i]) == k
  {
    if |s| == 0 then []
    else (if key(s[0]) == k then [s[0]] else []) + WithKey(s[1..], key, k)
  }

  /** Inserts `x` before the first element that must come after it, so after every
      element with an equal key. */
  function Insert<T>(t: seq<T>, x: T, key: T -> string, d: Direction): seq<T>
  {
    if |t| == 0 then [x]
    else if Before(d, key(x), key(t[0])) then [x] + t
    else [t[0]] + Insert(t[1..], x, key, d)
  }

  /** The stable sort of `s`. */
  function Sort<T>(s: seq<T>, key: T -> string, d: Direction): seq<T>
  {
    if |s| == 0 then []
    else Insert(Sort(s[..|s| - 1], key, d), s[|s| - 1], key, d)
  }

  /* ---------- the order on keys ---------- */

  lemma BeforeIrreflexive(d: Direction, a: string)
    ensures !Before(d, a, a)
  {
    LtIrreflexive(a);
  }

  lemma BeforeAsymmetric(d: Direction, a: string, b: string)
    requires Before(d, a, b)
    ensures NotAfter(d, a, b)
  {
    match d
    case Ascending => LtAsymmetric(a, b);
    case Descending => LtAsymmetric(b, a);
  }

  lemma BeforeNotAfter(d: Direction, a: string, b: string, c: string)
    requires Before(d, a, b) && NotAfter(d, b, c)
    ensures Before(d, a, c)
  {
    match d
    case Ascending =>
      LtTotal(b, c);
      if Lt(b, c) { LtTransitive(a, b, c); }
    case Descending =>
      LtTotal(b, c);
      if Lt(c, b) { LtTransitive(c, b, a); }
  }

  lemma NotAfterTransitive(d: Direction, a: string, b: string, c: string)
    requires NotAfter(d, a, b) && NotAfter(d, b, c)
    ensures NotAfter(d, a, c)
  {
    if Before(d, c, a) {
      BeforeNotAfter(d, c, a, b);
      assert false;
    }
  }

  /* ---------- permutation ---------- */

  lemma {:induction false} InsertPermutes<T>(t: seq<T>, x: T, key: T -> string, d: Direction)
    ensures multiset(Insert(t, x, key, d)) == multiset(t) + multiset{x}
  {
    if |t| > 0 && !Before(d, key(x), key(t[0])) {
      InsertPermutes(t[1..], x, key, d);
      assert t == [t[0]] + t[1..];
    }
  }

  lemma {:induction false} SortPermutes<T>(s: seq<T>, key: T -> string, d: Direction)
    ensures multiset(Sort(s, key, d)) == multiset(s)
  {
    if |s| > 0 {
      SortPermutes(s[..|s| - 1], key, d);
      InsertPermutes(Sort(s[..|s| - 1], key, d), s[|s| - 1], key, d);
      assert s == s[..|s| - 1] + [s[|s| - 1]];
    }
  }

  /* ---------- order ---------- */

  lemma {:induction false} InsertSorted<T>(t: seq<T>, x: T, key: T -> string, d: Direction)
    requires SortedBy(t, key, d)
    ensures SortedBy(Insert(t, x, key, d), key, d)
  {
    if |t| == 0 {
    } else if Before(d, key(x), key(t[0])) {
      BeforeAsymmetric(d, key(x), key(t[0]));
      forall y | y in multiset(t)
        ensures NotAfter(d, key(x), key(y))
      {
        var k :| 0 <= k < |t| && t[k] == y;
        if k > 0 {
          NotAfterTransitive(d, key(x), key(t[0]), key(t[k]));
        }
      }
      ConsSorted(x, t, key, d);
    } else {
      InsertSorted(t[1..], x, key, d);
      HeadNotAfterRest(t, x, key, d);
      ConsSorted(t[0], Insert(t[1..], x, key, d), key, d);
    }
  }

  /** A sorted sequence stays sorted behind an element that may precede all of it. */
  lemma ConsSorted<T>(h: T, t: seq<T>, key: T -> string, d: Direction)
    requires SortedBy(t, key, d)
    requires forall y :: y in multiset(t) ==> NotAfter(d, key(h), key(y))
    ensures SortedBy([h] + t, key, d)
  {
    var r := [h] + t;
    forall i, j | 0 <= i < j < |r|
      ensures NotAfter(d, key(r[i]), key(r[j]))
    {
      assert r[j] == t[j - 1];
      if i == 0 {
        assert t[j - 1] in multiset(t);
      } else {
        assert r[i] == t[i - 1];
      }
    }
  }

  /** When `x` goes behind the head of a sorted `t`, the head may precede everything
      the insertion into the tail yields. */
  lemma HeadNotAfterRest<T>(t: seq<T>, x: T, key: T -> string, d: Direction)
    requires |t| > 0 && SortedBy(t, key, d) && !Before(d, key(x), key(t[0]))
    ensures forall y :: y in multiset(Insert(t[1..], x, key, d)) ==> NotAfter(d, key(t[0]), key(y))
  {
    InsertPermutes(t[1..], x, key, d);
    forall y | y in multiset(Insert(t[1..], x, key, d))
      ensures NotAfter(d, key(t[0]), key(y))
    {
      if y != x {
        assert y in multiset(t[1..]);
        var k :| 0 <= k < |t[1..]| && t[1..][k] == y;
        assert t[k + 1] == y;
      }
    }
  }

  lemma {:induction false} SortSorted<T>(s: seq<T>, key: T -> string, d: Direction)
    ensures SortedBy(Sort(s, key, d), key, d)
  {
    if |s| > 0 {
      SortSorted(s[..|s| - 1], key, d);
      InsertSorted(Sort(s[..|s| - 1], key, d), s[|s| - 1], key, d);
    }
  }

  /* ---------- stability ---------- */

  lemma {:induction false} WithKeyAppend<T>(a: seq<T>, b: seq<T>, key: T -> string, k: string)
    ensures WithKey(a + b, key, k) == WithKey(a, key, k) + WithKey(b, key, k)
  {
    if |a| == 0 {
      assert a + b == b;
    } else {
      assert (a + b)[0] == a[0];
      assert (a + b)[1..] == a[1..] + b;
      WithKeyAppend(a[1..], b, key, k);
    }
  }

  lemma {:induction false} WithKeyNone<T>(t: seq<T>, key: T -> string, k: string)
    requires forall i :: 0 <= i < |t| ==> key(t[i]) != k
    ensures WithKey(t, key, k) == []
  {
    if |t| > 0 {
      WithKeyNone(t[1..], key, k);
    }
  }

  /** No element of a sorted `t` shares a key with an `x` that must precede `t[0]`. */
  lemma NoneEqualBehind<T>(t: seq<T>, x: T, key: T -> string, d: Direction)
    requires SortedBy(t, key, d)
    requires |t| > 0 && Before(d, key(x), key(t[0]))
    ensures forall i :: 0 <= i < |t| ==> key(t[i]) != key(x)
  {
    forall i | 0 <= i < |t|
      ensures key(t[i]) != key(x)
    {
      BeforeIrreflexive(d, key(x));
      if i > 0 {
        assert NotAfter(d, key(t[0]), key(t[i]));
        BeforeNotAfter(d, key(x), key(t[0]), key(t[i]));
      }
    }
  }

  lemma WithKeyCons<T>(x: T, t: seq<T>, key: T -> string, k: string)
    ensures WithKey([x] + t, key, k) == (if key(x) == k then [x] else []) + WithKey(t, key, k)
  {
    assert ([x] + t)[0] == x && ([x] + t)[1..] == t;
  }

  lemma SortedTail<T>(t: seq<T>, key: T -> string, d: Direction)
    requires |t| > 0 && SortedBy(t, key, d)
    ensures SortedBy(t[1..], key, d)
  {
    forall i, j | 0 <= i < j < |t| - 1
      ensures NotAfter(d, key(t[1..][i]), key(t[1..][j]))
    {
      assert t[1..][i] == t[i + 1] && t[1..][j] == t[j + 1];
    }
  }

  /** Stability when `x` lands in front of `t`. */
  lemma InsertStableFront<T>(t: seq<T>, x: T, key: T -> string, d: Direction, k: string)
    requires SortedBy(t, key, d)
    requires |t| == 0 || Before(d, key(x), key(t[0]))
    ensures WithKey([x] + t, key, k) == WithKey(t, key, k) + (if key(x) == k then [x] else [])
  {
    WithKeyCons(x, t, key, k);
    if |t| > 0 && key(x) == k {
      NoneEqualBehind(t, x, key, d);
      WithKeyNone(t, key, k);
    }
  }

  lemma {:induction false} InsertStable<T>(t: seq<T>, x: T, key: T -> string, d: Direction, k: string)
    requires SortedBy(t, key, d)
    ensures WithKey(Insert(t, x, key, d), key, k)
         == WithKey(t, key, k) + (if key(x) == k then [x] else [])
  {
    if |t| == 0 || Before(d, key(x), key(t[0])) {
      assert Insert(t, x, key, d) == [x] + t;
      InsertStableFront(t, x, key, d, k);
    } else {
      var rest := Insert(t[1..], x, key, d);
      assert Insert(t, x, key, d) == [t[0]] + rest;
      SortedTail(t, key, d);
      InsertStable(t[1..], x, key, d, k);
      WithKeyCons(t[0], rest, key, k);
      WithKeyCons(t[0], t[1..], key, k);
      assert [t[0]] + t[1..] == t;
    }
  }

  lemma {:induction false} SortStable<T>(s: seq<T>, key: T -> string, d: Direction, k: string)
    ensures WithKey(Sort(s, key, d), key, k) == WithKey(s, key, k)
  {
    if |s| > 0 {
      var init := s[..|s| - 1];
      var last := s[|s| - 1];
      SortStable(init, key, d, k);
      SortSorted(init, key, d);
      InsertStable(Sort(init, key, d), last, key, d, k);
      assert s == init + [last];
      WithKeyAppend(init, [last], key, k);
      assert WithKey([last], key, k) == (if key(last) == k then [last] else []) by {
        assert [last][1..] == [];
      }
    }
  }

  /** The three facts about `sorted()` the rest of the model uses. */
  lemma SortSpec<T>(s: seq<T>, key: T -> string, d: Direction)
    ensures multiset(Sort(s, key, d)) == multiset(s)
    ensures |Sort(s, key, d)| == |s|
    ensures SortedBy(Sort(s, key, d), key, d)
    ensures forall k :: WithKey(Sort(s, key, d), key, k) == WithKey(s, key, k)
  {
    SortPermutes(s, key, d);
    assert |multiset(Sort(s, key, d))| == |multiset(s)|;
    SortSorted(s, key, d);
    forall k
      ensures WithKey(Sort(s, key, d), key, k) == WithKey(s, key, k)
    {
      SortStable(s, key, d, k);
    }
  }
}

=== FILE: strings.dfy ===
/** The few pieces of Python's `str` behaviour the model relies on: ordering by code
    point, prefix and substring tests, `lstrip`, slicing, and decimal integers. */
module Strings {
  import opened Wrappers

  /* ---------- ordering (Python `<` on str) ---------- */

  /** Lexicographic order on code points, as Python compares two `str` values. */
  predicate Lt(a: string, b: string)
  {
    if |a| == 0 then |b| > 0
    else if |b| == 0 then false
    else if a[0] != b[0] then a[0] < b[0]
    else Lt(a[1..], b[1..])
  }

  lemma {:induction false} LtIrreflexive(a: string)
    ensures !Lt(a, a)
  {
    if |a| > 0 {
      LtIrreflexive(a[1..]);
    }
  }

  lemma {:induction false} LtTransitive(a: string, b: string, c: string)
    requires Lt(a, b) && Lt(b, c)
    ensures Lt(a, c)
  {
    if |a| > 0 && |b| > 0 && |c| > 0 && a[0] == b[0] && b[0] == c[0] {
      LtTransitive(a[1..], b[1..], c[1..]);
    }
  }

  /** Any two different strings are ordered one way or the other. */
  lemma {:induction false} LtTotal(a: string, b: string)
    ensures a == b || Lt(a, b) || Lt(b, a)
  {
    if |a| > 0 && |b| > 0 && a[0] == b[0] {
      LtTotal(a[1..], b[1..]);
      if a[1..] == b[1..] {
        assert a == [a[0]] + a[1..] && b == [b[0]] + b[1..];
      }
    }
  }

  lemma {:induction false} LtAsymmetric(a: string, b: string)
    requires Lt(a, b)
    ensures !Lt(b, a)
  {
    if |a| > 0 && |b| > 0 && a[0] == b[0] {
      LtAsymmetric(a[1..], b[1..]);
    }
  }

  /* ---------- prefixes, suffixes, substrings ---------- */

  predicate StartsWith(s: string, prefix: string)
  {
    |prefix| <= |s| && s[..|prefix|] == prefix
  }

  predicate EndsWith(s: string, suffix: string)
  {
    |suffix| <= |s| && s[|s| - |suffix|..] == suffix
  }

  /** Python's `sub in s` for two strings. */
  predicate Contains(s: string, sub: string)
    decreases |s|
  {
    StartsWith(s, sub) || (|s| > 0 && Contains(s[1..], sub))
  }

  lemma {:induction false} ContainsAfter(a: string, sub: string)
    ensures Contains(a + sub, sub)
    decreases |a|
  {
    if |a| == 0 {
      assert a + sub == sub;
    } else {
      assert (a + sub)[1..] == a[1..] + sub;
      ContainsAfter(a[1..], sub);
    }
  }

  /** A string that contains `sub` at some offset. */
  lemma {:induction false} ContainsAt(s: string, sub: string, k: nat)
    requires k + |sub| <= |s| && s[k..k + |sub|] == sub
    ensures Contains(s, sub)
    decreases k
  {
    if k > 0 {
      assert s[1..][k - 1..k - 1 + |sub|] == s[k..k + |sub|];
      ContainsAt(s[1..], sub, k - 1);
    }
  }

  /** Python's `s[:n]`. */
  function Take(s: string, n: nat): (r: string)
    ensures |r| == if n < |s| then n else |s|
    ensures StartsWith(s, r)
  {
    if n < |s| then s[..n] else s
  }

  /** Python's `s.lstrip(c)` for a one-character argument. */
  function LStrip(s: string, c: char): (r: string)
    ensures |r| <= |s| && r == s[|s| - |r|..]
    ensures |r| == 0 || r[0] != c
    ensures forall i :: 0 <= i < |s| - |r| ==> s[i] == c
  {
    if |s| > 0 && s[0] == c then LStrip(s[1..], c) else s
  }

  /** Python's `s.replace(from, to)` for one-character arguments. */
  function ReplaceChar(s: string, from: char, to: char): (r: string)
    ensures |r| == |s|
    ensures forall i :: 0 <= i < |s| ==> r[i] == if s[i] == from then to else s[i]
  {
    if |s| == 0 then []
    else [if s[0] == from then to else s[0]] + ReplaceChar(s[1..], from, to)
  }

  /** Index of the last occurrence of `c` in `s`, or -1 (Python's `s.rfind(c)`). */
  function RFind(s: string, c: char): (k: int)
    ensures -1 <= k < |s|
    ensures k >= 0 ==> s[k] == c
    ensures forall i :: k < i < |s| ==> s[i] != c
  {
    if |s| == 0 then -1
    else if s[|s| - 1] == c then |s| - 1
    else RFind(s[..|s| - 1], c)
  }

  /** ASCII case folding; `str.lower` on the characters A-Z. */
  function LowerAscii(s: string): (r: string)
    ensures |r| == |s|
    ensures forall i :: 0 <= i < |s| ==>
      r[i] == if 'A' <= s[i] <= 'Z' then (s[i] as int + 32) as char else s[i]
  {
    if |s| == 0 then []
    else [if 'A' <= s[0] <= 'Z' then (s[0] as int + 32) as char else s[0]] + LowerAscii(s[1..])
  }

  /* ---------- decimal integers ---------- */

  predicate IsDigit(c: char)
  {
    '0' <= c <= '9'
  }

  predicate AllDigits(s: string)
  {
    forall i :: 0 <= i < |s| ==> IsDigit(s[i])
  }

  /** The value of a string of decimal digits, leading zeros allowed (`int("007") == 7`). */
  function DigitsValue(s: string): nat
    requires AllDigits(s)
  {
    if |s| == 0 then 0
    else DigitsValue(s[..|s| - 1]) * 10 + (s[|s| - 1] as int - '0' as int)
  }

  /** Python's `str(n)` for a natural number. */
  function NatToString(n: nat): (r: string)
    ensures |r| > 0 && AllDigits(r)
    ensures |r| > 1 ==> r[0] != '0'
  {
    if n < 10 then [('0' as int + n) as char]
    else NatToString(n / 10) + [('0' as int + n % 10) as char]
  }

  /** `int(str(n)) == n`. */
  lemma {:induction false} NatToStringRoundTrip(n: nat)
    ensures DigitsValue(NatToString(n)) == n
  {
    if n >= 10 {
      var prefix := NatToString(n / 10);
      var s := NatToString(n);
      assert s[..|s| - 1] == prefix;
      NatToStringRoundTrip(n / 10);
    }
  }

  /** Decimal renderings of different numbers differ. */
  lemma NatToStringInjective(m: nat, n: nat)
    requires NatToString(m) == NatToString(n)
    ensures m == n
  {
    NatToStringRoundTrip(m);
    NatToStringRoundTrip(n);
  }

  /** The ASCII whitespace `str.strip()` and `int()` skip. */
  predicate IsSpace(c: char)
  {
    c == ' ' || c == '\t' || c == '\n' || c == '\r' || c as int == 11 || c as int == 12
  }

  /** `s.strip()` for ASCII whitespace: what is left neither starts nor ends with a
      space, and a string with no space at either end is left alone. */
  function Strip(s: string): (r: string)
    ensures |r| <= |s|
    ensures |r| > 0 ==> !IsSpace(r[0]) && !IsSpace(r[|r| - 1])
    ensures |s| > 0 && !IsSpace(s[0]) && !IsSpace(s[|s| - 1]) ==> r == s
  {
    if |s| > 0 && IsSpace(s[0]) then Strip(s[1..])
    else if |s| > 0 && IsSpace(s[|s| - 1]) then Strip(s[..|s| - 1])
    else s
  }

  /** Python's `int(s)` for a string: surrounding whitespace, an optional sign, then
      at least one decimal digit; anything else raises ValueError (None here). */
  function ParseInt(s: string): Option<int>
  {
    ParseSigned(Strip(s))
  }

  /** An optional sign followed by at least one decimal digit. */
  function ParseSigned(t: string): Option<int>
  {
    if |t| > 0 && (t[0] == '-' || t[0] == '+') then
      var d := t[1..];
      if |d| > 0 && AllDigits(d) then
        var v: int := DigitsValue(d);
        Some(if t[0] == '-' then -v else v)
      else None
    else if |t| > 0 && AllDigits(t) then Some(DigitsValue(t))
    else None
  }

  /** Python's `str(i)` for an integer. */
  function IntToString(i: int): (r: string)
    ensures |r| > 0
  {
    if i < 0 then "-" + NatToString(-i) else NatToString(i)
  }

  /** `int(str(i)) == i`, also with whitespace around it. */
  lemma IntToStringRoundTrip(i: int, pre: string, post: string)
    requires forall k :: 0 <= k < |pre| ==> IsSpace(pre[k])
    requires forall k :: 0 <= k < |post| ==> IsSpace(post[k])
    ensures ParseInt(pre + IntToString(i) + post) == Some(i)
  {
    var s := IntToString(i);
    assert !IsSpace(s[0]) && !IsSpace(s[|s| - 1]);
    StripPadding(pre, s, post);
    SignedRoundTrip(i);
  }

  lemma SignedRoundTrip(i: int)
    ensures ParseSigned(IntToString(i)) == Some(i)
  {
    var s := IntToString(i);
    if i < 0 {
      NatToStringRoundTrip(-i);
      assert s[1..] == NatToString(-i);
    } else {
      NatToStringRoundTrip(i);
    }
  }

  /** Stripping removes exactly the whitespace around a word that neither starts nor
      ends with whitespace. */
  lemma {:induction false} StripPadding(pre: string, s: string, post: string)
    requires forall k :: 0 <= k < |pre| ==> IsSpace(pre[k])
    requires forall k :: 0 <= k < |post| ==> IsSpace(post[k])
    requires |s| > 0 && !IsSpace(s[0]) && !IsSpace(s[|s| - 1])
    ensures Strip(pre + s + post) == s
    decreases |pre| + |post|
  {
    var w := pre + s + post;
    if |pre| > 0 {
      assert w[0] == pre[0];
      assert w[1..] == pre[1..] + s + post;
      StripPadding(pre[1..], s, post);
    } else if |post| > 0 {
      assert w == s + post;
      assert w[|w| - 1] == post[|post| - 1];
      assert w[..|w| - 1] == pre + s + post[..|post| - 1];
      StripPadding(pre, s, post[..|post| - 1]);
    } else {
      assert w == s;
    }
  }
}

=== FILE: taskqueue.dfy ===
/** The background task table of `task_queue.py`: records move from pending to
    processing to success or failed, each change is broadcast to the connected
    clients when a socket is set, and the listing is newest first. The thread pool,
    the clock and `uuid4` are outside the model: the id and the timestamp a
    submission gets, and how a job ends, are parameters. */
module TaskQueue {
  import opened Wrappers
  import opened Json
  import opened Strings
  import opened Sorting

  /** `"pending"`, `"processing"`, `"success"` and `"failed"`. */
  datatype Status = Pending | Processing | Succeeded | Failed

  /** One record of the table (`{"id", "status", "created_at", "desc", "progress"}`,
      plus `"error"` once a job has raised). */
  datatype Task = Task(id: string, status: Status, createdAt: string, desc: Json, progress: int,
                       error: Option<string>)

  /** The table: `tasks` is the dictionary and `order` its insertion order, which
      `sorted()` keeps among records created in the same second. */
  datatype Queue = Queue(order: seq<string>, tasks: map<string, Task>)

  const DefaultDesc: Json := JStr("AI任务")

  /** The lifecycle invariant of one record: progress is 100 exactly on success, and an
      error message is present exactly on failure. */
  predicate Consistent(t: Task)
  {
    && t.progress == (if t.status == Succeeded then 100 else 0)
    && (t.error.Some? <==> t.status == Failed)
  }

  /** The table's invariant: the order lists every key once, and every record sits
      under its own id and is consistent. */
  ghost predicate Valid(q: Queue)
  {
    Distinct(q.order) && Indexed(q) && WellKept(q.tasks)
  }

  ghost predicate Distinct(order: seq<string>)
  {
    forall i, j :: 0 <= i < j < |order| ==> order[i] != order[j]
  }

  /** The order lists exactly the table's keys. */
  ghost predicate Indexed(q: Queue)
  {
    forall k :: k in q.tasks <==> k in q.order
  }

  ghost predicate WellKept(tasks: map<string, Task>)
  {
    forall k :: k in tasks ==> tasks[k].id == k && Consistent(tasks[k])
  }

  const Empty := Queue([], map[])

  /** `self.tasks.values()`, in insertion order. */
  function Values(order: seq<string>, tasks: map<string, Task>): (r: seq<Task>)
    ensures |r| <= |order|
  {
    if |order| == 0 then []
    else
      var last := order[|order| - 1];
      Values(order[..|order| - 1], tasks) + (if last in tasks then [tasks[last]] else [])
  }

  function CreatedAt(t: Task): string
  {
    t.createdAt
  }

  /** `get_list`: the records sorted by `created_at`, newest first. */
  function GetList(q: Queue): seq<Task>
  {
    Sort(Values(q.order, q.tasks), CreatedAt, Descending)
  }

  /* ---------- broadcasting ---------- */

  /** The socket `init_socketio` installed, if any; `emitError` is the exception a
      broadcast raises, if it does. */
  datatype Socket = Socket(emitError: Option<string>)

  /** What `_emit_update` did: nothing without a socket, otherwise the list was sent or
      the exception from sending was logged and dropped. */
  datatype Broadcast = NotSent | Sent(list: seq<Task>) | Swallowed(message: string)

  function EmitUpdate(q: Queue, socket: Option<Socket>): (b: Broadcast)
    ensures socket.None? <==> b.NotSent?
    ensures b.Sent? ==> b.list == GetList(q) && socket.value.emitError.None?
    ensures socket.Some? && socket.value.emitError.Some? ==> b == Swallowed(socket.value.emitError.value)
  {
    match socket
    case None => NotSent
    case Some(s) =>
      match s.emitError
      case None => Sent(GetList(q))
      case Some(msg) => Swallowed(msg)
  }

  /* ---------- submission ---------- */

  /** The call handed to the pool: the id and the arguments the job receives. */
  datatype Job = Job(taskId: string, args: seq<Json>, kwargs: Record)

  datatype Submitted = Submitted(queue: Queue, taskId: string, job: Job, broadcast: Broadcast)

  /** `self.tasks[t.id] = t`: a new key goes to the end of the insertion order, an
      existing one keeps its place. */
  function Put(q: Queue, t: Task): (r: Queue)
    ensures r.tasks.Keys == q.tasks.Keys + {t.id} && r.tasks[t.id] == t
    ensures forall k :: k in q.tasks && k != t.id ==> r.tasks[k] == q.tasks[k]
  {
    Queue(if t.id in q.tasks then q.order else q.order + [t.id], q.tasks[t.id := t])
  }

  /** Storing a consistent record under a fresh id keeps the table valid and appends
      exactly that record to the values. */
  lemma PutFresh(q: Queue, t: Task)
    requires Valid(q) && t.id !in q.tasks && Consistent(t)
    ensures Valid(Put(q, t))
    ensures Values(Put(q, t).order, Put(q, t).tasks) == Values(q.order, q.tasks) + [t]
    ensures |Put(q, t).tasks| == |q.tasks| + 1
  {
    var q' := Put(q, t);
    PutFreshDistinct(q.order, t.id);
    PutFreshIndexed(q, t);
    PutWellKept(q.tasks, t);
    PutFreshValues(q, t);
    assert q'.tasks.Keys == q.tasks.Keys + {t.id};
  }

  /** Appending a key the order does not hold keeps its keys pairwise different. */
  lemma PutFreshDistinct(order: seq<string>, k: string)
    requires Distinct(order) && k !in order
    ensures Distinct(order + [k])
  {
  }

  lemma PutFreshIndexed(q: Queue, t: Task)
    requires Indexed(q) && t.id !in q.tasks
    ensures Indexed(Put(q, t))
  {
  }

  lemma PutWellKept(tasks: map<string, Task>, t: Task)
    requires WellKept(tasks) && Consistent(t)
    ensures WellKept(tasks[t.id := t])
  {
  }

  lemma PutFreshValues(q: Queue, t: Task)
    requires t.id !in q.order && t.id !in q.tasks
    ensures Values(Put(q, t).order, Put(q, t).tasks) == Values(q.order, q.tasks) + [t]
  {
    var q' := Put(q, t);
    assert q'.order[..|q'.order| - 1] == q.order;
    ValuesFrame(q.order, q.tasks, t.id, t);
  }

  /** `submit`: records a pending task under `taskId` (from `uuid4`), takes `desc` out of
      the keyword arguments, broadcasts, and schedules the job. */
  function Submit(q: Queue, taskId: string, createdAt: string, args: seq<Json>, kwargs: Record,
                  socket: Option<Socket>): (s: Submitted)
    ensures s.taskId == taskId && s.job.taskId == taskId
    ensures s.queue.tasks.Keys == q.tasks.Keys + {taskId}
    ensures s.queue.tasks[taskId].status == Pending && s.queue.tasks[taskId].progress == 0
    ensures s.queue.tasks[taskId].desc == GetOr(kwargs, "desc", DefaultDesc)
    ensures forall k :: k in q.tasks && k != taskId ==> s.queue.tasks[k] == q.tasks[k]
    ensures "desc" !in s.job.kwargs && s.job.args == args
    ensures forall k :: k in kwargs && k != "desc" ==> k in s.job.kwargs && s.job.kwargs[k] == kwargs[k]
    ensures s.job.kwargs.Keys <= kwargs.Keys
    ensures s.queue.tasks[taskId].createdAt == createdAt && s.queue.tasks[taskId].error.None?
    ensures s.broadcast == EmitUpdate(s.queue, socket)
  {
    var q' := Put(q, PendingTask(taskId, createdAt, kwargs));
    Submitted(q', taskId, Job(taskId, args, kwargs - {"desc"}), EmitUpdate(q', socket))
  }

  /** The record `submit` creates. */
  function PendingTask(taskId: string, createdAt: string, kwargs: Record): (t: Task)
    ensures t.id == taskId && Consistent(t)
  {
    Task(taskId, Pending, createdAt, GetOr(kwargs, "desc", DefaultDesc), 0, None)
  }

  /** Submitting under a fresh id keeps the table valid and appends exactly one record
      to the listing's input. */
  lemma SubmitPreservesValid(q: Queue, taskId: string, createdAt: string, args: seq<Json>,
                             kwargs: Record, socket: Option<Socket>)
    requires Valid(q) && taskId !in q.tasks
    ensures var s := Submit(q, taskId, createdAt, args, kwargs, socket);
      && Valid(s.queue)
      && Values(s.queue.order, s.queue.tasks) == Values(q.order, q.tasks) + [s.queue.tasks[taskId]]
      && |s.queue.tasks| == |q.tasks| + 1
  {
    PutFresh(q, PendingTask(taskId, createdAt, kwargs));
  }

  /** A broadcast, failed or not, never changes what `submit` records or returns. */
  lemma SubmitIgnoresSocket(q: Queue, taskId: string, createdAt: string, args: seq<Json>,
                            kwargs: Record, s1: Option<Socket>, s2: Option<Socket>)
    ensures Submit(q, taskId, createdAt, args, kwargs, s1).queue == Submit(q, taskId, createdAt, args, kwargs, s2).queue
    ensures Submit(q, taskId, createdAt, args, kwargs, s1).job == Submit(q, taskId, createdAt, args, kwargs, s2).job
  {
  }

  /** Updating a key the order does not list leaves the values alone. */
  lemma {:induction false} ValuesFrame(order: seq<string>, tasks: map<string, Task>, k: string, t: Task)
    requires k !in order
    ensures Values(order, tasks[k := t]) == Values(order, tasks)
  {
    if |order| > 0 {
      ValuesFrame(order[..|order| - 1], tasks, k, t);
    }
  }

  /* ---------- running ---------- */

  /** How the submitted callable ended: it returned, or it raised with `str(e)`. */
  datatype Outcome = Returned | Raised(message: string)

  /** The table while the callable runs, and after it ended. */
  datatype Run = Run(atCall: Queue, final: Queue)

  /** `_runner`: marks the task processing, invokes the callable, then records success
      with progress 100, or failure with the message and progress left as it was. */
  function Runner(q: Queue, taskId: string, outcome: Outcome): (r: Run)
    requires taskId in q.tasks
    ensures r.atCall.order == q.order && r.final.order == q.order
    ensures r.atCall.tasks.Keys == q.tasks.Keys && r.final.tasks.Keys == q.tasks.Keys
    ensures r.atCall.tasks[taskId].status == Processing
    ensures outcome.Returned? ==>
      r.final.tasks[taskId].status == Succeeded && r.final.tasks[taskId].progress == 100
    ensures outcome.Raised? ==>
      && r.final.tasks[taskId].status == Failed
      && r.final.tasks[taskId].error == Some(outcome.message)
      && r.final.tasks[taskId].progress == q.tasks[taskId].progress
    ensures forall k :: k in q.tasks && k != taskId ==>
      r.atCall.tasks[k] == q.tasks[k] && r.final.tasks[k] == q.tasks[k]
  {
    var t := q.tasks[taskId].(status := Processing);
    var started := Queue(q.order, q.tasks[taskId := t]);
    var done := match outcome
      case Returned => t.(status := Succeeded, progress := 100)
      case Raised(msg) => t.(status := Failed, error := Some(msg));
    Run(started, Queue(q.order, q.tasks[taskId := done]))
  }

  /** The broadcasts a run makes: when it starts and when it ends. */
  function RunnerBroadcasts(q: Queue, taskId: string, outcome: Outcome, socket: Option<Socket>): (b: seq<Broadcast>)
    requires taskId in q.tasks
    ensures |b| == 2
    ensures socket.None? ==> b == [NotSent, NotSent]
    ensures socket.Some? && socket.value.emitError.None? ==>
      b == [Sent(GetList(Runner(q, taskId, outcome).atCall)), Sent(GetList(Runner(q, taskId, outcome).final))]
    ensures socket.Some? && socket.value.emitError.Some? ==>
      b == [Swallowed(socket.value.emitError.value), Swallowed(socket.value.emitError.value)]
  {
    var r := Runner(q, taskId, outcome);
    [EmitUpdate(r.atCall, socket), EmitUpdate(r.final, socket)]
  }

  /** Over a working socket, the first broadcast of a run shows the task processing
      and the second shows it ended as the job did. */
  lemma RunBroadcastsShowTask(q: Queue, taskId: string, outcome: Outcome)
    requires Valid(q) && taskId in q.tasks && q.tasks[taskId].status == Pending
    ensures var b := RunnerBroadcasts(q, taskId, outcome, Some(Socket(None)));
      && b[0].Sent? && b[1].Sent?
      && (exists u :: u in b[0].list && u.id == taskId)
      && (forall u :: u in b[0].list && u.id == taskId ==> u.status == Processing)
      && (exists u :: u in b[1].list && u.id == taskId)
      && (forall u :: u in b[1].list && u.id == taskId ==>
            u.status == (if outcome.Returned? then Succeeded else Failed))
  {
    var r := Runner(q, taskId, outcome);
    var started := r.atCall.tasks[taskId];
    assert r.atCall.tasks == q.tasks[taskId := started];
    PutWellKept(q.tasks, started);
    InListing(r.atCall, taskId);
    RunnerLifecycle(q, taskId, outcome);
    InListing(r.final, taskId);
  }

  /** Over a working socket, the broadcast of a submission lists the new pending task
      along with every earlier one. */
  lemma SubmitBroadcastShowsTask(q: Queue, taskId: string, createdAt: string, args: seq<Json>,
                                 kwargs: Record)
    requires Valid(q) && taskId !in q.tasks
    ensures var b := Submit(q, taskId, createdAt, args, kwargs, Some(Socket(None))).broadcast;
      && b.Sent?
      && PendingTask(taskId, createdAt, kwargs) in b.list
      && (forall u :: u in b.list && u.id == taskId ==> u.status == Pending)
      && (forall k :: k in q.tasks ==> q.tasks[k] in b.list)
  {
    var s := Submit(q, taskId, createdAt, args, kwargs, Some(Socket(None)));
    SubmitPreservesValid(q, taskId, createdAt, args, kwargs, Some(Socket(None)));
    InListing(s.queue, taskId);
    forall k | k in q.tasks
      ensures q.tasks[k] in s.broadcast.list
    {
      InListing(s.queue, k);
    }
  }

  predicate Terminal(s: Status)
  {
    s == Succeeded || s == Failed
  }

  /** A submitted task run to completion reaches exactly one terminal status, and the
      table stays valid on the way. */
  lemma RunnerLifecycle(q: Queue, taskId: string, outcome: Outcome)
    requires Valid(q) && taskId in q.tasks && q.tasks[taskId].status == Pending
    ensures var r := Runner(q, taskId, outcome);
      && Valid(r.final)
      && Terminal(r.final.tasks[taskId].status)
      && (r.final.tasks[taskId].status == Succeeded <==> outcome.Returned?)
      && (r.final.tasks[taskId].status == Failed <==> outcome.Raised?)
      && r.final.tasks[taskId].createdAt == q.tasks[taskId].createdAt
      && r.final.tasks[taskId].desc == q.tasks[taskId].desc
  {
    var r := Runner(q, taskId, outcome);
    var done := r.final.tasks[taskId];
    assert r.final.tasks == q.tasks[taskId := done];
    assert Consistent(done);
    PutWellKept(q.tasks, done);
  }

  /** Submitting and then running a job leaves a valid table whose new record ended as
      the job did, and whose other records are as before the submission. */
  lemma SubmitThenRun(q: Queue, taskId: string, createdAt: string, args: seq<Json>, kwargs: Record,
                      socket: Option<Socket>, outcome: Outcome)
    requires Valid(q) && taskId !in q.tasks
    ensures var r := Runner(Submit(q, taskId, createdAt, args, kwargs, socket).queue, taskId, outcome);
      && Valid(r.final)
      && r.final.tasks[taskId].status == (if outcome.Returned? then Succeeded else Failed)
      && forall k :: k in q.tasks ==> k in r.final.tasks && r.final.tasks[k] == q.tasks[k]
  {
    SubmitPreservesValid(q, taskId, createdAt, args, kwargs, socket);
    RunAfter(q, Submit(q, taskId, createdAt, args, kwargs, socket).queue, taskId, outcome);
  }

  lemma RunAfter(q: Queue, q1: Queue, taskId: string, outcome: Outcome)
    requires Valid(q1) && taskId in q1.tasks && q1.tasks[taskId].status == Pending
    requires forall k :: k in q.tasks ==> k != taskId && k in q1.tasks && q1.tasks[k] == q.tasks[k]
    ensures var r := Runner(q1, taskId, outcome);
      && Valid(r.final)
      && r.final.tasks[taskId].status == (if outcome.Returned? then Succeeded else Failed)
      && forall k :: k in q.tasks ==> k in r.final.tasks && r.final.tasks[k] == q.tasks[k]
  {
    RunnerLifecycle(q1, taskId, outcome);
  }

  /* ---------- the listing ---------- */

  /** Under the invariant the values hold every record once, ids all different. */
  lemma {:induction false} ValuesDistinct(order: seq<string>, tasks: map<string, Task>)
    requires forall i, j :: 0 <= i < j < |order| ==> order[i] != order[j]
    requires forall k :: k in order ==> k in tasks && tasks[k].id == k
    ensures |Values(order, tasks)| == |order|
    ensures forall i :: 0 <= i < |order| ==> Values(order, tasks)[i] == tasks[order[i]]
  {
    if |order| > 0 {
      var init := order[..|order| - 1];
      ValuesDistinct(init, tasks);
    }
  }

  /** `get_list` returns every record of the table exactly once, newest first, and
      records created at the same time keep their insertion order. */
  lemma GetListSpec(q: Queue)
    requires Valid(q)
    ensures |GetList(q)| == |q.order|
    ensures multiset(GetList(q)) == multiset(Values(q.order, q.tasks))
    ensures forall k :: k in q.tasks ==> multiset(GetList(q))[q.tasks[k]] == 1
    ensures forall t :: t in multiset(GetList(q)) ==> t.id in q.tasks && q.tasks[t.id] == t
    ensures forall i, j :: 0 <= i < j < |GetList(q)| ==> !Lt(GetList(q)[i].createdAt, GetList(q)[j].createdAt)
    ensures forall c :: WithKey(GetList(q), CreatedAt, c) == WithKey(Values(q.order, q.tasks), CreatedAt, c)
  {
    var vs := Values(q.order, q.tasks);
    ValuesDistinct(q.order, q.tasks);
    SortSpec(vs, CreatedAt, Descending);
    ValuesOnce(q);
  }

  /** Under the invariant every record occurs once among the values, and every value
      is the record stored under its id. */
  lemma ValuesOnce(q: Queue)
    requires Valid(q)
    ensures forall k :: k in q.tasks ==> multiset(Values(q.order, q.tasks))[q.tasks[k]] == 1
    ensures forall t :: t in multiset(Values(q.order, q.tasks)) ==> t.id in q.tasks && q.tasks[t.id] == t
  {
    var vs := Values(q.order, q.tasks);
    ValuesDistinct(q.order, q.tasks);
    forall i, j | 0 <= i < j < |vs|
      ensures vs[i].id != vs[j].id
    {
      assert vs[i] == q.tasks[q.order[i]] && vs[j] == q.tasks[q.order[j]];
    }
    forall k | k in q.tasks
      ensures multiset(vs)[q.tasks[k]] == 1
    {
      var i :| 0 <= i < |q.order| && q.order[i] == k;
      assert vs[i] == q.tasks[k];
      OnceInDistinct(vs, q.tasks[k]);
    }
    forall t | t in multiset(vs)
      ensures t.id in q.tasks && q.tasks[t.id] == t
    {
      var i :| 0 <= i < |vs| && vs[i] == t;
      assert q.order[i] in q.tasks;
    }
  }

  /** In a sequence of records with pairwise different ids, a record occurs once. */
  lemma {:induction false} OnceInDistinct(vs: seq<Task>, t: Task)
    requires forall i, j :: 0 <= i < j < |vs| ==> vs[i].id != vs[j].id
    requires t in vs
    ensures multiset(vs)[t] == 1
  {
    var n := |vs| - 1;
    var init := vs[..n];
    assert vs == init + [vs[n]];
    if vs[n] == t {
      assert t !in init;
    } else {
      OnceInDistinct(init, t);
    }
  }

  /** The record stored under `k` is listed, and it is the only listed record with
      that id. */
  lemma InListing(q: Queue, k: string)
    requires Valid(q) && k in q.tasks
    ensures q.tasks[k] in GetList(q)
    ensures forall u :: u in GetList(q) && u.id == k ==> u == q.tasks[k]
  {
    GetListSpec(q);
    assert q.tasks[k] in multiset(GetList(q));
    forall u | u in GetList(q) && u.id == k
      ensures u == q.tasks[k]
    {
      assert u in multiset(GetList(q));
    }
  }
}

=== FILE: taskstore.dfy ===
/** The browser-side task store of `taskStore.js`: it keeps the latest task list the
    server broadcast, counts the tasks still running, and notices when one has just
    finished between two snapshots. The socket connection, the HTTP fetch and the
    notification widget are outside the model; the fetched list is a parameter. */
module TaskStore {
  import opened Wrappers
  import opened TaskQueue

  /** The store's state; `socket` records whether a connection was opened. */
  datatype State = State(socket: bool, taskList: seq<Task>, drawerVisible: bool)

  predicate Active(t: Task)
  {
    t.status == Processing || t.status == Pending
  }

  /** The `processingCount` getter: how many tasks are pending or processing. */
  function ProcessingCount(list: seq<Task>): (n: nat)
    ensures n <= |list|
  {
    if |list| == 0 then 0
    else ProcessingCount(list[..|list| - 1]) + (if Active(list[|list| - 1]) then 1 else 0)
  }

  /** `taskList.find(t => t.id === id)`: the first task with that id. */
  function Find(list: seq<Task>, id: string): (r: Option<Task>)
    ensures r.Some? ==> r.value in list && r.value.id == id
    ensures r.None? <==> forall i :: 0 <= i < |list| ==> list[i].id != id
  {
    if |list| == 0 then None
    else if list[0].id == id then Some(list[0])
    else Find(list[1..], id)
  }

  /** The test inside `newList.some(...)` for one new task. */
  predicate FinishedNow(oldList: seq<Task>, newTask: Task)
  {
    var found := Find(oldList, newTask.id);
    found.Some? && found.value.status != Succeeded && newTask.status == Succeeded
  }

  /** `justFinished`: some task of the new snapshot passes the test. */
  predicate JustFinished(oldList: seq<Task>, newList: seq<Task>)
  {
    |newList| > 0 && (FinishedNow(oldList, newList[0]) || JustFinished(oldList, newList[1..]))
  }

  /** `handleTaskUpdate`: the new snapshot replaces the list, and the notification (and
      the refresh of the current project) fires when a task has just finished. */
  datatype Update = Update(state: State, notified: bool)

  function HandleTaskUpdate(s: State, newList: seq<Task>): (u: Update)
    ensures u.state.taskList == newList
    ensures u.state.socket == s.socket && u.state.drawerVisible == s.drawerVisible
    ensures u.notified <==> exists j :: 0 <= j < |newList| && FinishedNow(s.taskList, newList[j])
  {
    JustFinishedSome(s.taskList, newList);
    Update(s.(taskList := newList), JustFinished(s.taskList, newList))
  }

  /** `initSocket`: a second call does nothing; the first opens the connection and
      loads the list (`fetched`, the answer of `GET /tasks`). */
  function InitSocket(s: State, fetched: seq<Task>): (r: State)
    ensures s.socket ==> r == s
    ensures r.socket
    ensures !s.socket ==> r.taskList == fetched && r.drawerVisible == s.drawerVisible
  {
    if s.socket then s else State(true, fetched, s.drawerVisible)
  }

  /** Calling `initSocket` again changes nothing. */
  lemma InitSocketIdempotent(s: State, f1: seq<Task>, f2: seq<Task>)
    ensures InitSocket(InitSocket(s, f1), f2) == InitSocket(s, f1)
  {
  }

  /* ---------- the `some` test ---------- */

  lemma {:induction false} JustFinishedSome(oldList: seq<Task>, newList: seq<Task>)
    ensures JustFinished(oldList, newList) <==> exists j :: 0 <= j < |newList| && FinishedNow(oldList, newList[j])
  {
    if |newList| > 0 {
      JustFinishedSome(oldList, newList[1..]);
      if JustFinished(oldList, newList[1..]) {
        var j :| 0 <= j < |newList[1..]| && FinishedNow(oldList, newList[1..][j]);
        assert newList[j + 1] == newList[1..][j];
      }
      if exists j :: 0 <= j < |newList| && FinishedNow(oldList, newList[j]) {
        var j :| 0 <= j < |newList| && FinishedNow(oldList, newList[j]);
        if j > 0 {
          assert newList[1..][j - 1] == newList[j];
        }
      }
    }
  }

  /** `i` is the first index of a task with the id. */
  predicate FirstWithId(list: seq<Task>, id: string, i: nat)
  {
    i < |list| && list[i].id == id && forall k :: 0 <= k < i ==> list[k].id != id
  }

  /** `find` returns the first task with the id. */
  lemma {:induction false} FindFirst(list: seq<Task>, id: string)
    requires Find(list, id).Some?
    ensures exists i: nat :: FirstWithId(list, id, i) && list[i] == Find(list, id).value
  {
    if list[0].id == id {
      assert FirstWithId(list, id, 0);
    } else {
      FindFirst(list[1..], id);
      var i: nat :| FirstWithId(list[1..], id, i) && list[1..][i] == Find(list[1..], id).value;
      assert list[i + 1] == list[1..][i];
      forall k | 0 <= k < i + 1
        ensures list[k].id != id
      {
        if k > 0 {
          assert list[k] == list[1..][k - 1];
        }
      }
      assert FirstWithId(list, id, i + 1);
    }
  }

  /** The task at the first index with an id is what `find` returns. */
  lemma {:induction false} FindAt(list: seq<Task>, id: string, i: nat)
    requires FirstWithId(list, id, i)
    ensures Find(list, id) == Some(list[i])
  {
    if i > 0 {
      assert FirstWithId(list[1..], id, i - 1);
      FindAt(list[1..], id, i - 1);
    }
  }

  /** New task `j` has first same-id old task `i`, which was not a success while the
      new one is. */
  predicate FinishedAt(oldList: seq<Task>, newList: seq<Task>, i: nat, j: nat)
  {
    && j < |newList| && FirstWithId(oldList, newList[j].id, i)
    && oldList[i].status != Succeeded && newList[j].status == Succeeded
  }

  /** `justFinished` holds exactly when some task of the new snapshot has a same-id task
      in the old one, the first such old task was not a success, and the new one is.
      A task absent from the old snapshot never counts. */
  lemma JustFinishedIff(oldList: seq<Task>, newList: seq<Task>)
    ensures JustFinished(oldList, newList) <==> exists i: nat, j: nat :: FinishedAt(oldList, newList, i, j)
  {
    JustFinishedSome(oldList, newList);
    if JustFinished(oldList, newList) {
      var j :| 0 <= j < |newList| && FinishedNow(oldList, newList[j]);
      FindFirst(oldList, newList[j].id);
      var i: nat :| FirstWithId(oldList, newList[j].id, i) && oldList[i] == Find(oldList, newList[j].id).value;
      assert FinishedAt(oldList, newList, i, j);
    }
    if exists i: nat, j: nat :: FinishedAt(oldList, newList, i, j) {
      var i: nat, j: nat :| FinishedAt(oldList, newList, i, j);
      FindAt(oldList, newList[j].id, i);
      assert FinishedNow(oldList, newList[j]);
    }
  }

  /* ---------- the counter ---------- */

  lemma {:induction false} CountAppend(a: seq<Task>, b: seq<Task>)
    ensures ProcessingCount(a + b) == ProcessingCount(a) + ProcessingCount(b)
    decreases |b|
  {
    if |b| == 0 {
      assert a + b == a;
    } else {
      assert (a + b)[..|a + b| - 1] == a + b[..|b| - 1];
      CountAppend(a, b[..|b| - 1]);
    }
  }

  /** The counter is zero exactly when no task is running, and the list's length
      exactly when every task is. */
  lemma {:induction false} CountExtremes(list: seq<Task>)
    ensures ProcessingCount(list) == 0 <==> forall i :: 0 <= i < |list| ==> !Active(list[i])
    ensures ProcessingCount(list) == |list| <==> forall i :: 0 <= i < |list| ==> Active(list[i])
  {
    if |list| > 0 {
      var init := list[..|list| - 1];
      CountExtremes(init);
      assert forall i :: 0 <= i < |init| ==> init[i] == list[i];
    }
  }

  /** The counter does not depend on the order of the list. */
  lemma {:induction false} CountPermutation(a: seq<Task>, b: seq<Task>)
    requires multiset(a) == multiset(b)
    ensures ProcessingCount(a) == ProcessingCount(b)
    decreases |a|
  {
    if |a| == 0 {
      assert |b| == |multiset(b)|;
    } else {
      var n := |a| - 1;
      var i := IndexOfElement(b, a[n]);
      var a', b' := a[..n], b[..i] + b[i + 1..];
      RemoveBoth(a, b, i);
      CountPermutation(a', b');
      CountRemoveAt(b, i);
      CountRemoveAt(a, n);
      assert a[..n] + a[n + 1..] == a';
    }
  }

  /** An element of the multiset of `b` sits at some index of `b`. */
  lemma IndexOfElement(b: seq<Task>, x: Task) returns (i: nat)
    requires x in multiset(b)
    ensures i < |b| && b[i] == x
  {
    assert x in b;
    i :| i < |b| && b[i] == x;
  }

  /** Taking the last element of `a` and an equal element of `b` out of two
      permutations leaves permutations. */
  lemma RemoveBoth(a: seq<Task>, b: seq<Task>, i: nat)
    requires multiset(a) == multiset(b) && |a| > 0 && i < |b| && b[i] == a[|a| - 1]
    ensures multiset(a[..|a| - 1]) == multiset(b[..i] + b[i + 1..])
  {
    var n := |a| - 1;
    RemoveAt(b, i);
    RemoveAt(a, n);
    assert a[..n] + a[n + 1..] == a[..n];
  }

  lemma RemoveAt(b: seq<Task>, i: nat)
    requires i < |b|
    ensures multiset(b[..i] + b[i + 1..]) == multiset(b) - multiset{b[i]}
  {
    assert b == b[..i] + [b[i]] + b[i + 1..];
  }

  lemma CountRemoveAt(b: seq<Task>, i: nat)
    requires i < |b|
    ensures ProcessingCount(b) == ProcessingCount(b[..i] + b[i + 1..]) + (if Active(b[i]) then 1 else 0)
  {
    var head, rest := b[..i], b[i..];
    assert b == head + rest;
    CountAppend(head, rest);
    var x, tail := b[i], b[i + 1..];
    assert rest == [x] + tail;
    CountAppend([x], tail);
    CountSingle(x);
    CountAppend(head, tail);
  }

  lemma CountSingle(x: Task)
    ensures ProcessingCount([x]) == if Active(x) then 1 else 0
  {
    assert [x][..0] == [];
  }

  /** A submission shows up on the client as one more running task. */
  lemma SubmitRaisesCount(q: Queue, taskId: string, createdAt: string, args: seq<Json.Json>,
                          kwargs: Json.Record, socket: Option<Socket>)
    requires Valid(q) && taskId !in q.tasks
    ensures ProcessingCount(GetList(Submit(q, taskId, createdAt, args, kwargs, socket).queue))
         == ProcessingCount(GetList(q)) + 1
  {
    var s := Submit(q, taskId, createdAt, args, kwargs, socket);
    SubmitPreservesValid(q, taskId, createdAt, args, kwargs, socket);
    GetListSpec(q);
    GetListSpec(s.queue);
    var before := Values(q.order, q.tasks);
    CountPermutation(GetList(q), before);
    CountPermutation(GetList(s.queue), before + [s.queue.tasks[taskId]]);
    CountAppend(before, [s.queue.tasks[taskId]]);
    assert [s.queue.tasks[taskId]][..0] == [];
  }

  /** In a list where every task with the id is `t`, and `t` occurs, `find` gives `t`. */
  lemma FindOnly(list: seq<Task>, t: Task)
    requires t in list
    requires forall u :: u in list && u.id == t.id ==> u == t
    ensures Find(list, t.id) == Some(t)
  {
  }

  /** A task that was running and is a success in the next snapshot is noticed, when
      the old snapshot holds no other task with its id. */
  lemma NoticedBetween(oldList: seq<Task>, newList: seq<Task>, t: Task, t': Task)
    requires t in oldList && (forall u :: u in oldList && u.id == t.id ==> u == t)
    requires t' in newList && t'.id == t.id
    requires t.status != Succeeded && t'.status == Succeeded
    ensures JustFinished(oldList, newList)
  {
    FindOnly(oldList, t);
    var j :| 0 <= j < |newList| && newList[j] == t';
    assert FinishedNow(oldList, newList[j]);
    JustFinishedSome(oldList, newList);
  }

  /** When the server finishes a running job successfully, the next broadcast makes the
      client notice it, whatever else the snapshots hold. */
  lemma ServerSuccessIsNoticed(q: Queue, taskId: string)
    requires Valid(q) && taskId in q.tasks && q.tasks[taskId].status == Pending
    ensures JustFinished(GetList(q), GetList(Runner(q, taskId, Returned).final))
  {
    var r := Runner(q, taskId, Returned);
    RunnerLifecycle(q, taskId, Returned);
    InListing(q, taskId);
    InListing(r.final, taskId);
    NoticedBetween(GetList(q), GetList(r.final), q.tasks[taskId], r.final.tasks[taskId]);
  }
}

=== FILE: wrappers.dfy ===
/** Option and Result, the two failure-carrying datatypes the model uses in place of
    Python's `None` returns and raised exceptions. */
module Wrappers {

  datatype Option<+T> = None | Some(value: T) {

    /** The value held, or `default` when there is none. */
    function GetOr(default: T): T {
      match this
      case Some(v) => v
      case None => default
    }
  }

  /** The outcome of an operation that either returns a value or raises. */
  datatype Result<+R, +E> = Success(value: R) | Failure(error: E)
}
